=== FILE: README.md ===
# HoopHub ingestion core in Dafny

HoopHub keeps an NBA season in a relational store (Team, Venue, Player,
Game, PlayerGameStats) and in CSV sheets. A handful of batch scripts fill them
from the public stats feed. This project models those scripts as pure functions
and proves what they promise:

- **Game ids.** A feed game id such as `"0022500123"` becomes the store's
  integer id by stripping leading zeros and parsing (`GameIds`). The updater's
  sheet keeps the id as text re-padded to ten digits; the snapshot keeps the raw
  feed id.
- **Pairing.** The scores feed delivers one line per team per game. Lines are
  grouped by game id, each pair is split into home and away by the `vs.`/`@`
  patterns or by the first-line fallback, and both teams are resolved through
  the Team table (`Matchup`, `Grouping`, `Reconcile`).
- **Enrichment.** A per-date scoreboard call, tried at most three times (once in
  the snapshot), adds the arena, the Venue id and the attendance (`Enrich`).
- **Commits.**
  - The daily script commits all games or none. It refuses the batch when a
    game has no venue.
  - The historical backfill inserts game by game with a default venue
    (`GameCommit`, over the keyed table of `Store`).
- **Player statistics.** Box-score lines are keyed by (game, player).
  - The daily script refuses the whole batch when a player name is unknown,
    and rolls back on any insert error.
  - The range script drops unknown players and counts per-row errors
    (`PlayerStats`).
- **Whole runs.** `ScoreRuns` models the two score scripts and `SheetRuns`
  models the CSV updater (merge, keep-last, sort) and the CSV snapshot. Each is
  a function from the store or sheet, the feed answers and the date to an
  outcome and the new state.

Modules, one per concern:

| module | models |
|---|---|
| `Wrappers` | `Option` with `GetOr`/`Get` (a dictionary `.get`) |
| `Text` | `str.strip`, `str.lower`, digit strings, `int`/`str` on naturals, `zfill`, string order |
| `Seqs` | insertion sort by a total order, keep-last de-duplication, filters, key sets |
| `Feed` | the rows the feed and the store hand over; the feed's scoreboard replies |
| `GameIds` | the two game-id conversions and the ten-digit sheet id |
| `Identity` | team, venue and player lookups built from the store's tables |
| `Matchup` | the home/away patterns and the positional fallback |
| `Grouping` | the date filters and the group-by on game id |
| `Reconcile` | the fate of one group in each script, and the tallies |
| `Store` | a keyed table with an insert that refuses a present key |
| `Enrich` | one scoreboard answer absorbed, the bounded retry, and applying what was gathered |
| `GameCommit` | the strict and the lenient game commits |
| `PlayerStats` | stat coercion, name mapping, the strict daily and lenient range stat loads |
| `ScoreRuns` | `DailyScoreInsert.py` and `HistoricalScoreInsert.py` end to end |
| `SheetRuns` | `daily_updater.py` and `test.py` end to end |

The model includes conventions that stand in for I/O:

- **Scoreboard answers.** A script's scoreboard calls are answered from a list
  `replies`. Call `i` receives `replies[i]`, and calls beyond the list fail.
  `Failed` stands for any exception the call raises. The per-date scripts take
  a function from date to such a list.
- **Feed fetch.** A feed fetch is an `Option`. `None` is the exception that
  makes the script exit.
- **Store errors.** The store's tables carry a set `refused` of keys whose
  insert raises an error, such as a foreign-key or other constraint failure.
  Inserting an existing key also fails, because the primary key rejects it.
- **Dates.** "Yesterday" and the configured date window are parameters.
  Dates are already-normalised `YYYY-MM-DD` strings, compared as Python
  compares strings.

Behaviour worth knowing:

- **All-zero ids.** In the scores scripts `"0000000000".lstrip('0')` is
  empty and `int('')` raises, so `GameNumber` is `None` there.
  - `DailyScoreInsert.py` and `HistoricalScoreInsert.py` make that
    conversion outside any `try`, so one bad id in the day's or window's lines
    ends the run before anything is written (`IdCrash`, `RangeIdCrash`).
  - In the stats scripts even `"0"` converts to a missing id.
- **Empty Venue table.** The lenient backfill reads the default venue outside
  its `try`, so an empty Venue table ends the run (`VenueQueryCrash`) rather
  than only aborting the batch. The strict daily script reads it inside its
  `try`, so the same condition is a rollback (`NoDefaultVenue`), checked
  before the missing-venue test.
- **Per-row failures in the backfill.** Failing inserts are counted
  (`failed`) and the rest are committed.
- **Snapshot retries.** `test.py` asks the scoreboard once per date, with no
  retry.
- **Unreadable master sheet.** When the master sheet exists but cannot be read
  and nothing new is found, `daily_updater.py` calls `to_csv` on `None` and
  raises (`SaveCrash`). When new games are found, `pd.concat` drops the
  missing frame and the master file is overwritten with the new rows only:
  every game the unreadable file held is lost (`UnreadableMasterReplaced`).
- **Skip counters.** In the backfill, the updater and the snapshot, only a
  game whose team abbreviation does not resolve adds to `skipped`. Games with
  fewer than two lines, and games whose home side cannot be told, are passed
  over without being counted anywhere.
- **Unknown arenas in the updater.** The updater records an arena name even
  when it matches no Venue. `VENUE_ID` stays empty for such a game.

## Model

| member | source | states |
|---|---|---|
| GameIds.GameNumber | Stats_Scores/DailyScoreInsert.py:112 | the store id of a feed id: `"0"` is 0; a digit string with a non-zero digit is its decimal value, leading zeros ignored; every other string (empty, all zeros, any non-digit) has no id |
| GameIds.StatGameNumberAgrees | Stats_Scores/DailyStatsInsert.py:108-109 | the stats scripts' conversion agrees with the scores scripts' everywhere except on `"0"`, which the stats scripts leave without an id |
| GameIds.NumberSpellsStripped | Stats_Scores/HistoricalScoreInsert.py:121 | for a valid id, `str` of the store id gives back the id with its leading zeros removed |
| GameIds.PaddedIdRoundTrip | Stats_Scores/daily_updater.py:56-59 | a ten-digit sheet id that CSV reading turned into an integer is restored exactly by `str` and `zfill(10)` |
| GameIds.PaddedKeysAgree | Stats_Scores/daily_updater.py:114-117 | for ids of at most ten digits, two ids have the same padded sheet key exactly when they have the same store id, so the sheet's duplicate test and the store's agree |
| GameIds.PaddedValue | Stats_Scores/daily_updater.py:114 | padding keeps a digit string's numeric value |
| GameIds.PaddedCanonical | Stats_Scores/daily_updater.py:114 | the padded id of a valid id is zeros followed by the id without its leading zeros, filled to ten |
| Text.StripIgnoresPadding | Stats_Scores/DailyScoreInsert.py:61 | whitespace added on either side of a name changes nothing after `strip` |
| Text.StripIdempotent | Stats_Scores/daily_updater.py:193 | stripping an already stripped name changes nothing |
| Text.StripParts | Stats_Scores/daily_updater.py:193 | every string is whitespace, then its stripped form, then whitespace |
| Text.StripLowerCommute | Stats_Scores/DailyStatsInsert.py:89 | stripping then lower-casing equals lower-casing then stripping |
| Text.LowerIdempotent | Stats_Scores/DailyStatsInsert.py:89 | lower-casing twice equals lower-casing once |
| Text.DecimalValue | Stats_Scores/daily_updater.py:59 | `int(str(n)) == n` for every natural `n` |
| Text.DecimalOfDigits | Stats_Scores/daily_updater.py:59 | `str(int(t)) == t` for a digit string without a leading zero |
| Text.ZFillDigits | Stats_Scores/daily_updater.py:59 | `zfill` of a short digit string prefixes exactly the missing zeros and keeps it a digit string |
| Text.StrLeTotal | Stats_Scores/HistoricalScoreInsert.py:99-100 | Python's string order relates any two strings |
| Text.StrLeTransitive | Stats_Scores/HistoricalScoreInsert.py:99-100 | Python's string order is transitive |
| Text.StrLeAntisymmetric | Stats_Scores/HistoricalScoreInsert.py:99-100 | two strings ordered both ways are equal |
| Seqs.SortBy | test.py:212-214 | sorting by a total order yields an ordered permutation of its input |
| Seqs.KeepLastSpec | Stats_Scores/daily_updater.py:227 | de-duplicating with keep-last leaves each key once, keeps every key, invents no row, and keeps each key's last row |
| Seqs.SortedKeys | Stats_Scores/HistoricalScoreInsert.py:182 | the sorted set of keys is ordered, repeats nothing, and holds exactly the keys that occur |
| Identity.IndexBy | Stats_Scores/DailyScoreInsert.py:55 | a dictionary built from rows holds every row's key, and each entry comes from a row with that key |
| Identity.IndexLastWins | Stats_Scores/DailyScoreInsert.py:55 | when a key repeats, the dictionary holds the value of its last row |
| Identity.PlayerIndexLaterWins | Stats_Scores/DailyStatsInsert.py:48-51 | a player whose name key no later player repeats is found under that key with their own id |
| Identity.JoinedPlayersHaveTeams | Stats.py:42-54 | every name in the range script's player index belongs to a player whose team is in the Team table, and maps to that player's id |
| Identity.NameKeyIgnoresPadding | Stats_Scores/DailyStatsInsert.py:89 | surrounding whitespace does not change a name key |
| Identity.NameKeyIgnoresCase | Stats_Scores/DailyStatsInsert.py:89 | lower-casing a name first does not change its key |
| Identity.NameKeyKeepsInnerSpace | Stats_Scores/DailyStatsInsert.py:89 | for any two non-empty name parts without border whitespace, a doubled space between them makes a different key from a single one |
| Identity.DoubledSpaceMissesPlayer | Stats_Scores/DailyStatsInsert.py:48-51 | a feed name with a doubled space between a player's first and last name does not have that player's key |
| Identity.FeedNameFindsPlayer | Stats_Scores/DailyStatsInsert.py:48-51 | a feed name that is the player's "first last" with any padding and lower-casing has the player's key |
| Identity.Resolve | Stats_Scores/DailyScoreInsert.py:148-151 | a lookup succeeds exactly when the key is present with a non-zero id (0 is falsy in the source); what it returns is a non-zero id stored in the map |
| Identity.ResolveLastTeam | Stats_Scores/DailyScoreInsert.py:55 | an abbreviation resolves to its last Team row's id when that id is non-zero, and fails when it is zero |
| Identity.ResolvedTeamExists | Stats_Scores/DailyScoreInsert.py:148-151 | a resolved abbreviation names a Team row with that abbreviation and a non-zero id; one no Team row carries never resolves |
| Identity.DefaultVenue | Stats_Scores/HistoricalScoreInsert.py:250-251 | the default venue exists exactly when the Venue table is non-empty, and is its smallest id |
| Matchup.SplitHomeAway | Stats_Scores/DailyScoreInsert.py:126-141 | both chosen lines come from the group; the split fails exactly when the pattern test does not single out one home and one away line and the first line has neither `@` nor `vs` |
| Matchup.TaggedLinesDecide | Stats_Scores/DailyScoreInsert.py:126-131 | when exactly one line matches each pattern, those lines are home and away whatever the first line says |
| Matchup.TwoTaggedLinesEitherOrder | Stats_Scores/DailyScoreInsert.py:126-131 | a well-tagged home/away pair is split the same way in either order |
| Matchup.FirstRowDecides | Stats_Scores/DailyScoreInsert.py:132-141 | the fallback decides exactly when the first line contains `@` or `vs` in any case; the pair it returns is the first two lines in one order or the other, and the first line is the visitor exactly when it carries `@` |
| Matchup.FirstRowDecidesOnTwoLines | Stats_Scores/DailyScoreInsert.py:132-141 | the fallback reads only the first two lines, and the second line's tag does not decide whether it places them |
| Matchup.AtBeatsVsInFallback | Stats_Scores/DailyScoreInsert.py:133-135 | in the fallback an `@` in the first line wins over a `vs` in it |
| Matchup.ApiSpellings | Stats_Scores/DailyScoreInsert.py:105-106 | the feed's `"BOS vs. LAL"` is a home line only and `"LAL @ BOS"` an away line only |
| Matchup.LongSOnlyInPattern | Stats_Scores/DailyScoreInsert.py:105-136 | the case-insensitive pattern accepts the long s, `"vſ"`, as `vs`, but the lower-cased substring test of the fallback does not |
| Grouping.DayLines | Stats_Scores/DailyScoreInsert.py:87 | the day's lines are exactly the feed lines dated that day |
| Grouping.WindowLines | Stats_Scores/HistoricalScoreInsert.py:99-100 | the window's lines are exactly the feed lines whose date lies between the bounds, inclusive |
| Grouping.SortedGameIds | Stats_Scores/DailyScoreInsert.py:111 | the group keys are ordered, distinct, and exactly the game ids that occur |
| Grouping.GroupByGame | Stats_Scores/DailyScoreInsert.py:111 | groups come in id order, one per id, none empty, each holding exactly its id's lines in feed order |
| Grouping.GroupOfLine | Stats_Scores/DailyScoreInsert.py:111 | every line lands in the group of its own game id |
| Reconcile.PairGroup | Stats_Scores/DailyScoreInsert.py:121-154 | fewer than two lines is "too few"; otherwise no split is "undetermined"; a pairing names home and away from the group whose stripped abbreviations resolve to non-zero team ids; "team not found" exactly when one side does not resolve |
| Reconcile.DbFate | Stats_Scores/DailyScoreInsert.py:112-165 | a bad id crashes; a stored id is a duplicate before any other test; too few lines is reported only for a new id; an emitted record carries the store id, the home line's date, both team ids and both scores, with no venue or attendance yet |
| Reconcile.UpdaterFate | Stats_Scores/daily_updater.py:114-167 | the updater never crashes on an id; a group is a duplicate exactly when its padded id is in the master sheet; an emitted row is keyed by the padded id and carries both teams' names, abbreviations, ids and scores |
| Reconcile.SnapshotFate | test.py:101-149 | the snapshot never crashes and has no duplicates; it emits exactly the paired groups, keyed by the raw feed id |
| Reconcile.TallyFates | Stats_Scores/DailyScoreInsert.py:107-172 | the run fails exactly when some group crashes; otherwise the records are the emitted ones in order and every group lands in exactly one counter |
| Reconcile.MoreStoredEmitsLess | Stats_Scores/DailyScoreInsert.py:116-119 | a larger stored-id set only turns emitted records into duplicates and never changes a record that is still emitted |
| Reconcile.ReconcileAgainEmitsNothing | Stats_Scores/DailyScoreInsert.py:116-119 | once every emitted id is stored, reconciling the same groups again emits nothing |
| Reconcile.EmittedShrinks | Stats_Scores/DailyScoreInsert.py:116-119 | what is emitted against more stored ids was already emitted against fewer, and its id is new |
| Reconcile.UpdaterEmittedShrinks | Stats_Scores/daily_updater.py:117-119 | the same for the updater's master-id set |
| Store.Insert | Stats_Scores/HistoricalScoreInsert.py:269-282 | an insert succeeds exactly when the key is neither present nor refused; then the keys grow by exactly that key, it holds the new value, every old key keeps its value, and the refused set is unchanged |
| Store.InsertTwiceFails | Stats_Scores/HistoricalScoreInsert.py:269-282 | a key inserted once is rejected the second time, whatever the value |
| Enrich.TrimmedArena | Stats_Scores/DailyScoreInsert.py:204 | an arena is kept exactly when it is present and not blank after `strip`; a kept name is non-empty and has no border whitespace |
| Enrich.TrimmedArenaPadding | Stats_Scores/DailyScoreInsert.py:204 | whitespace around an arena name does not change what is kept |
| Enrich.TrimmedArenaBlank | Stats_Scores/DailyScoreInsert.py:204 | a blank arena name is no name |
| Enrich.TrimmedArenaIdempotent | Stats_Scores/DailyScoreInsert.py:204 | a kept arena name is kept unchanged when trimmed again |
| Enrich.AbsorbRow | Stats_Scores/DailyScoreInsert.py:203-219 | a kept arena is recorded, and its venue too when it resolves, otherwise it is recorded as unmatched; only positive attendance is recorded; nothing else changes; gathered venues stay real non-zero Venue ids |
| Enrich.AbsorbArena | Stats_Scores/daily_updater.py:192-200 | the updater records every kept arena, and its venue only when the name resolves |
| Enrich.AbsorbRows | Stats_Scores/DailyScoreInsert.py:198-219 | absorbing a scoreboard keeps what was gathered sound, and finishes exactly when every row's id converts (a failed conversion is the exception that aborts the attempt) |
| Enrich.Attempt | Stats_Scores/DailyScoreInsert.py:189-223 | an attempt succeeds exactly when the call is answered and its header is empty, lacks a game-id column, or has only convertible ids; a failed call gathers nothing |
| Enrich.Retry | Stats_Scores/DailyScoreInsert.py:182-230 | at most `tries` calls are made with one pause between consecutive calls; the retry succeeds exactly when one of the first `tries` answers would succeed, and stops at the first such answer; on failure it has used every try |
| Enrich.RetryGivesUp | Stats_Scores/DailyScoreInsert.py:28-230 | with no answer at all, the three attempts are spent with two pauses and nothing gathered |
| Enrich.RetryEachDate | Stats_Scores/HistoricalScoreInsert.py:186-235 | one retry per date, in the given order; each date's outcome depends only on that date's answers; gathered data stays sound |
| Enrich.TraceOfDates | Stats_Scores/HistoricalScoreInsert.py:182-186 | asking the sorted distinct dates in order makes one ascending, repeat-free call sequence covering exactly those dates |
| Enrich.ApplyToGames | Stats_Scores/DailyScoreInsert.py:236-238 | each game has a venue exactly when one was gathered for its id, likewise attendance, and its id, date, teams and scores are unchanged |
| Enrich.EnrichedGamesSound | Stats_Scores/DailyScoreInsert.py:199-238 | after enrichment every venue is a real non-zero Venue id, every attendance positive, and the rest of each game unchanged |
| Enrich.ApplyToUpdaterRows | Stats_Scores/daily_updater.py:217-221 | a sheet row has an arena, a venue id and an attendance exactly when each was gathered under its id, and all its other columns are unchanged |
| Enrich.EnrichedSheetRowsSound | Stats_Scores/daily_updater.py:217-221 | after the updater's enrichment an arena is a non-empty trimmed name, a venue id a non-zero Venue id, and an attendance positive |
| Enrich.ApplyIdempotent | Stats_Scores/daily_updater.py:217-221 | enriching twice with the same gathered maps gives what enriching once gives, for games, updater rows and snapshot rows |
| Enrich.ApplyToSnapshotRows | test.py:206-209 | a snapshot row has an arena and an attendance exactly when each was gathered under its id, and every other column, venue id included, is unchanged |
| GameCommit.InsertAllLands | Stats_Scores/DailyScoreInsert.py:281-304 | the insert loop reaches the commit exactly when every id is new, accepted by the store and distinct within the batch |
| GameCommit.InsertAllStopsAtFirstClash | Stats_Scores/DailyScoreInsert.py:281-309 | a failing loop stops at the first game whose insert clashes with the store or an earlier game |
| GameCommit.InsertAllContents | Stats_Scores/DailyScoreInsert.py:281-304 | a landed loop keeps every stored row, stores each game under its id, and adds nothing else |
| GameCommit.StrictCommit | Stats_Scores/DailyScoreInsert.py:241-311 | commits exactly when there are games, the Venue table is non-empty, every game has a venue and every insert fits; then it stores exactly the batch on top of the old rows; otherwise the table is unchanged and the outcome names the cause, listing the venue-less games |
| GameCommit.StrictCommitTwice | Stats_Scores/DailyScoreInsert.py:241-309 | committing the same batch again fails and leaves the table as the first commit left it |
| GameCommit.WithVenue | Stats_Scores/HistoricalScoreInsert.py:265-267 | the committed game always has a venue: its matched one if any, else the default; no other field changes |
| GameCommit.WithVenueIdempotent | Stats_Scores/HistoricalScoreInsert.py:265-267 | filling in the venue a second time changes nothing, whatever default is offered |
| GameCommit.InsertEach | Stats_Scores/HistoricalScoreInsert.py:262-282 | every game is either inserted or failed, and the games without venue are counted |
| GameCommit.InsertEachTable | Stats_Scores/HistoricalScoreInsert.py:262-284 | the backfill keeps every stored row, grows by exactly the inserted count, stores each game unless the store refuses its id, and adds only batch games with their venue filled in |
| GameCommit.InsertEachTwice | Stats_Scores/HistoricalScoreInsert.py:262-282 | a batch whose ids are all stored or refused changes nothing and inserts nothing |
| GameCommit.LenientCommit | Stats_Scores/HistoricalScoreInsert.py:246-284 | the backfill crashes exactly when it has games and the Venue table is empty; with no games it does nothing |
| GameCommit.LenientCommitTwice | Stats_Scores/HistoricalScoreInsert.py:246-284 | running the backfill commit again inserts nothing, fails every game, each id being now stored or refused, and leaves the table alone |
| PlayerStats.Trunc | Stats.py:165-172 | `astype(int)` truncates toward zero |
| PlayerStats.TruncProperties | Stats.py:165-172 | truncation keeps whole numbers and commutes with negation |
| PlayerStats.Coerce | Stats_Scores/DailyStatsInsert.py:134-141 | a missing stat is 0; a present one is truncated toward zero: same sign, less than one away, and a whole value is kept |
| PlayerStats.LineOfWholeValues | Stats_Scores/DailyStatsInsert.py:131-143 | a feed row with whole-number stats is stored with exactly those numbers |
| PlayerStats.Tag | Stats_Scores/DailyStatsInsert.py:89-90 | every feed row is kept, in order, and is mapped exactly when its name key is in the index, then to an id stored there |
| PlayerStats.TagFindsPlayer | Stats_Scores/DailyStatsInsert.py:48-51 | against the player index a feed row is mapped exactly when some Player row has its name key, and then to the id of such a row |
| PlayerStats.KeyOf | Stats_Scores/DailyStatsInsert.py:108-124 | a mapped row has a stat key exactly when its game id converts; the key pairs the game number with the row's player, and for every id but `"0"` the game number is the one the scores scripts compute |
| PlayerStats.UnmappedNames | Stats_Scores/DailyStatsInsert.py:93-96 | the reported names are distinct, exactly the names of the unmapped rows, and empty exactly when all rows map |
| PlayerStats.Entries | Stats_Scores/DailyStatsInsert.py:120-143 | each mapped row yields its key and its coerced line, in order, and two rows share a key exactly when they name the same player in the same game |
| PlayerStats.StrictStats | Stats_Scores/DailyStatsInsert.py:120-153 | a completed strict load accounts for every row as inserted or skipped |
| PlayerStats.BadGameIdAborts | Stats_Scores/DailyStatsInsert.py:122-124 | one row whose game id does not convert aborts the load |
| PlayerStats.StoredKeyAborts | Stats_Scores/DailyStatsInsert.py:126-143 | a row whose key was stored after the start-of-run snapshot aborts the load |
| PlayerStats.BatchDuplicateAborts | Stats_Scores/DailyStatsInsert.py:126-143 | two rows with the same new key abort the load |
| PlayerStats.StrictStatsContents | Stats_Scores/DailyStatsInsert.py:120-146 | a completed load keeps every stored row, grows by the inserted count, stores each new row's line under its key, and adds nothing else |
| PlayerStats.StrictStatsAllSkipped | Stats_Scores/DailyStatsInsert.py:126-129 | rows whose keys are all in the snapshot are all skipped and change nothing |
| PlayerStats.DailyStatsRun | Stats_Scores/DailyStatsInsert.py:57-153 | fetch failure, an empty feed, no rows that day and an unknown player are each recognised exactly; only a commit changes the table, and then every row of the day is inserted or skipped |
| PlayerStats.DailyLoad | Stats_Scores/DailyStatsInsert.py:88-153 | an unknown player stops the load and lists exactly the unknown names; otherwise it commits or rolls back, and a rollback leaves the table unchanged |
| PlayerStats.DailyStatsTwice | Stats_Scores/DailyStatsInsert.py:54-146 | running the daily load again after a commit inserts nothing and skips every row |
| PlayerStats.DailyDuplicateRollsBack | Stats_Scores/DailyStatsInsert.py:120-153 | two rows of the day with the same new key roll the whole day back |
| PlayerStats.DailyBadGameIdRollsBack | Stats_Scores/DailyStatsInsert.py:120-153 | a row of the day with an unconvertible game id rolls the whole day back |
| PlayerStats.LenientStats | Stats.py:186-214 | every row is inserted, skipped or counted as an error |
| PlayerStats.LenientStatsContents | Stats.py:186-216 | the range load keeps every stored row, grows by the inserted count, stores each key unless it was in the snapshot or refused, and adds only rows from the batch |
| PlayerStats.LenientStatsSettled | Stats.py:194-197 | when every key is in the snapshot, stored or refused, the range load changes nothing |
| PlayerStats.StatsRangeRun | Stats.py:68-216 | fetch failure and an empty window are recognised exactly; every row of the window is inserted, skipped, an error or dropped, and exactly the unmapped rows are dropped |
| PlayerStats.StatsRangeTwice | Stats.py:186-216 | running the range load again inserts nothing and changes nothing |
| ScoreRuns.CrashIffBadId | Stats_Scores/DailyScoreInsert.py:111-112 | reconciliation fails exactly when some line carries a game id that does not convert |
| ScoreRuns.RecordFromLine | Stats_Scores/DailyScoreInsert.py:111-165 | every emitted record has a new id and comes from a feed line with that id and date |
| ScoreRuns.DailyScoreRun | Stats_Scores/DailyScoreInsert.py:69-311 | the run fails on a failed fetch or on a bad id of the day, changes the table only by committing, and, when enrichment runs, makes one to three scoreboard calls |
| ScoreRuns.DailyFetch | Stats_Scores/DailyScoreInsert.py:182-230 | the daily scoreboard fetch makes one to three calls and gathers only real venues |
| ScoreRuns.DailyCountsAddUp | Stats_Scores/DailyScoreInsert.py:110-172 | games ready, duplicates and other skips add up to the number of the day's groups, and a commit inserts exactly the ready games |
| ScoreRuns.DailyRowsFromFeed | Stats_Scores/DailyScoreInsert.py:87-304 | the run keeps every stored game; each new game has a feed line of that day with its id, and a real venue |
| ScoreRuns.CommittedRowsFromLines | Stats_Scores/DailyScoreInsert.py:110-304 | each committed game comes from a line with its id and date, and has a real venue |
| ScoreRuns.DailyScoreRerun | Stats_Scores/DailyScoreInsert.py:110-309 | running the daily script twice on the same inputs changes nothing the second time, which commits nothing |
| ScoreRuns.CommittedEmitsNothing | Stats_Scores/DailyScoreInsert.py:116-119 | after a commit the same lines reconcile to nothing |
| ScoreRuns.BackfillDates | Stats_Scores/HistoricalScoreInsert.py:182 | the scoreboard dates are sorted, distinct, and exactly the dates of the records |
| ScoreRuns.BackfillFetch | Stats_Scores/HistoricalScoreInsert.py:186-235 | one fetch per record date, in sorted order, each making one to three calls and gathering only real venues |
| ScoreRuns.HistoricalRun | Stats_Scores/HistoricalScoreInsert.py:88-284 | the backfill fails on a failed fetch or a bad id in the window, crashes only with an empty Venue table, changes the table only when it runs to the end, and then counts every record as inserted or failed; `duplicates` is the number of window games already stored and `skipped` the number with an unknown team |
| ScoreRuns.HistoricalCounts | Stats_Scores/HistoricalScoreInsert.py:118-156 | ready, duplicate and unknown-team games plus the uncounted too-few and unplaceable ones make up every game of the window |
| ScoreRuns.HistoricalAsksEachDate | Stats_Scores/HistoricalScoreInsert.py:182-186 | the backfill asks the scoreboard for exactly the records' dates, ascending, each once |
| ScoreRuns.HistoricalRowsFromFeed | Stats_Scores/HistoricalScoreInsert.py:99-284 | the backfill keeps every stored game; each new game is dated inside the window, comes from a feed line with its id and date, and has a matched or the default venue |
| ScoreRuns.HistoricalRerun | Stats_Scores/HistoricalScoreInsert.py:118-284 | a second backfill over the same window changes nothing and inserts nothing |
| ScoreRuns.HistoricalGrows | Stats_Scores/HistoricalScoreInsert.py:246-284 | the backfill only adds games and stores every record unless the store refuses its id |
| SheetRuns.Repad | Stats_Scores/daily_updater.py:59 | reading the master pads every id to at least ten characters, keeps the number a numeric id denotes, and changes no other column |
| SheetRuns.RepadIdempotent | Stats_Scores/daily_updater.py:59 | a padded id is at least ten characters, and re-padding padded rows changes nothing |
| SheetRuns.MergeSpec | Stats_Scores/daily_updater.py:224-228 | the merged sheet is sorted by date then home team, has each id once, has exactly the ids of both parts, invents no row, and keeps each id's last row |
| SheetRuns.MergeKeepsLast | Stats_Scores/daily_updater.py:226-227 | for each id the last row of master followed by new rows survives the merge |
| SheetRuns.MergeInventsNothing | Stats_Scores/daily_updater.py:226-227 | every merged row is a master row or a new row |
| SheetRuns.MergeKeys | Stats_Scores/daily_updater.py:226-227 | the merged sheet has each id once and exactly the ids of both parts |
| SheetRuns.UpdaterRun | Stats_Scores/daily_updater.py:51-234 | a missing master stops the run and only it; a failed fetch is recognised exactly; an unreadable master is the only way to crash on save; with nothing new the master is saved back as read; otherwise the saved sheet is sorted; `added`, `duplicates` and `skipped` are the numbers of new, already-present and unknown-team games; an unreadable master is replaced by the merged new rows alone |
| SheetRuns.UpdaterCounts | Stats_Scores/daily_updater.py:117-149 | added, duplicate and unknown-team games plus the uncounted too-few and unplaceable ones make up every game of the day |
| SheetRuns.UnreadableMasterReplaced | Stats_Scores/daily_updater.py:224-234 | with an unreadable master the run crashes exactly when nothing is new, and otherwise saves only the new rows, so the saved ids are exactly theirs |
| SheetRuns.UpdaterKeepsMaster | Stats_Scores/daily_updater.py:224-234 | for a readable master, the saved sheet keeps every master id and, for each, the master's last row; after a merge each id appears once (an unreadable master has no ids to keep) |
| SheetRuns.UpdaterAddsFeedGames | Stats_Scores/daily_updater.py:97-169 | every id in the saved sheet that the master lacks is the padded id of a feed line of that day |
| SheetRuns.NewRowFresh | Stats_Scores/daily_updater.py:114-119 | every new row's id is padded and absent from the master |
| SheetRuns.MergedSheetRereads | Stats_Scores/daily_updater.py:56-60 | reading the saved sheet back yields the same rows |
| SheetRuns.MergedSheetEmitsNothing | Stats_Scores/daily_updater.py:114-119 | against the saved sheet, the same feed lines yield no new rows |
| SheetRuns.UpdaterRerun | Stats_Scores/daily_updater.py:51-234 | running the updater again on its own saved sheet saves the same sheet and adds nothing |
| SheetRuns.UpdaterRunNothingNew | Stats_Scores/daily_updater.py:229-234 | with a readable master and nothing new, the master is saved back unchanged |
| SheetRuns.SnapshotDates | test.py:166 | the snapshot's dates are sorted, distinct, and exactly the records' dates |
| SheetRuns.SnapshotEnrich | test.py:164-214 | the snapshot sheet is sorted and as long as the records; each date is asked once, in order, and succeeds exactly when its one answer does |
| SheetRuns.SnapshotRun | test.py:71-221 | the snapshot fails exactly on a failed fetch; its sheet is sorted, empty exactly when no date was asked, and each date was asked once; the sheet has one row per game that pairs and `skipped` is the number of unknown-team games |
| SheetRuns.SnapshotCounts | test.py:100-131 | rows and unknown-team games plus the uncounted too-few and unplaceable ones make up every game of the window |
| SheetRuns.SnapshotRecordIds | test.py:101-151 | the snapshot's ids are exactly the window's game ids whose groups pair |
| SheetRuns.SnapshotGames | test.py:83-151 | the snapshot sheet has each id once, and exactly the paired game ids of the window |
| SheetRuns.SnapshotRowsFromFeed | test.py:83-209 | every snapshot row comes from a feed line with its id and date inside the window, has no venue id, a stripped non-empty arena if any, and a positive attendance if any |
| SheetRuns.SnapshotAsksEachDate | test.py:166-170 | the snapshot asks the scoreboard for exactly its rows' dates, ascending, each once |

## Left out

- Database connections, cursors, SQL text and the Streamlit pages
  (`HoopHub.py`, `Pages/`, `db_operations.py`) are not modelled. The store
  appears only as its keyed tables.
- `Stats_Scores/DataLoad.py` (the one-off bulk load) is not part of this
  model.
- Clock and time zone: "yesterday" and the date windows are parameters.
  `pd.to_datetime(...).dt.date` normalisation is assumed done, so dates are
  strings.
- Sleeps are not modelled. The retry counts its pauses instead of sleeping.
  The 0.1-second pause after a successful date is left out entirely.
- Printing is not modelled: progress lines, the missing-arena messages, the
  per-date "found" counts, summary queries and the top-scorer listing in the
  stats scripts. The strict commit's outcome lists the venue-less games and
  `Gathered.unmatched` keeps the arena names, but no message text.
- CSV writing details are not modelled: timestamped file names, column
  selection and the empty frame's header. The updater's and the snapshot's
  team-id bookkeeping files are not modelled either.
- Floating point and NaN are not modelled. Scores and attendance are
  `Option<int>` and stat values are `Option<real>`. Attendance that is positive
  but not whole is out of scope.
- `pd.read_csv` type inference is modelled only for the game-id column (as the
  re-padding of `Repad`). Other columns read back as written.
- Seqs.SortBy: pandas' `sort_values` order among rows with equal date and home team
  is not stated; the model proves only sortedness and permutation.
- GameIds.GameNumber: Python's `int` also accepts surrounding whitespace, a
  sign, underscores and non-ASCII digits; the model accepts ASCII digits only,
  which is what the feed delivers.
- Text.LowerChar: `str.lower` is modelled for ASCII, Latin-1 and Latin
  Extended-A; other characters are left unchanged. Python lowers U+0130
  (capital I with dot above) to two characters, `i` followed by U+0307; the
  model keeps it as one unchanged character, so a name holding it gets a
  different key from Python's.
- GameIds.StatGameNumber: `pd.to_numeric` also accepts decimal and exponent
  spellings (`"12.0"`, `"1e3"`), a sign and surrounding whitespace, and
  `astype('Int64')` then keeps whole values; the model converts ASCII digit
  strings only, which is what the feed delivers.
- GameIds.StatGameNumberAgrees: the agreement is stated for the modelled
  conversions; on spellings only `pd.to_numeric` accepts, such as `"12.0"`,
  the stats scripts would find an id where the scores scripts' `int` raises,
  and that difference is not stated.
- Matchup.MatchesVs: `\s` is taken to be the same character set as
  `str.isspace`.
- A rejected insert in the range and backfill scripts is taken to leave the open
  MySQL transaction usable, so later rows still commit. Other driver failures
  are not modelled.
- Concurrent runs and transaction isolation are not modelled. Each run sees
  the store as read at its start.

=== FILE: enrich.dfy ===
/**
 * Venue and attendance enrichment from the scoreboard's game header. Each request
 * either raises or serves a header; the scripts retry a failed request up to
 * `MAX_RETRIES` times, pausing only between failed attempts. Maps filled by an attempt
 * that raised half-way keep what that attempt recorded.
 */
module Enrich {
  import opened Wrappers
  import opened Text
  import opened Seqs
  import opened Feed
  import opened Identity
  import opened Reconcile

  /** `MAX_RETRIES` of the database scripts and the CSV updater. */
  const MaxRetries: nat := 3

  /** The maps an enrichment pass fills, keyed by the script's game key: matched venue
      ids, positive attendances, trimmed arena names, and arena names the venue map does
      not resolve. */
  datatype Gathered<K> = Gathered(
    venues: map<K, int>,
    attendance: map<K, int>,
    arenas: map<K, string>,
    unmatched: map<K, string>)

  function NothingGathered<K>(): Gathered<K> {
    Gathered(map[], map[], map[], map[])
  }

  /** What every entry of the maps satisfies: a venue is a non-zero id of the venue
      map, an attendance is positive, an arena is a non-empty trimmed name, and an
      unmatched arena is a trimmed name the venue map does not resolve. */
  ghost predicate Sound<K(!new)>(g: Gathered<K>, idx: map<string, int>) {
    (forall k :: k in g.venues ==> g.venues[k] != 0 && g.venues[k] in idx.Values)
    && (forall k :: k in g.attendance ==> g.attendance[k] > 0)
    && (forall k :: k in g.arenas ==> |g.arenas[k]| > 0 && NoBorderSpace(g.arenas[k]))
    && (forall k :: k in g.unmatched ==> Resolve(idx, g.unmatched[k]).None?)
  }

  /** `str(ghr.get("ARENA_NAME") or "").strip() or None`. */
  function TrimmedArena(a: Option<string>): (r: Option<string>)
    ensures r.Some? <==> a.Some? && |Strip(a.value)| > 0
    ensures r.Some? ==> r.value == Strip(a.value)
    ensures r.Some? ==> |r.value| > 0 && NoBorderSpace(r.value)
  {
    if a.Some? && |Strip(a.value)| > 0 then Some(Strip(a.value)) else None
  }

  /** Whitespace around an arena name does not matter. */
  lemma TrimmedArenaPadding(left: string, name: string, right: string)
    requires AllSpace(left) && AllSpace(right)
    ensures TrimmedArena(Some(left + name + right)) == TrimmedArena(Some(name))
  {
    StripIgnoresPadding(left, name, right);
  }

  /** A blank arena name is no name. */
  lemma TrimmedArenaBlank(name: string)
    requires AllSpace(name)
    ensures TrimmedArena(Some(name)).None?
  {
    StripIgnoresPadding(name, [], []);
    assert name + [] + [] == name;
  }

  /** A kept arena name comes back unchanged when trimmed again. */
  lemma TrimmedArenaIdempotent(name: string)
    ensures TrimmedArena(Some(name)).Some? ==> TrimmedArena(TrimmedArena(Some(name))) == TrimmedArena(Some(name))
  {
    StripIdempotent(name);
  }

  /** One header row, once its key is known: the trimmed arena is recorded, and it
      either resolves to a venue or is noted as unmatched; a positive attendance is
      recorded. A column the header lacks is skipped. */
  function AbsorbRow<K(!new)>(acc: Gathered<K>, h: Header, row: HeaderRow, key: K, idx: map<string, int>): (g: Gathered<K>)
    ensures Sound(acc, idx) ==> Sound(g, idx)
    ensures h.hasArena && TrimmedArena(row.arena).Some? ==>
              var name := TrimmedArena(row.arena).value;
              key in g.arenas && g.arenas[key] == name &&
              (Resolve(idx, name).Some? ==>
                 key in g.venues && g.venues[key] == idx[name] && g.unmatched == acc.unmatched) &&
              (Resolve(idx, name).None? ==>
                 key in g.unmatched && g.unmatched[key] == name && g.venues == acc.venues)
    ensures !(h.hasArena && TrimmedArena(row.arena).Some?) ==>
              g.venues == acc.venues && g.arenas == acc.arenas && g.unmatched == acc.unmatched
    ensures h.hasAttendance && row.attendance.Some? && row.attendance.value > 0 ==>
              g.attendance == acc.attendance[key := row.attendance.value]
    ensures !(h.hasAttendance && row.attendance.Some? && row.attendance.value > 0) ==>
              g.attendance == acc.attendance
  {
    var g1 := AbsorbArena(acc, if h.hasArena then TrimmedArena(row.arena) else None, key, idx);
    if h.hasAttendance && row.attendance.Some? && row.attendance.value > 0
    then g1.(attendance := g1.attendance[key := row.attendance.value])
    else g1
  }

  /** The arena half of one row: a trimmed name is recorded, and either its venue or
      the name as unmatched. */
  function AbsorbArena<K(!new)>(acc: Gathered<K>, arena: Option<string>, key: K, idx: map<string, int>): (g: Gathered<K>)
    requires arena.Some? ==> |arena.value| > 0 && NoBorderSpace(arena.value)
    ensures Sound(acc, idx) ==> Sound(g, idx)
    ensures g.attendance == acc.attendance
    ensures arena.Some? ==>
              key in g.arenas && g.arenas[key] == arena.value &&
              (Resolve(idx, arena.value).Some? ==>
                 key in g.venues && g.venues[key] == idx[arena.value] && g.unmatched == acc.unmatched) &&
              (Resolve(idx, arena.value).None? ==>
                 key in g.unmatched && g.unmatched[key] == arena.value && g.venues == acc.venues)
    ensures arena.None? ==> g == acc
  {
    match arena
    case None => acc
    case Some(name) =>
      match Resolve(idx, name)
      case Some(v) => acc.(venues := acc.venues[key := v], arenas := acc.arenas[key := name])
      case None => acc.(arenas := acc.arenas[key := name], unmatched := acc.unmatched[key := name])
  }

  /** The row loop. `keyOf` is the script's game key; `None` is the ValueError the
      integer conversion raises, which abandons the attempt with what was recorded
      so far. */
  function AbsorbRows<K(!new)>(acc: Gathered<K>, h: Header, rows: seq<HeaderRow>,
                               keyOf: string -> Option<K>, idx: map<string, int>): (r: (Gathered<K>, bool))
    ensures Sound(acc, idx) ==> Sound(r.0, idx)
    ensures r.1 <==> forall i :: 0 <= i < |rows| ==> keyOf(rows[i].gameId).Some?
    decreases |rows|
  {
    if |rows| == 0 then (acc, true)
    else
      match keyOf(rows[0].gameId)
      case None => (acc, false)
      case Some(k) =>
        var r := AbsorbRows(AbsorbRow(acc, h, rows[0], k, idx), h, rows[1..], keyOf, idx);
        AllKeyedCons(rows, keyOf);
        r
  }

  lemma AllKeyedCons<K>(rows: seq<HeaderRow>, keyOf: string -> Option<K>)
    requires |rows| > 0 && keyOf(rows[0].gameId).Some?
    ensures (forall i :: 0 <= i < |rows| ==> keyOf(rows[i].gameId).Some?) <==>
            (forall i :: 0 <= i < |rows[1..]| ==> keyOf(rows[1..][i].gameId).Some?)
  {
    if forall i :: 0 <= i < |rows[1..]| ==> keyOf(rows[1..][i].gameId).Some? {
      forall i | 0 <= i < |rows| ensures keyOf(rows[i].gameId).Some? {
        if i > 0 {
          assert rows[i] == rows[1..][i - 1];
        }
      }
    }
  }

  /** Whether a request's answer ends the retry loop: a served header that is empty,
      lacks the GAME_ID column, or whose every id converts. */
  predicate Succeeds<K>(reply: Reply, keyOf: string -> Option<K>) {
    reply.Served? &&
    (|reply.header.rows| == 0 || !reply.header.hasGameId ||
     forall i :: 0 <= i < |reply.header.rows| ==> keyOf(reply.header.rows[i].gameId).Some?)
  }

  /** One request and what it adds to the maps. */
  function Attempt<K(!new)>(acc: Gathered<K>, reply: Reply, keyOf: string -> Option<K>,
                            idx: map<string, int>): (r: (Gathered<K>, bool))
    ensures r.1 == Succeeds(reply, keyOf)
    ensures Sound(acc, idx) ==> Sound(r.0, idx)
    ensures reply.Failed? ==> r.0 == acc
  {
    match reply
    case Failed => (acc, false)
    case Served(h) =>
      if |h.rows| == 0 || !h.hasGameId then (acc, true)
      else AbsorbRows(acc, h, h.rows, keyOf, idx)
  }

  /** The outcome of a retry loop: the maps, how many requests were made, how many
      pauses were taken between them, and whether one succeeded. */
  datatype Fetch<K> = Fetch(gathered: Gathered<K>, attempts: nat, pauses: nat, ok: bool)

  /** The `i`-th answer of the endpoint; requests beyond the recorded answers fail. */
  function ReplyAt(replies: seq<Reply>, i: nat): Reply {
    if i < |replies| then replies[i] else Failed
  }

  function Later(replies: seq<Reply>): (r: seq<Reply>)
    ensures forall i: nat :: ReplyAt(r, i) == ReplyAt(replies, i + 1)
  {
    if |replies| == 0 then [] else replies[1..]
  }

  /** `for attempt in range(tries)`: stop at the first attempt that succeeds; sleep
      only after a failed attempt that is not the last. */
  function Retry<K(!new)>(acc: Gathered<K>, replies: seq<Reply>, tries: nat,
                          keyOf: string -> Option<K>, idx: map<string, int>): (f: Fetch<K>)
    ensures f.attempts <= tries
    ensures tries > 0 ==> f.attempts >= 1 && f.pauses == f.attempts - 1
    ensures tries == 0 ==> f == Fetch(acc, 0, 0, false)
    ensures f.ok <==> exists i :: 0 <= i < tries && Succeeds(ReplyAt(replies, i), keyOf)
    ensures f.ok ==> Succeeds(ReplyAt(replies, f.attempts - 1), keyOf)
    ensures forall i :: 0 <= i < f.attempts - 1 ==> !Succeeds(ReplyAt(replies, i), keyOf)
    ensures !f.ok ==> f.attempts == tries
    ensures Sound(acc, idx) ==> Sound(f.gathered, idx)
    decreases tries
  {
    if tries == 0 then Fetch(acc, 0, 0, false)
    else
      var (g, ok) := Attempt(acc, ReplyAt(replies, 0), keyOf, idx);
      if ok then Fetch(g, 1, 0, true)
      else if tries == 1 then Fetch(g, 1, 0, false)
      else
        var f := Retry(g, Later(replies), tries - 1, keyOf, idx);
        assert forall i :: 1 <= i < f.attempts + 1 ==> ReplyAt(Later(replies), i - 1) == ReplyAt(replies, i);
        Fetch(f.gathered, f.attempts + 1, f.pauses + 1, f.ok)
  }

  /** A request that raises on every attempt: three requests, two pauses, nothing gathered. */
  lemma RetryGivesUp<K(!new)>(acc: Gathered<K>, keyOf: string -> Option<K>, idx: map<string, int>)
    ensures Retry(acc, [], MaxRetries, keyOf, idx) == Fetch(acc, 3, 2, false)
  {
    assert Later([]) == [];
  }

  /** The trace of one date's loop in the per-date enrichment. */
  datatype DateFetch = DateFetch(date: string, attempts: nat, ok: bool)

  function FetchDate(f: DateFetch): string {
    f.date
  }

  /** The dates of a trace ascend, each named once. */
  predicate TraceAscending(trace: seq<DateFetch>) {
    (forall i :: 0 < i < |trace| ==> StrLe(trace[i - 1].date, trace[i].date))
    && (forall i, j :: 0 <= i < j < |trace| ==> trace[i].date != trace[j].date)
  }

  /** A trace that follows a list of dates names exactly those dates, and ascends when
      the list is sorted and repeats none. */
  lemma TraceOfDates(trace: seq<DateFetch>, dates: seq<string>)
    requires |trace| == |dates|
    requires forall i :: 0 <= i < |trace| ==> trace[i].date == dates[i]
    ensures forall d :: d in Keys(trace, FetchDate) <==> d in dates
    ensures SortedBy(dates, StrLe) && Distinct(dates) ==> TraceAscending(trace)
  {
    forall d | d in Keys(trace, FetchDate) ensures d in dates {
      KeysWitness(trace, FetchDate, d);
      var i :| 0 <= i < |trace| && FetchDate(trace[i]) == d;
      assert dates[i] == d;
    }
    forall d | d in dates ensures d in Keys(trace, FetchDate) {
      var i :| 0 <= i < |dates| && dates[i] == d;
      assert FetchDate(trace[i]) == d;
    }
    if SortedBy(dates, StrLe) && Distinct(dates) {
      assert forall i :: 0 < i < |trace| ==> StrLe(dates[i - 1], dates[i]);
    }
  }

  /** `for d in dates:` one retry loop per date, the maps shared across dates; a date
      whose attempts are exhausted is passed over and the next one is tried. */
  function RetryEachDate<K(!new)>(acc: Gathered<K>, dates: seq<string>, feed: string -> seq<Reply>,
                                  tries: nat, keyOf: string -> Option<K>, idx: map<string, int>)
    : (r: (Gathered<K>, seq<DateFetch>))
    ensures |r.1| == |dates|
    ensures forall i :: 0 <= i < |dates| ==> r.1[i].date == dates[i]
    ensures forall i :: 0 <= i < |dates| ==> r.1[i].attempts <= tries
    ensures tries > 0 ==> forall i :: 0 <= i < |dates| ==> r.1[i].attempts >= 1
    ensures forall i :: 0 <= i < |dates| ==>
              (r.1[i].ok <==> exists j :: 0 <= j < tries && Succeeds(ReplyAt(feed(dates[i]), j), keyOf))
    ensures Sound(acc, idx) ==> Sound(r.0, idx)
    decreases |dates|
  {
    if |dates| == 0 then (acc, [])
    else
      var f := Retry(acc, feed(dates[0]), tries, keyOf, idx);
      var (g, trace) := RetryEachDate(f.gathered, dates[1..], feed, tries, keyOf, idx);
      (g, [DateFetch(dates[0], f.attempts, f.ok)] + trace)
  }

  /** `game["venue_id"] = venue_id_map.get(game_id)` and likewise for attendance. */
  function ApplyToGames(games: seq<GameRecord>, g: Gathered<nat>): (r: seq<GameRecord>)
    ensures |r| == |games|
    ensures forall i :: 0 <= i < |games| ==>
              r[i] == games[i].(venue := Get(g.venues, games[i].id), attendance := Get(g.attendance, games[i].id))
    ensures forall i :: 0 <= i < |games| ==>
              r[i].(venue := games[i].venue, attendance := games[i].attendance) == games[i]
              && (r[i].venue.Some? <==> games[i].id in g.venues)
              && (r[i].attendance.Some? <==> games[i].id in g.attendance)
  {
    seq(|games|, i requires 0 <= i < |games| =>
      games[i].(venue := Get(g.venues, games[i].id), attendance := Get(g.attendance, games[i].id)))
  }

  /** After enrichment a game's venue, when set, is a non-zero id from the venue map,
      and its attendance, when set, is positive; nothing else about the game changes. */
  lemma EnrichedGamesSound(games: seq<GameRecord>, g: Gathered<nat>, idx: map<string, int>)
    requires Sound(g, idx)
    ensures forall i :: 0 <= i < |games| ==>
              var e := ApplyToGames(games, g)[i];
              (e.venue.Some? ==> e.venue.value != 0 && e.venue.value in idx.Values)
              && (e.attendance.Some? ==> e.attendance.value > 0)
              && e.(venue := None, attendance := None) == games[i].(venue := None, attendance := None)
  {
  }

  /** The CSV updater's columns, looked up by the row's (padded) id: `ARENA`,
      `VENUE_ID`, `ATTENDANCE`. */
  function ApplyToUpdaterRows(rows: seq<SheetRow>, g: Gathered<string>): (r: seq<SheetRow>)
    ensures |r| == |rows|
    ensures forall i :: 0 <= i < |rows| ==>
              r[i] == rows[i].(arena := Get(g.arenas, rows[i].apiGameId),
                               venueId := Get(g.venues, rows[i].apiGameId),
                               attendance := Get(g.attendance, rows[i].apiGameId))
    ensures forall i :: 0 <= i < |rows| ==>
              r[i].(arena := rows[i].arena, venueId := rows[i].venueId, attendance := rows[i].attendance) == rows[i]
              && (r[i].arena.Some? <==> rows[i].apiGameId in g.arenas)
              && (r[i].venueId.Some? <==> rows[i].apiGameId in g.venues)
              && (r[i].attendance.Some? <==> rows[i].apiGameId in g.attendance)
  {
    seq(|rows|, i requires 0 <= i < |rows| =>
      rows[i].(arena := Get(g.arenas, rows[i].apiGameId),
               venueId := Get(g.venues, rows[i].apiGameId),
               attendance := Get(g.attendance, rows[i].apiGameId)))
  }

  /** The snapshot script's columns: `ARENA` and `ATTENDANCE` only. */
  function ApplyToSnapshotRows(rows: seq<SheetRow>, g: Gathered<string>): (r: seq<SheetRow>)
    ensures |r| == |rows|
    ensures forall i :: 0 <= i < |rows| ==>
              r[i] == rows[i].(arena := Get(g.arenas, rows[i].apiGameId),
                               attendance := Get(g.attendance, rows[i].apiGameId))
    ensures forall i :: 0 <= i < |rows| ==>
              r[i].(arena := rows[i].arena, attendance := rows[i].attendance) == rows[i]
              && (r[i].arena.Some? <==> rows[i].apiGameId in g.arenas)
              && (r[i].attendance.Some? <==> rows[i].apiGameId in g.attendance)
  {
    seq(|rows|, i requires 0 <= i < |rows| =>
      rows[i].(arena := Get(g.arenas, rows[i].apiGameId),
               attendance := Get(g.attendance, rows[i].apiGameId)))
  }

  /** After the updater's enrichment an arena, when set, is a non-empty trimmed name, a
      venue id, when set, is a non-zero id of the venue map, and an attendance, when
      set, is positive. */
  lemma EnrichedSheetRowsSound(rows: seq<SheetRow>, g: Gathered<string>, idx: map<string, int>)
    requires Sound(g, idx)
    ensures forall i :: 0 <= i < |rows| ==>
              var e := ApplyToUpdaterRows(rows, g)[i];
              (e.arena.Some? ==> |e.arena.value| > 0 && NoBorderSpace(e.arena.value))
              && (e.venueId.Some? ==> e.venueId.value != 0 && e.venueId.value in idx.Values)
              && (e.attendance.Some? ==> e.attendance.value > 0)
  {
  }

  /** Enriching twice with the same maps gives what enriching once gives. */
  lemma ApplyIdempotent(games: seq<GameRecord>, rows: seq<SheetRow>, g: Gathered<nat>, h: Gathered<string>)
    ensures ApplyToGames(ApplyToGames(games, g), g) == ApplyToGames(games, g)
    ensures ApplyToUpdaterRows(ApplyToUpdaterRows(rows, h), h) == ApplyToUpdaterRows(rows, h)
    ensures ApplyToSnapshotRows(ApplyToSnapshotRows(rows, h), h) == ApplyToSnapshotRows(rows, h)
  {
  }
}

=== FILE: feed.dfy ===
/**
 * The rows the scripts read: the stats API's per-team game lines, scoreboard
 * headers and player game logs, and the reference tables of the HoopHub database.
 * A pandas missing value (NaN) is a `None`.
 */
module Feed {
  import opened Wrappers

  /** One team's line for one game, as the league game finder returns it; every
      game appears twice, once per team. */
  datatype TeamGameRow = TeamGameRow(
    gameId: string,
    gameDate: string,
    matchup: string,
    teamAbbr: string,
    teamName: string,
    pts: Option<int>)

  /** A row of the `Team` table. */
  datatype TeamRow = TeamRow(id: int, abbr: string)

  /** A row of the `Venue` table. */
  datatype VenueRow = VenueRow(id: int, name: string)

  /** A row of the `Player` table. */
  datatype PlayerRow = PlayerRow(id: int, teamId: int, first: string, last: string)

  /** One row of the scoreboard's game header. An absent or empty arena name is `None`. */
  datatype HeaderRow = HeaderRow(gameId: string, arena: Option<string>, attendance: Option<int>)

  /** The scoreboard's game header frame: which columns it carries, and its rows. */
  datatype Header = Header(hasGameId: bool, hasArena: bool, hasAttendance: bool, rows: seq<HeaderRow>)

  /** The answer to one scoreboard request: the call raised, or it served a header. */
  datatype Reply = Failed | Served(header: Header)

  /** One player's line in the season's player game logs. Box-score values may be
      fractional (minutes) or missing. */
  datatype StatLogRow = StatLogRow(
    gameId: string,
    gameDate: string,
    playerName: string,
    pts: Option<real>,
    reb: Option<real>,
    ast: Option<real>,
    stl: Option<real>,
    blk: Option<real>,
    tov: Option<real>,
    pf: Option<real>,
    min: Option<real>)
}

=== FILE: game_commit.dfy ===
/**
 * Writing reconciled games to the `Game` table. The daily script is all-or-nothing:
 * one transaction, rolled back on the first problem. The historical script inserts
 * game by game, counts the failures, and commits whatever went in.
 */
module GameCommit {
  import opened Wrappers
  import opened Seqs
  import opened Reconcile
  import opened Store

  type GameTable = Table<nat, GameRecord>

  predicate NoVenue(g: GameRecord) {
    g.venue.None?
  }

  /** Every game of the batch can be inserted in turn: its id is neither stored, nor
      refused by the database, nor used by an earlier game of the batch. */
  predicate Fits(t: GameTable, games: seq<GameRecord>) {
    (forall i :: 0 <= i < |games| ==> games[i].id !in t.rows && games[i].id !in t.refused)
    && (forall i, j :: 0 <= i < j < |games| ==> games[i].id != games[j].id)
  }

  /** The table after the batch's inserts, or the position of the first insert that
      fails. */
  datatype Batch = Landed(table: GameTable) | Stopped(at: nat)

  /** One INSERT per game, in order, stopping at the first that fails. */
  function InsertAll(t: GameTable, games: seq<GameRecord>): (b: Batch)
    ensures b.Stopped? ==> b.at < |games|
    decreases |games|
  {
    if |games| == 0 then Landed(t)
    else
      match Store.Insert(t, games[0].id, games[0])
      case None => Stopped(0)
      case Some(t') =>
        match InsertAll(t', games[1..])
        case Landed(u) => Landed(u)
        case Stopped(k) => Stopped(k + 1)
  }

  /** The table the first insert leaves. */
  function AfterFirst(t: GameTable, games: seq<GameRecord>): GameTable
    requires |games| > 0
  {
    Table(t.rows[games[0].id := games[0]], t.refused)
  }

  /** A batch fits when its first game can go in and the rest fit the grown table. */
  lemma FitsCons(t: GameTable, games: seq<GameRecord>)
    requires |games| > 0
    ensures Fits(t, games) <==>
              games[0].id !in t.rows && games[0].id !in t.refused && Fits(AfterFirst(t, games), games[1..])
  {
    var t' := AfterFirst(t, games);
    if games[0].id !in t.rows && games[0].id !in t.refused && Fits(t', games[1..]) {
      forall i, j | 0 <= i < j < |games| ensures games[i].id != games[j].id {
        if i > 0 {
          assert games[i] == games[1..][i - 1] && games[j] == games[1..][j - 1];
        } else {
          assert games[j] == games[1..][j - 1];
        }
      }
      forall i | 0 <= i < |games| ensures games[i].id !in t.rows && games[i].id !in t.refused {
        if i > 0 {
          assert games[i] == games[1..][i - 1];
        }
      }
    }
    if Fits(t, games) {
      forall i | 0 <= i < |games[1..]| ensures games[1..][i].id !in t'.rows {
        assert games[1..][i] == games[i + 1];
      }
    }
  }

  /** The whole batch goes in exactly when it fits. */
  lemma {:induction false} InsertAllLands(t: GameTable, games: seq<GameRecord>)
    ensures InsertAll(t, games).Landed? <==> Fits(t, games)
    decreases |games|
  {
    if |games| > 0 {
      FitsCons(t, games);
      if games[0].id !in t.rows && games[0].id !in t.refused {
        InsertAllLands(AfterFirst(t, games), games[1..]);
      }
    }
  }

  /** A batch that does not go in stops at its first game that cannot: the games
      before it fit and with it they do not. */
  lemma {:induction false} InsertAllStopsAtFirstClash(t: GameTable, games: seq<GameRecord>)
    requires InsertAll(t, games).Stopped?
    ensures var k := InsertAll(t, games).at;
            k < |games| && Fits(t, games[..k]) && !Fits(t, games[..k + 1])
    decreases |games|
  {
    var k := InsertAll(t, games).at;
    FitsCons(t, games[..k + 1]);
    if games[0].id in t.rows || games[0].id in t.refused {
      assert k == 0;
    } else {
      var t' := AfterFirst(t, games);
      InsertAllStopsAtFirstClash(t', games[1..]);
      assert games[1..][..k - 1] == games[..k][1..];
      assert games[1..][..k] == games[..k + 1][1..];
      FitsCons(t, games[..k]);
      assert AfterFirst(t, games[..k]) == t' == AfterFirst(t, games[..k + 1]);
    }
  }

  /** A batch that goes in adds exactly its games, each under its own id, and keeps
      every row that was there. */
  lemma {:induction false} InsertAllContents(t: GameTable, games: seq<GameRecord>)
    requires InsertAll(t, games).Landed?
    ensures var u := InsertAll(t, games).table;
            u.refused == t.refused
            && (forall k :: k in t.rows ==> k in u.rows && u.rows[k] == t.rows[k])
            && (forall i :: 0 <= i < |games| ==> games[i].id in u.rows && u.rows[games[i].id] == games[i])
            && (forall k :: k in u.rows ==> k in t.rows || exists i :: 0 <= i < |games| && games[i].id == k)
    decreases |games|
  {
    if |games| > 0 {
      var t' := AfterFirst(t, games);
      InsertAllContents(t', games[1..]);
      InsertAllLands(t, games);
      var u := InsertAll(t, games).table;
      assert u == InsertAll(t', games[1..]).table;
      forall i | 0 <= i < |games| ensures games[i].id in u.rows && u.rows[games[i].id] == games[i] {
        if i > 0 {
          assert games[i] == games[1..][i - 1];
        }
      }
      forall k | k in u.rows ensures k in t.rows || exists i :: 0 <= i < |games| && games[i].id == k {
        if k !in t'.rows {
          var i :| 0 <= i < |games[1..]| && games[1..][i].id == k;
          assert games[i + 1].id == k;
        }
      }
    }
  }

  /** What the daily commit reports. `InsertFailed` carries the script's counter, which
      has been raised for every insert before the failing one although the rollback
      undoes them all. */
  datatype StrictOutcome =
    | NothingToInsert
    | NoDefaultVenue
    | MissingVenues(games: seq<GameRecord>)
    | InsertFailed(reported: nat)
    | Committed(count: nat)

  /** The daily commit. The default-venue query runs first and inside the transaction,
      so an empty `Venue` table rolls back; a game without a venue rolls back before any
      insert; any failing insert rolls back the whole batch. */
  function StrictCommit(t: GameTable, games: seq<GameRecord>, defaultVenue: Option<int>): (r: (StrictOutcome, GameTable))
    ensures r.0.Committed? <==>
              |games| > 0 && defaultVenue.Some? && |Filter(games, NoVenue)| == 0 && Fits(t, games)
    ensures !r.0.Committed? ==> r.1 == t
    ensures r.0.Committed? ==> r.0.count == |games| && r.1.refused == t.refused
    ensures r.0.Committed? ==> forall k :: k in t.rows ==> k in r.1.rows && r.1.rows[k] == t.rows[k]
    ensures r.0.Committed? ==> forall i :: 0 <= i < |games| ==>
              games[i].id in r.1.rows && r.1.rows[games[i].id] == games[i] && games[i].venue.Some?
    ensures r.0.Committed? ==> forall k :: k in r.1.rows ==>
              k in t.rows || exists i :: 0 <= i < |games| && games[i].id == k
    ensures r.0 == NothingToInsert <==> |games| == 0
    ensures r.0 == NoDefaultVenue <==> |games| > 0 && defaultVenue.None?
    ensures r.0.MissingVenues? ==> |r.0.games| > 0 && r.0.games == Filter(games, NoVenue)
    ensures r.0.InsertFailed? ==> r.0.reported < |games| && !Fits(t, games)
  {
    if |games| == 0 then (NothingToInsert, t)
    else if defaultVenue.None? then (NoDefaultVenue, t)
    else
      var missing := Filter(games, NoVenue);
      if |missing| > 0 then (MissingVenues(missing), t)
      else
        InsertAllLands(t, games);
        match InsertAll(t, games)
        case Landed(u) =>
          InsertAllContents(t, games);
          forall i | 0 <= i < |games| ensures games[i].venue.Some? {
            assert games[i] !in missing;
          }
          (Committed(|games|), u)
        case Stopped(k) => (InsertFailed(k), t)
  }

  /** A second daily commit of the same batch inserts nothing and leaves the table
      as the first one left it. */
  lemma StrictCommitTwice(t: GameTable, games: seq<GameRecord>, defaultVenue: Option<int>)
    requires StrictCommit(t, games, defaultVenue).0.Committed?
    ensures var t' := StrictCommit(t, games, defaultVenue).1;
            StrictCommit(t', games, defaultVenue).0.InsertFailed?
            && StrictCommit(t', games, defaultVenue).1 == t'
  {
    var t' := StrictCommit(t, games, defaultVenue).1;
    assert games[0].id in t'.rows;
  }

  /** The historical script's counters. */
  datatype LenientReport = LenientReport(inserted: nat, failed: nat, withoutVenue: nat)

  /** The row the historical script writes: the default venue stands in for a missing one. */
  function WithVenue(g: GameRecord, defaultVenue: int): (s: GameRecord)
    ensures s.venue.Some?
    ensures g.venue.Some? ==> s == g
    ensures g.venue.None? ==> s == g.(venue := Some(defaultVenue))
    ensures s.(venue := g.venue) == g
    ensures s.venue == g.venue || s.venue == Some(defaultVenue)
  {
    g.(venue := Some(g.venue.GetOr(defaultVenue)))
  }

  /** Filling in the venue a second time changes nothing, whatever default it offers. */
  lemma WithVenueIdempotent(g: GameRecord, defaultVenue: int, other: int)
    ensures WithVenue(WithVenue(g, defaultVenue), other) == WithVenue(g, defaultVenue)
  {
  }

  /** The per-game loop: an insert that fails is counted and the loop moves on; a game
      without a venue is counted before its insert is tried. */
  function InsertEach(t: GameTable, games: seq<GameRecord>, defaultVenue: int): (r: (LenientReport, GameTable))
    ensures r.0.inserted + r.0.failed == |games|
    ensures r.0.withoutVenue == |Filter(games, NoVenue)|
    decreases |games|
  {
    if |games| == 0 then (LenientReport(0, 0, 0), t)
    else
      var g := games[0];
      var missed := if NoVenue(g) then 1 else 0;
      match Store.Insert(t, g.id, WithVenue(g, defaultVenue))
      case None =>
        var (rep, u) := InsertEach(t, games[1..], defaultVenue);
        (LenientReport(rep.inserted, rep.failed + 1, rep.withoutVenue + missed), u)
      case Some(t') =>
        var (rep, u) := InsertEach(t', games[1..], defaultVenue);
        (LenientReport(rep.inserted + 1, rep.failed, rep.withoutVenue + missed), u)
  }

  /** The loop only adds rows: what was stored stays, each game's id ends up stored
      unless the database refuses it, every new row is one of the batch's games with
      its venue filled in, and the table grows by the number of successful inserts. */
  lemma InsertEachTable(t: GameTable, games: seq<GameRecord>, defaultVenue: int)
    ensures var r := InsertEach(t, games, defaultVenue);
            r.1.refused == t.refused
            && |r.1.rows.Keys| == |t.rows.Keys| + r.0.inserted
            && (forall k :: k in t.rows ==> k in r.1.rows && r.1.rows[k] == t.rows[k])
            && (forall i :: 0 <= i < |games| ==> games[i].id in r.1.rows || games[i].id in t.refused)
            && (forall k :: k in r.1.rows && k !in t.rows ==>
                  exists i :: 0 <= i < |games| && games[i].id == k && r.1.rows[k] == WithVenue(games[i], defaultVenue))
  {
    InsertEachFrame(t, games, defaultVenue);
    InsertEachStores(t, games, defaultVenue);
    InsertEachInventsNothing(t, games, defaultVenue);
  }

  /** The table after the first game of the loop. */
  function InsertStep(t: GameTable, g: GameRecord, defaultVenue: int): GameTable {
    if g.id in t.rows || g.id in t.refused then t
    else Table(t.rows[g.id := WithVenue(g, defaultVenue)], t.refused)
  }

  /** The refused ids and every stored row stay, and the table grows by the inserted
      count. */
  lemma {:induction false} InsertEachFrame(t: GameTable, games: seq<GameRecord>, defaultVenue: int)
    ensures var r := InsertEach(t, games, defaultVenue);
            r.1.refused == t.refused
            && |r.1.rows.Keys| == |t.rows.Keys| + r.0.inserted
            && (forall k :: k in t.rows ==> k in r.1.rows && r.1.rows[k] == t.rows[k])
    decreases |games|
  {
    if |games| > 0 {
      var g := games[0];
      var t' := InsertStep(t, g, defaultVenue);
      InsertEachFrame(t', games[1..], defaultVenue);
      InsertEachStep(t, games, defaultVenue);
      if t' != t {
        assert t'.rows.Keys == t.rows.Keys + {g.id};
      }
    }
  }

  /** The loop after its first game continues from the table that game leaves. */
  lemma InsertEachStep(t: GameTable, games: seq<GameRecord>, defaultVenue: int)
    requires |games| > 0
    ensures InsertEach(t, games, defaultVenue).1
            == InsertEach(InsertStep(t, games[0], defaultVenue), games[1..], defaultVenue).1
  {
  }

  /** Each game's id ends up stored unless refused. */
  lemma {:induction false} InsertEachStores(t: GameTable, games: seq<GameRecord>, defaultVenue: int)
    ensures var u := InsertEach(t, games, defaultVenue).1;
            forall i :: 0 <= i < |games| ==> games[i].id in u.rows || games[i].id in t.refused
    decreases |games|
  {
    if |games| > 0 {
      var u := InsertEach(t, games, defaultVenue).1;
      var t' := InsertStep(t, games[0], defaultVenue);
      InsertEachStep(t, games, defaultVenue);
      InsertEachStores(t', games[1..], defaultVenue);
      InsertEachFrame(t', games[1..], defaultVenue);
      forall i | 0 <= i < |games| ensures games[i].id in u.rows || games[i].id in t.refused {
        if i > 0 {
          assert games[i] == games[1..][i - 1];
        }
      }
    }
  }

  /** Every new row is one of the games with its venue filled in. */
  lemma {:induction false} InsertEachInventsNothing(t: GameTable, games: seq<GameRecord>, defaultVenue: int)
    ensures var u := InsertEach(t, games, defaultVenue).1;
            forall k :: k in u.rows && k !in t.rows ==>
              exists i :: 0 <= i < |games| && games[i].id == k && u.rows[k] == WithVenue(games[i], defaultVenue)
    decreases |games|
  {
    if |games| > 0 {
      var u := InsertEach(t, games, defaultVenue).1;
      var t' := InsertStep(t, games[0], defaultVenue);
      InsertEachStep(t, games, defaultVenue);
      InsertEachInventsNothing(t', games[1..], defaultVenue);
      InsertEachFrame(t', games[1..], defaultVenue);
      forall k | k in u.rows && k !in t.rows
        ensures exists i :: 0 <= i < |games| && games[i].id == k && u.rows[k] == WithVenue(games[i], defaultVenue)
      {
        if k !in t'.rows {
          var i :| 0 <= i < |games[1..]| && games[1..][i].id == k && u.rows[k] == WithVenue(games[1..][i], defaultVenue);
          assert games[i + 1] == games[1..][i];
        }
      }
    }
  }

  /** The historical commit. The default-venue query runs outside any error handling:
      with games to insert and an empty `Venue` table the script stops there, and
      nothing is written (`None`). */
  function LenientCommit(t: GameTable, games: seq<GameRecord>, defaultVenue: Option<int>)
    : (r: Option<(LenientReport, GameTable)>)
    ensures r.None? <==> |games| > 0 && defaultVenue.None?
    ensures |games| == 0 ==> r == Some((LenientReport(0, 0, 0), t))
    ensures r.Some? && |games| > 0 ==> r.value == InsertEach(t, games, defaultVenue.value)
  {
    if |games| == 0 then Some((LenientReport(0, 0, 0), t))
    else if defaultVenue.None? then None
    else Some(InsertEach(t, games, defaultVenue.value))
  }

  /** Every game of a committed batch is in the table afterwards or refused by the
      database, so a second historical commit of the same batch inserts nothing, counts
      every game as failed, and leaves the table unchanged. */
  lemma {:induction false} InsertEachTwice(t: GameTable, games: seq<GameRecord>, defaultVenue: int)
    requires forall i :: 0 <= i < |games| ==> games[i].id in t.rows || games[i].id in t.refused
    ensures InsertEach(t, games, defaultVenue).1 == t
    ensures InsertEach(t, games, defaultVenue).0.inserted == 0
    decreases |games|
  {
    if |games| > 0 {
      assert forall i :: 1 <= i < |games| ==> games[i] == games[1..][i - 1];
      InsertEachTwice(t, games[1..], defaultVenue);
    }
  }

  lemma LenientCommitTwice(t: GameTable, games: seq<GameRecord>, defaultVenue: Option<int>)
    requires LenientCommit(t, games, defaultVenue).Some?
    ensures var t' := LenientCommit(t, games, defaultVenue).value.1;
            LenientCommit(t', games, defaultVenue).Some?
            && LenientCommit(t', games, defaultVenue).value.1 == t'
            && LenientCommit(t', games, defaultVenue).value.0.inserted == 0
            && LenientCommit(t', games, defaultVenue).value.0.failed == |games|
            && forall i :: 0 <= i < |games| ==> games[i].id in t'.rows || games[i].id in t'.refused
  {
    if |games| > 0 {
      var t' := LenientCommit(t, games, defaultVenue).value.1;
      InsertEachTable(t, games, defaultVenue.value);
      InsertEachTwice(t', games, defaultVenue.value);
    }
  }
}

=== FILE: game_ids.dfy ===
/**
 * How the scripts turn the feed's string game IDs (such as "0022500123") into keys:
 * the database scripts strip leading zeros and parse an integer, the player-stat
 * scripts do the same through pandas' numeric coercion, and the CSV updater pads
 * to ten characters instead.
 */
module GameIds {
  import opened Wrappers
  import opened Text

  /** Width the CSV master file pads API game IDs to (`zfill(10)`). */
  const PaddedWidth: nat := 10

  predicate HasNonZeroDigit(s: string) {
    exists i :: 0 <= i < |s| && s[i] != '0'
  }

  /** `int(gid.lstrip('0')) if gid != '0' else 0`; None stands for the ValueError
      `int` raises on an empty or non-numeric remainder. */
  function GameNumber(gid: string): (r: Option<nat>)
    ensures gid == "0" ==> r == Some(0)
    ensures AllDigits(gid) && HasNonZeroDigit(gid) ==> r == Some(DigitsValue(gid))
    ensures gid != "0" && !HasNonZeroDigit(gid) ==> r == None
    ensures !AllDigits(gid) ==> r == None
  {
    StrippedFacts(gid);
    if gid == "0" then Some(0) else ParseNat(LStripZeros(gid))
  }

  lemma StrippedFacts(gid: string)
    ensures AllDigits(gid) && HasNonZeroDigit(gid) ==> ParseNat(LStripZeros(gid)) == Some(DigitsValue(gid))
    ensures !HasNonZeroDigit(gid) ==> ParseNat(LStripZeros(gid)) == None
    ensures !AllDigits(gid) ==> ParseNat(LStripZeros(gid)) == None
  {
    if AllDigits(gid) && HasNonZeroDigit(gid) {
      StrippedDigits(gid);
    }
    StripNonEmptyWitness(gid);
    if !AllDigits(gid) {
      NonDigitSurvives(gid);
    }
  }

  lemma StripNonEmptyWitness(gid: string)
    ensures |LStripZeros(gid)| > 0 ==> HasNonZeroDigit(gid)
  {
    var t := LStripZeros(gid);
    if |t| > 0 {
      assert t[0] == gid[|gid| - |t|];
    }
  }

  lemma NonDigitSurvives(gid: string)
    requires !AllDigits(gid)
    ensures !AllDigits(LStripZeros(gid))
  {
    var t := LStripZeros(gid);
    var i :| 0 <= i < |gid| && !IsDigit(gid[i]);
    assert gid == Zeros(|gid| - |t|) + t;
    assert i >= |gid| - |t|;
    assert t[i - (|gid| - |t|)] == gid[i];
  }

  /** The player-stat scripts' conversion: `lstrip('0')` then `pd.to_numeric(...,
      errors='coerce')` into a nullable integer; None is the missing value it yields. */
  function StatGameNumber(gid: string): Option<nat> {
    ParseNat(LStripZeros(gid))
  }

  /** The two conversions agree on every ID except "0", which the stat scripts turn
      into a missing value while the game scripts map it to 0. */
  lemma StatGameNumberAgrees(gid: string)
    ensures gid != "0" ==> StatGameNumber(gid) == GameNumber(gid)
    ensures StatGameNumber("0") == None && GameNumber("0") == Some(0)
  {
    assert LStripZeros("0") == LStripZeros("0"[1..]);
  }

  /** The CSV updater's key: `str(gid).zfill(10)`. */
  function PaddedId(gid: string): string {
    ZFill(gid, PaddedWidth)
  }

  lemma {:induction false} StrippedDigits(gid: string)
    requires AllDigits(gid) && HasNonZeroDigit(gid)
    ensures var t := LStripZeros(gid);
      |t| > 0 && AllDigits(t) && t[0] != '0' && DigitsValue(t) == DigitsValue(gid)
      && Decimal(DigitsValue(gid)) == t
  {
    var t := LStripZeros(gid);
    var n := |gid| - |t|;
    var i :| 0 <= i < |gid| && gid[i] != '0';
    assert gid == Zeros(n) + t;
    assert i >= n;
    assert t == gid[n..];
    LeadingZerosValue(n, t);
    DecimalOfDigits(t);
  }

  /** The master-file round trip: pandas reads the padded column back as integers,
      and `astype(str).zfill(10)` restores exactly the ten-character ID. */
  lemma PaddedIdRoundTrip(gid: string)
    requires |gid| == PaddedWidth && AllDigits(gid) && HasNonZeroDigit(gid)
    ensures GameNumber(gid).Some?
    ensures PaddedId(Decimal(GameNumber(gid).value)) == gid
  {
    var t := LStripZeros(gid);
    StrippedDigits(gid);
    assert GameNumber(gid).value == DigitsValue(gid);
    ZFillDigits(t, PaddedWidth);
    assert gid == Zeros(|gid| - |t|) + t;
  }

  /** For well-formed IDs of at most ten digits, the CSV updater's padded keys and the
      database scripts' integer keys identify the same games. */
  lemma PaddedKeysAgree(a: string, b: string)
    requires |a| <= PaddedWidth && AllDigits(a) && HasNonZeroDigit(a)
    requires |b| <= PaddedWidth && AllDigits(b) && HasNonZeroDigit(b)
    ensures PaddedId(a) == PaddedId(b) <==> GameNumber(a) == GameNumber(b)
  {
    SamePaddedSameNumber(a, b);
    SameNumberSamePadded(a, b);
  }

  lemma SamePaddedSameNumber(a: string, b: string)
    requires AllDigits(a) && HasNonZeroDigit(a)
    requires AllDigits(b) && HasNonZeroDigit(b)
    ensures PaddedId(a) == PaddedId(b) ==> GameNumber(a) == GameNumber(b)
  {
    PaddedValue(a);
    PaddedValue(b);
  }

  lemma SameNumberSamePadded(a: string, b: string)
    requires |a| <= PaddedWidth && AllDigits(a) && HasNonZeroDigit(a)
    requires |b| <= PaddedWidth && AllDigits(b) && HasNonZeroDigit(b)
    ensures GameNumber(a) == GameNumber(b) ==> PaddedId(a) == PaddedId(b)
  {
    if GameNumber(a) == GameNumber(b) {
      SameNumberSameStripped(a, b);
      SameStrippedSamePadded(a, b);
    }
  }

  lemma SameNumberSameStripped(a: string, b: string)
    requires AllDigits(a) && HasNonZeroDigit(a)
    requires AllDigits(b) && HasNonZeroDigit(b)
    requires GameNumber(a) == GameNumber(b)
    ensures LStripZeros(a) == LStripZeros(b)
  {
    NumberSpellsStripped(a);
    NumberSpellsStripped(b);
  }

  lemma SameStrippedSamePadded(a: string, b: string)
    requires |a| <= PaddedWidth && AllDigits(a) && HasNonZeroDigit(a)
    requires |b| <= PaddedWidth && AllDigits(b) && HasNonZeroDigit(b)
    requires LStripZeros(a) == LStripZeros(b)
    ensures PaddedId(a) == PaddedId(b)
  {
    PaddedCanonical(a);
    PaddedCanonical(b);
  }

  /** The number an ID denotes, written back in decimal, is the ID without its zeros. */
  lemma NumberSpellsStripped(gid: string)
    requires AllDigits(gid) && HasNonZeroDigit(gid)
    ensures GameNumber(gid).Some? && Decimal(GameNumber(gid).value) == LStripZeros(gid)
  {
    StrippedDigits(gid);
  }

  /** Padding never changes the number an ID denotes. */
  lemma PaddedValue(gid: string)
    requires AllDigits(gid)
    ensures AllDigits(PaddedId(gid)) && DigitsValue(PaddedId(gid)) == DigitsValue(gid)
  {
    ZFillDigits(gid, PaddedWidth);
    if |gid| < PaddedWidth {
      LeadingZerosValue(PaddedWidth - |gid|, gid);
    }
  }

  lemma PaddedCanonical(gid: string)
    requires |gid| <= PaddedWidth && AllDigits(gid) && HasNonZeroDigit(gid)
    ensures PaddedId(gid) == Zeros(PaddedWidth - |LStripZeros(gid)|) + LStripZeros(gid)
  {
    var t := LStripZeros(gid);
    if |gid| < PaddedWidth {
      PadZeroPrefixed(gid, |gid| - |t|, t);
    }
  }

  lemma PadZeroPrefixed(gid: string, z: nat, t: string)
    requires gid == Zeros(z) + t
    requires |gid| < PaddedWidth && AllDigits(gid)
    ensures PaddedId(gid) == Zeros(PaddedWidth - |t|) + t
  {
    ZFillDigits(gid, PaddedWidth);
    ZerosPrefixCombine(PaddedWidth - |gid|, z, t);
  }
}

=== FILE: grouping.dfy ===
/**
 * `frame.groupby("GAME_ID")`: the feed's team lines gathered per game. pandas sorts
 * the group keys, and Python orders strings code point by code point.
 */
module Grouping {
  import opened Text
  import opened Seqs
  import opened Feed

  /** One game's lines, in feed order. */
  datatype Group = Group(id: string, rows: seq<TeamGameRow>)

  lemma StrLeIsTotal()
    ensures Total(StrLe)
  {
    forall a: string, b: string ensures StrLe(a, b) || StrLe(b, a) {
      StrLeTotal(a, b);
    }
  }

  /** `frame[frame["GAME_DATE"] == day]`: the lines of one calendar day, in feed order. */
  function DayLines(feed: seq<TeamGameRow>, day: string): (r: seq<TeamGameRow>)
    ensures forall x :: x in r <==> x in feed && x.gameDate == day
  {
    Filter(feed, (x: TeamGameRow) => x.gameDate == day)
  }

  /** The lines of an inclusive date window, dates compared as strings. */
  function WindowLines(feed: seq<TeamGameRow>, from: string, to: string): (r: seq<TeamGameRow>)
    ensures forall x :: x in r <==> x in feed && StrLe(from, x.gameDate) && StrLe(x.gameDate, to)
  {
    Filter(feed, (x: TeamGameRow) => StrLe(from, x.gameDate) && StrLe(x.gameDate, to))
  }

  function GameIdOf(r: TeamGameRow): string {
    r.gameId
  }

  /** The distinct game ids of the feed, ascending. */
  function SortedGameIds(rows: seq<TeamGameRow>): (ids: seq<string>)
    ensures SortedBy(ids, StrLe) && Distinct(ids)
    ensures forall k :: k in ids <==> k in Keys(rows, GameIdOf)
  {
    StrLeIsTotal();
    SortedKeys(rows, GameIdOf, StrLe)
  }

  function RowsOfGame(rows: seq<TeamGameRow>, id: string): seq<TeamGameRow> {
    Filter(rows, (r: TeamGameRow) => r.gameId == id)
  }

  /** The groups, one per distinct id in ascending order; each is non-empty and holds
      exactly the lines of its game, in feed order. */
  function GroupByGame(rows: seq<TeamGameRow>): (gs: seq<Group>)
    ensures forall i :: 0 < i < |gs| ==> StrLe(gs[i - 1].id, gs[i].id)
    ensures forall i, j :: 0 <= i < j < |gs| ==> gs[i].id != gs[j].id
    ensures forall i :: 0 <= i < |gs| ==> |gs[i].rows| > 0 && gs[i].rows == RowsOfGame(rows, gs[i].id)
    ensures forall i, r :: 0 <= i < |gs| && r in gs[i].rows ==> r in rows && r.gameId == gs[i].id
  {
    var ids := SortedGameIds(rows);
    var gs := seq(|ids|, i requires 0 <= i < |ids| => Group(ids[i], RowsOfGame(rows, ids[i])));
    forall i | 0 <= i < |gs| ensures |gs[i].rows| > 0 {
      GroupNotEmpty(rows, ids[i]);
    }
    forall i, r | 0 <= i < |gs| && r in gs[i].rows ensures r in rows && r.gameId == gs[i].id {
      RowsOfGameIn(rows, ids[i], r);
    }
    gs
  }

  lemma RowsOfGameIn(rows: seq<TeamGameRow>, id: string, r: TeamGameRow)
    ensures r in RowsOfGame(rows, id) <==> r in rows && r.gameId == id
  {
  }

  /** Every line of the feed lands in its game's group: the index of that group. */
  lemma GroupOfLine(rows: seq<TeamGameRow>, j: nat) returns (i: nat)
    requires j < |rows|
    ensures i < |GroupByGame(rows)|
    ensures GroupByGame(rows)[i].id == rows[j].gameId && rows[j] in GroupByGame(rows)[i].rows
  {
    var ids := SortedGameIds(rows);
    assert GameIdOf(rows[j]) in Keys(rows, GameIdOf);
    i :| 0 <= i < |ids| && ids[i] == rows[j].gameId;
    assert rows[j] in RowsOfGame(rows, ids[i]);
  }

  lemma GroupNotEmpty(rows: seq<TeamGameRow>, id: string)
    requires id in Keys(rows, GameIdOf)
    ensures |RowsOfGame(rows, id)| > 0
  {
    KeysWitness(rows, GameIdOf, id);
    var j :| 0 <= j < |rows| && rows[j].gameId == id;
    assert rows[j] in RowsOfGame(rows, id);
  }
}

=== FILE: identity.dfy ===
/**
 * The identity maps each script builds once per run from the database: team
 * abbreviation to TeamID, trimmed venue name to VenueID, and normalised player
 * name to PlayerID. Each is a dict filled row by row, so a later row with the same
 * key overwrites an earlier one.
 */
module Identity {
  import opened Wrappers
  import opened Text
  import opened Seqs
  import opened Feed

  /** `d = {}; for r in rows: d[key(r)] = val(r)`: every row's key is present, and each
      entry comes from some row with that key. */
  function IndexBy<T, K(!new), V>(rows: seq<T>, key: T -> K, val: T -> V): (m: map<K, V>)
    ensures forall i :: 0 <= i < |rows| ==> key(rows[i]) in m
    ensures forall k :: k in m ==>
              exists i :: 0 <= i < |rows| && key(rows[i]) == k && m[k] == val(rows[i])
  {
    if |rows| == 0 then map[]
    else
      var init := rows[..|rows| - 1];
      var m := IndexBy(init, key, val)[key(rows[|rows| - 1]) := val(rows[|rows| - 1])];
      assert forall i :: 0 <= i < |init| ==> init[i] == rows[i];
      m
  }

  /** Later rows win: the entry for a key is the value of the LAST row carrying it. */
  lemma {:induction false} IndexLastWins<T, K(!new), V>(rows: seq<T>, key: T -> K, val: T -> V, i: nat)
    requires i < |rows|
    requires forall j :: i < j < |rows| ==> key(rows[j]) != key(rows[i])
    ensures IndexBy(rows, key, val)[key(rows[i])] == val(rows[i])
  {
    if i < |rows| - 1 {
      var init := rows[..|rows| - 1];
      assert forall j :: i < j < |init| ==> init[j] == rows[j];
      IndexLastWins(init, key, val, i);
    }
  }

  /** `{abbr: team_id for team_id, abbr in teams}`; abbreviations are used as stored. */
  function TeamIndex(teams: seq<TeamRow>): map<string, int> {
    IndexBy(teams, (t: TeamRow) => t.abbr, (t: TeamRow) => t.id)
  }

  /** `{name.strip(): venue_id for venue_id, name in venues}`. */
  function VenueIndex(venues: seq<VenueRow>): map<string, int> {
    IndexBy(venues, (v: VenueRow) => Strip(v.name), (v: VenueRow) => v.id)
  }

  /** A dict lookup followed by Python's truthiness test: an absent key and an id of 0
      both fail. */
  function Resolve(m: map<string, int>, k: string): (r: Option<int>)
    ensures r.Some? <==> k in m && m[k] != 0
    ensures r.Some? ==> r.value == m[k]
    ensures r.Some? ==> r.value != 0 && r.value in m.Values
  {
    if k in m && m[k] != 0 then Some(m[k]) else None
  }

  /** An abbreviation resolves to the id of its last Team row when that id is non-zero,
      and fails when it is zero. */
  lemma ResolveLastTeam(teams: seq<TeamRow>, i: nat)
    requires i < |teams|
    requires forall j :: i < j < |teams| ==> teams[j].abbr != teams[i].abbr
    ensures Resolve(TeamIndex(teams), teams[i].abbr) == if teams[i].id != 0 then Some(teams[i].id) else None
  {
    IndexLastWins(teams, (t: TeamRow) => t.abbr, (t: TeamRow) => t.id, i);
  }

  /** A resolved abbreviation names a Team row with that abbreviation and a non-zero id,
      and an abbreviation no Team row carries never resolves. */
  lemma ResolvedTeamExists(teams: seq<TeamRow>, a: string)
    ensures Resolve(TeamIndex(teams), a).Some? ==>
              exists t :: t in teams && t.abbr == a && t.id == Resolve(TeamIndex(teams), a).value && t.id != 0
    ensures (forall t :: t in teams ==> t.abbr != a) ==> Resolve(TeamIndex(teams), a).None?
  {
    var m := TeamIndex(teams);
    if a in m {
      var i :| 0 <= i < |teams| && teams[i].abbr == a && m[a] == teams[i].id;
      assert teams[i] in teams;
    }
  }

  /** The feed-side name key: `name.strip().lower()`. */
  function NameKey(name: string): string {
    Lower(Strip(name))
  }

  /** The database-side name key: `f"{first} {last}".strip().lower()`. */
  function PlayerKey(p: PlayerRow): string {
    NameKey(p.first + " " + p.last)
  }

  /** The daily stats script's index over every player. */
  function PlayerIndex(players: seq<PlayerRow>): map<string, int> {
    IndexBy(players, PlayerKey, (p: PlayerRow) => p.id)
  }

  function TeamIds(teams: seq<TeamRow>): set<int> {
    set t | t in teams :: t.id
  }

  /** The range script's index, over the players the `JOIN Team` returns: those whose
      TeamID is in the team table. */
  function JoinedPlayerIndex(players: seq<PlayerRow>, teams: seq<TeamRow>): map<string, int> {
    IndexBy(Filter(players, (p: PlayerRow) => p.teamId in TeamIds(teams)), PlayerKey, (p: PlayerRow) => p.id)
  }

  /** Two players whose names normalise alike collide, and the later one owns the key. */
  lemma PlayerIndexLaterWins(players: seq<PlayerRow>, i: nat)
    requires i < |players|
    requires forall j :: i < j < |players| ==> PlayerKey(players[j]) != PlayerKey(players[i])
    ensures PlayerKey(players[i]) in PlayerIndex(players)
    ensures PlayerIndex(players)[PlayerKey(players[i])] == players[i].id
  {
    IndexLastWins(players, PlayerKey, (p: PlayerRow) => p.id, i);
  }

  /** The range script only resolves names to players of a team in the team table. */
  lemma JoinedPlayersHaveTeams(players: seq<PlayerRow>, teams: seq<TeamRow>, k: string)
    requires k in JoinedPlayerIndex(players, teams)
    ensures exists p :: p in players && PlayerKey(p) == k && p.teamId in TeamIds(teams)
              && JoinedPlayerIndex(players, teams)[k] == p.id
  {
    var joined := Filter(players, (p: PlayerRow) => p.teamId in TeamIds(teams));
    var i :| 0 <= i < |joined| && PlayerKey(joined[i]) == k
             && JoinedPlayerIndex(players, teams)[k] == joined[i].id;
    assert joined[i] in players;
  }

  /** Whitespace around a feed name does not matter. */
  lemma NameKeyIgnoresPadding(left: string, name: string, right: string)
    requires AllSpace(left) && AllSpace(right)
    ensures NameKey(left + name + right) == NameKey(name)
  {
    StripIgnoresPadding(left, name, right);
  }

  /** Letter case does not matter (for the characters lower-casing is modelled on). */
  lemma NameKeyIgnoresCase(name: string)
    ensures NameKey(Lower(name)) == NameKey(name)
  {
    StripLowerCommute(name);
    LowerIdempotent(Strip(name));
  }

  /** Whitespace inside a name is kept as it is: for any two name parts, a doubled
      space between them makes a different key from a single one. */
  lemma NameKeyKeepsInnerSpace(a: string, b: string)
    requires |a| > 0 && |b| > 0 && NoBorderSpace(a) && NoBorderSpace(b)
    ensures NameKey(a + "  " + b) != NameKey(a + " " + b)
  {
    var doubled := a + "  " + b;
    var single := a + " " + b;
    assert doubled[0] == a[0] && doubled[|doubled| - 1] == b[|b| - 1];
    assert single[0] == a[0] && single[|single| - 1] == b[|b| - 1];
    StripOfPadded([], doubled, []);
    StripOfPadded([], single, []);
    assert [] + doubled + [] == doubled;
    assert [] + single + [] == single;
    assert |NameKey(doubled)| != |NameKey(single)|;
  }

  /** A feed name with a doubled space between a player's first and last name does not
      have that player's key. */
  lemma DoubledSpaceMissesPlayer(p: PlayerRow)
    requires |p.first| > 0 && |p.last| > 0 && NoBorderSpace(p.first) && NoBorderSpace(p.last)
    ensures NameKey(p.first + "  " + p.last) != PlayerKey(p)
  {
    NameKeyKeepsInnerSpace(p.first, p.last);
  }

  /** A feed name that differs from a stored player's name only in case and surrounding
      whitespace resolves to that player's key. */
  lemma FeedNameFindsPlayer(p: PlayerRow, left: string, right: string)
    requires AllSpace(left) && AllSpace(right)
    ensures NameKey(left + Lower(p.first + " " + p.last) + right) == PlayerKey(p)
  {
    NameKeyIgnoresPadding(left, Lower(p.first + " " + p.last), right);
    NameKeyIgnoresCase(p.first + " " + p.last);
  }

  /** `SELECT VenueID FROM Venue ORDER BY VenueID LIMIT 1`: the smallest id, or no row. */
  function DefaultVenue(venues: seq<VenueRow>): (r: Option<int>)
    ensures r.Some? <==> |venues| > 0
    ensures r.Some? ==> exists v :: v in venues && v.id == r.value
    ensures r.Some? ==> forall v :: v in venues ==> r.value <= v.id
  {
    if |venues| == 0 then None
    else
      var rest := DefaultVenue(venues[1..]);
      assert forall v :: v in venues[1..] ==> v in venues;
      if rest.Some? && rest.value < venues[0].id then rest else Some(venues[0].id)
  }
}

=== FILE: matchup.dfy ===
/**
 * Deciding which of a game's two team lines is the home team. The MATCHUP text
 * reads "BOS vs. LAL" on the home team's line and "LAL @ BOS" on the visitor's.
 * The scripts first try two regular expressions and fall back on the first row.
 */
module Matchup {
  import opened Wrappers
  import opened Text
  import opened Seqs
  import opened Feed

  /** The letters `s` matches under `re.IGNORECASE` in a `str` pattern: s, S and the
      long s U+017F, whose upper case is S. */
  predicate IsLetterS(c: char) {
    c == 's' || c == 'S' || c == '\U{017F}'
  }

  /** `\svs\.?\s` with IGNORECASE matches starting at position `i`. */
  predicate VsAt(m: string, i: nat) {
    i + 4 <= |m| && IsSpace(m[i]) && (m[i + 1] == 'v' || m[i + 1] == 'V') && IsLetterS(m[i + 2])
    && (IsSpace(m[i + 3]) || (m[i + 3] == '.' && i + 5 <= |m| && IsSpace(m[i + 4])))
  }

  /** `\s@\s` matches starting at position `i`. */
  predicate AtAt(m: string, i: nat) {
    i + 3 <= |m| && IsSpace(m[i]) && m[i + 1] == '@' && IsSpace(m[i + 2])
  }

  /** `re.search(vs_pat, m)` succeeds: the home team's tag. */
  predicate MatchesVs(m: string) {
    exists i :: 0 <= i < |m| && VsAt(m, i)
  }

  /** `re.search(at_pat, m)` succeeds: the visitor's tag. */
  predicate MatchesAt(m: string) {
    exists i :: 0 <= i < |m| && AtAt(m, i)
  }

  predicate IsHomeLine(r: TeamGameRow) {
    MatchesVs(r.matchup)
  }

  predicate IsAwayLine(r: TeamGameRow) {
    MatchesAt(r.matchup)
  }

  /** The fallback when the two tags do not single out one row each: the FIRST row
      decides. An "@" anywhere makes it the visitor; otherwise "vs" in any case makes it
      the home team; otherwise the group cannot be placed. */
  function FirstRowDecides(g: seq<TeamGameRow>): (r: Option<(TeamGameRow, TeamGameRow)>)
    requires |g| >= 2
    ensures r.Some? <==> '@' in g[0].matchup || HasInfix(Lower(g[0].matchup), "vs")
    ensures '@' in g[0].matchup ==> r == Some((g[1], g[0]))
    ensures '@' !in g[0].matchup && HasInfix(Lower(g[0].matchup), "vs") ==> r == Some((g[0], g[1]))
    ensures r.Some? ==> r.value == (g[0], g[1]) || r.value == (g[1], g[0])
    ensures r.Some? && g[0] != g[1] ==> (r.value.1 == g[0] <==> '@' in g[0].matchup)
  {
    if '@' in g[0].matchup then Some((g[1], g[0]))
    else if HasInfix(Lower(g[0].matchup), "vs") then Some((g[0], g[1]))
    else None
  }

  /** The fallback reads only the first two lines: any further lines of the group, and
      the second line's own tag, are ignored. */
  lemma FirstRowDecidesOnTwoLines(g: seq<TeamGameRow>, second: TeamGameRow)
    requires |g| >= 2
    ensures FirstRowDecides(g) == FirstRowDecides(g[..2])
    ensures FirstRowDecides([g[0], second]).Some? == FirstRowDecides(g).Some?
  {
  }

  /** The (home, away) rows of a group of at least two lines, or None when neither rule
      places them. */
  function SplitHomeAway(g: seq<TeamGameRow>): (r: Option<(TeamGameRow, TeamGameRow)>)
    requires |g| >= 2
    ensures r.Some? ==> r.value.0 in g && r.value.1 in g
    ensures r.None? <==>
              !(|Filter(g, IsHomeLine)| == 1 && |Filter(g, IsAwayLine)| == 1)
              && '@' !in g[0].matchup && !HasInfix(Lower(g[0].matchup), "vs")
  {
    var homes := Filter(g, IsHomeLine);
    var aways := Filter(g, IsAwayLine);
    if |homes| == 1 && |aways| == 1 then Some((homes[0], aways[0]))
    else FirstRowDecides(g)
  }

  /** When exactly one line carries each tag, those lines are home and away, in
      whichever order the feed lists them. */
  lemma TaggedLinesDecide(g: seq<TeamGameRow>, h: TeamGameRow, a: TeamGameRow)
    requires |g| >= 2
    requires Filter(g, IsHomeLine) == [h] && Filter(g, IsAwayLine) == [a]
    ensures SplitHomeAway(g) == Some((h, a))
  {
  }

  /** A two-line group whose lines are cleanly tagged splits the same way in either order. */
  lemma TwoTaggedLinesEitherOrder(h: TeamGameRow, a: TeamGameRow)
    requires IsHomeLine(h) && !IsAwayLine(h)
    requires IsAwayLine(a) && !IsHomeLine(a)
    ensures SplitHomeAway([h, a]) == Some((h, a))
    ensures SplitHomeAway([a, h]) == Some((h, a))
  {
    assert [h, a][1..] == [a] && [a][1..] == [];
    assert [a, h][1..] == [h] && [h][1..] == [];
    assert Filter([h, a], IsHomeLine) == [h] + Filter([a], IsHomeLine);
    assert Filter([h, a], IsAwayLine) == [] + Filter([a], IsAwayLine);
    assert Filter([a, h], IsHomeLine) == [] + Filter([h], IsHomeLine);
    assert Filter([a, h], IsAwayLine) == [a] + Filter([h], IsAwayLine);
  }

  /** The API's own spellings: "BOS vs. LAL" is tagged home only, "LAL @ BOS" away only. */
  lemma ApiSpellings()
    ensures MatchesVs("BOS vs. LAL") && !MatchesAt("BOS vs. LAL")
    ensures MatchesAt("LAL @ BOS") && !MatchesVs("LAL @ BOS")
  {
    assert VsAt("BOS vs. LAL", 3);
    assert AtAt("LAL @ BOS", 3);
    forall i | 0 <= i < |"BOS vs. LAL"| ensures !AtAt("BOS vs. LAL", i) {
      assert '@' !in "BOS vs. LAL";
    }
    forall i | 0 <= i < |"LAL @ BOS"| ensures !VsAt("LAL @ BOS", i) {
      if i + 4 <= |"LAL @ BOS"| {
        assert "LAL @ BOS"[i + 1] != 'v' && "LAL @ BOS"[i + 1] != 'V';
      }
    }
  }

  /** The regular expression and the fallback disagree on the long s: "vſ" is a home tag
      for the pattern, but `"vs" in m.lower()` does not see it. */
  lemma LongSOnlyInPattern()
    ensures MatchesVs("BOS v\U{017F} LAL")
    ensures !HasInfix(Lower("BOS v\U{017F} LAL"), "vs")
  {
    assert VsAt("BOS v\U{017F} LAL", 3);
    var l := Lower("BOS v\U{017F} LAL");
    assert l == "bos v\U{017F} lal";
    forall i | 0 <= i <= |l| ensures !InfixAt(l, "vs", i) {
      if i + 2 <= |l| {
        assert l[i..i + 2][0] == l[i] && l[i..i + 2][1] == l[i + 1];
      }
    }
  }

  /** In the fallback an "@" wins over "vs": a first line mentioning both is the visitor. */
  lemma AtBeatsVsInFallback(g: seq<TeamGameRow>)
    requires |g| >= 2
    requires !(|Filter(g, IsHomeLine)| == 1 && |Filter(g, IsAwayLine)| == 1)
    requires '@' in g[0].matchup
    ensures SplitHomeAway(g) == Some((g[1], g[0]))
  {
  }
}

=== FILE: player_stats.dfy ===
/**
 * The player-stat pipeline: player game logs are matched to database players by
 * normalised name, their game id is converted to the database's integer id, box-score
 * values are coerced to integers, and (GameID, PlayerID) pairs already stored when
 * the run started are skipped. The daily script is strict (any problem rolls back
 * everything); the date-range script is lenient (problem rows are dropped or counted).
 */
module PlayerStats {
  import opened Wrappers
  import opened Text
  import opened Seqs
  import opened Feed
  import opened GameIds
  import opened Identity
  import opened Store

  /** `int(x)` of a float: truncation toward zero. */
  function Trunc(x: real): (n: int)
    ensures 0.0 <= x ==> 0 <= n && n as real <= x < n as real + 1.0
    ensures x < 0.0 ==> n <= 0 && n as real - 1.0 < x <= n as real
  {
    if x >= 0.0 then x.Floor else -((-x).Floor)
  }

  /** Truncation fixes whole numbers and is symmetric about zero, unlike `Floor`. */
  lemma TruncProperties(x: real, k: int)
    ensures Trunc(k as real) == k
    ensures Trunc(-x) == -Trunc(x)
  {
  }

  /** A box-score value as the scripts store it: missing becomes 0, anything else is
      truncated to an integer. */
  function Coerce(v: Option<real>): (n: int)
    ensures v.None? ==> n == 0
    ensures v.Some? ==> n == Trunc(v.value)
    ensures v.Some? && 0.0 <= v.value ==> 0 <= n && n as real <= v.value < n as real + 1.0
    ensures v.Some? && v.value < 0.0 ==> n <= 0 && n as real - 1.0 < v.value <= n as real
    ensures v.Some? && v.value == v.value.Floor as real ==> n == v.value.Floor
  {
    match v
    case None => 0
    case Some(x) =>
      TruncProperties(0.0, x.Floor);
      Trunc(x)
  }

  /** A `PlayerGameStats` row, without its key. */
  datatype StatLine = StatLine(pts: int, reb: int, ast: int, stl: int, blk: int, tov: int, pf: int, min: int)

  function LineOf(row: StatLogRow): StatLine {
    StatLine(Coerce(row.pts), Coerce(row.reb), Coerce(row.ast), Coerce(row.stl),
             Coerce(row.blk), Coerce(row.tov), Coerce(row.pf), Coerce(row.min))
  }

  /** Box-score values that are already whole and present are stored unchanged. */
  lemma LineOfWholeValues(row: StatLogRow, line: StatLine)
    requires row.pts == Some(line.pts as real) && row.reb == Some(line.reb as real)
    requires row.ast == Some(line.ast as real) && row.stl == Some(line.stl as real)
    requires row.blk == Some(line.blk as real) && row.tov == Some(line.tov as real)
    requires row.pf == Some(line.pf as real) && row.min == Some(line.min as real)
    ensures LineOf(row) == line
  {
    TruncProperties(0.0, line.pts);
    TruncProperties(0.0, line.reb);
    TruncProperties(0.0, line.ast);
    TruncProperties(0.0, line.stl);
    TruncProperties(0.0, line.blk);
    TruncProperties(0.0, line.tov);
    TruncProperties(0.0, line.pf);
    TruncProperties(0.0, line.min);
  }

  /** The `PlayerGameStats` primary key: (GameID, PlayerID). */
  type StatKey = (nat, int)

  type StatTable = Table<StatKey, StatLine>

  /** A feed row with its `PlayerID` column: the player its normalised name resolves
      to, or None when the index has no such name. */
  datatype Tagged = Tagged(row: StatLogRow, player: Option<int>)

  /** `frame['PLAYER_NAME'].str.strip().str.lower().map(index)`. */
  function Tag(rows: seq<StatLogRow>, idx: map<string, int>): (ts: seq<Tagged>)
    ensures |ts| == |rows|
    ensures forall i :: 0 <= i < |rows| ==>
              ts[i].row == rows[i] && ts[i].player == Get(idx, NameKey(rows[i].playerName))
    ensures forall i :: 0 <= i < |rows| ==>
              (Mapped(ts[i]) <==> NameKey(rows[i].playerName) in idx)
              && (Mapped(ts[i]) ==> ts[i].player.value in idx.Values)
  {
    seq(|rows|, i requires 0 <= i < |rows| => Tagged(rows[i], Get(idx, NameKey(rows[i].playerName))))
  }

  /** Against a player index, a feed row is mapped exactly when some Player row has its
      normalised name, and then it is mapped to the id of such a row. */
  lemma TagFindsPlayer(rows: seq<StatLogRow>, players: seq<PlayerRow>, i: nat)
    requires i < |rows|
    ensures Mapped(Tag(rows, PlayerIndex(players))[i]) <==>
              exists p :: p in players && PlayerKey(p) == NameKey(rows[i].playerName)
    ensures Mapped(Tag(rows, PlayerIndex(players))[i]) ==>
              exists p :: p in players && PlayerKey(p) == NameKey(rows[i].playerName)
                          && p.id == Tag(rows, PlayerIndex(players))[i].player.value
  {
    var idx := PlayerIndex(players);
    var k := NameKey(rows[i].playerName);
    if k in idx {
      var j :| 0 <= j < |players| && PlayerKey(players[j]) == k && idx[k] == players[j].id;
      assert players[j] in players;
    } else {
      forall p | p in players
        ensures PlayerKey(p) != k
      {
        var j :| 0 <= j < |players| && players[j] == p;
        assert PlayerKey(players[j]) in idx;
      }
    }
  }

  predicate Mapped(t: Tagged) {
    t.player.Some?
  }

  /** The row's key, or None when its game id does not convert. */
  function KeyOf(t: Tagged): (k: Option<StatKey>)
    requires Mapped(t)
    ensures k.Some? <==> StatGameNumber(t.row.gameId).Some?
    ensures k.Some? ==> k.value == (StatGameNumber(t.row.gameId).value, t.player.value)
    ensures t.row.gameId != "0" ==> k == match GameNumber(t.row.gameId)
                                       case None => None
                                       case Some(n) => Some((n, t.player.value))
    ensures AllDigits(t.row.gameId) && HasNonZeroDigit(t.row.gameId) ==>
              k == Some((DigitsValue(t.row.gameId), t.player.value))
  {
    StatGameNumberAgrees(t.row.gameId);
    match StatGameNumber(t.row.gameId)
    case None => None
    case Some(g) => Some((g, t.player.value))
  }

  /** The rows of one calendar day (`GAME_DATE == day`). */
  function DayRows(rows: seq<StatLogRow>, day: string): seq<StatLogRow> {
    Filter(rows, (r: StatLogRow) => r.gameDate == day)
  }

  /** The rows of an inclusive date window, compared as strings. */
  function WindowRows(rows: seq<StatLogRow>, from: string, to: string): seq<StatLogRow> {
    Filter(rows, (r: StatLogRow) => StrLe(from, r.gameDate) && StrLe(r.gameDate, to))
  }

  /** The values `name` takes on the elements `bad` selects, each once, in order of
      first appearance. */
  function UniqueWhere<T>(s: seq<T>, bad: T -> bool, name: T -> string): (names: seq<string>)
    ensures Distinct(names)
    ensures forall i :: 0 <= i < |s| && bad(s[i]) ==> name(s[i]) in names
    ensures forall n :: n in names ==> exists i :: 0 <= i < |s| && bad(s[i]) && name(s[i]) == n
    ensures |names| == 0 <==> forall i :: 0 <= i < |s| ==> !bad(s[i])
  {
    var picked := Filter(s, bad);
    var names := Unique(seq(|picked|, i requires 0 <= i < |picked| => name(picked[i])));
    UniqueWhereCover(s, bad, name, picked, names);
    names
  }

  lemma UniqueWhereCover<T>(s: seq<T>, bad: T -> bool, name: T -> string, picked: seq<T>, names: seq<string>)
    requires picked == Filter(s, bad)
    requires names == Unique(seq(|picked|, i requires 0 <= i < |picked| => name(picked[i])))
    ensures forall i :: 0 <= i < |s| && bad(s[i]) ==> name(s[i]) in names
    ensures forall n :: n in names ==> exists i :: 0 <= i < |s| && bad(s[i]) && name(s[i]) == n
  {
    var raw := seq(|picked|, i requires 0 <= i < |picked| => name(picked[i]));
    forall i | 0 <= i < |s| && bad(s[i]) ensures name(s[i]) in names {
      NameListed(s, bad, name, picked, raw, names, i);
    }
    forall n | n in names ensures exists i :: 0 <= i < |s| && bad(s[i]) && name(s[i]) == n {
      NameTraced(s, bad, name, picked, raw, names, n);
    }
  }

  lemma NameListed<T>(s: seq<T>, bad: T -> bool, name: T -> string, picked: seq<T>, raw: seq<string>,
                      names: seq<string>, i: nat)
    requires picked == Filter(s, bad)
    requires raw == seq(|picked|, i requires 0 <= i < |picked| => name(picked[i]))
    requires names == Unique(raw)
    requires i < |s| && bad(s[i])
    ensures name(s[i]) in names
  {
    var j :| 0 <= j < |picked| && picked[j] == s[i];
    assert raw[j] == name(s[i]);
  }

  lemma NameTraced<T>(s: seq<T>, bad: T -> bool, name: T -> string, picked: seq<T>, raw: seq<string>,
                      names: seq<string>, n: string)
    requires picked == Filter(s, bad)
    requires raw == seq(|picked|, i requires 0 <= i < |picked| => name(picked[i]))
    requires names == Unique(raw)
    requires n in names
    ensures exists i :: 0 <= i < |s| && bad(s[i]) && name(s[i]) == n
  {
    var j :| 0 <= j < |names| && names[j] == n;
    var k :| 0 <= k < |raw| && raw[k] == n;
    assert picked[k] in s && bad(picked[k]);
    var i :| 0 <= i < |s| && s[i] == picked[k];
  }

  /** The raw feed names of the rows whose normalised name has no player, each once
      (`frame[frame.PlayerID.isna()].PLAYER_NAME.unique()`). */
  function UnmappedNames(ts: seq<Tagged>): (names: seq<string>)
    ensures Distinct(names)
    ensures forall i :: 0 <= i < |ts| && !Mapped(ts[i]) ==> ts[i].row.playerName in names
    ensures forall n :: n in names ==> exists i :: 0 <= i < |ts| && !Mapped(ts[i]) && ts[i].row.playerName == n
    ensures |names| == 0 <==> forall i :: 0 <= i < |ts| ==> Mapped(ts[i])
  {
    UniqueWhere(ts, (t: Tagged) => !Mapped(t), (t: Tagged) => t.row.playerName)
  }

  /** A mapped row as the insert loops see it: its key (None when the game id does not
      convert) and its coerced values. */
  datatype Entry = Entry(key: Option<StatKey>, line: StatLine)

  function Entries(ts: seq<Tagged>): (es: seq<Entry>)
    requires forall i :: 0 <= i < |ts| ==> Mapped(ts[i])
    ensures |es| == |ts|
    ensures forall i :: 0 <= i < |ts| ==> es[i] == Entry(KeyOf(ts[i]), LineOf(ts[i].row))
    ensures forall i, j :: 0 <= i < |ts| && 0 <= j < |ts| && es[i].key.Some? && es[j].key.Some? ==>
              (es[i].key == es[j].key <==>
                 ts[i].player == ts[j].player && StatGameNumber(ts[i].row.gameId) == StatGameNumber(ts[j].row.gameId))
  {
    KeysIdentifyRows(ts);
    seq(|ts|, i requires 0 <= i < |ts| => Entry(KeyOf(ts[i]), LineOf(ts[i].row)))
  }

  /** Two converted keys are equal exactly when the rows name the same player in the
      same game. */
  lemma KeysIdentifyRows(ts: seq<Tagged>)
    requires forall i :: 0 <= i < |ts| ==> Mapped(ts[i])
    ensures forall i, j :: 0 <= i < |ts| && 0 <= j < |ts| && KeyOf(ts[i]).Some? && KeyOf(ts[j]).Some? ==>
              (KeyOf(ts[i]) == KeyOf(ts[j]) <==>
                 ts[i].player == ts[j].player && StatGameNumber(ts[i].row.gameId) == StatGameNumber(ts[j].row.gameId))
  {
    forall i, j | 0 <= i < |ts| && 0 <= j < |ts| && KeyOf(ts[i]).Some? && KeyOf(ts[j]).Some?
      ensures KeyOf(ts[i]) == KeyOf(ts[j]) <==>
                ts[i].player == ts[j].player && StatGameNumber(ts[i].row.gameId) == StatGameNumber(ts[j].row.gameId)
    {
      var a, b := KeyOf(ts[i]).value, KeyOf(ts[j]).value;
      assert a == (a.0, a.1) && b == (b.0, b.1);
    }
  }

  /** The strict loop's state after every row went through. */
  datatype StrictTally = StrictTally(table: StatTable, inserted: nat, skipped: nat)

  /** The daily insert loop, inside one transaction: a game id that does not convert
      aborts; a key in the snapshot taken before the loop is skipped; an insert the
      database rejects aborts. `None` is the abort, after which everything rolls back. */
  function StrictStats(t: StatTable, snapshot: set<StatKey>, es: seq<Entry>): (r: Option<StrictTally>)
    ensures r.Some? ==> r.value.inserted + r.value.skipped == |es|
    decreases |es|
  {
    if |es| == 0 then Some(StrictTally(t, 0, 0))
    else
      match es[0].key
      case None => None
      case Some(k) =>
        if k in snapshot then
          match StrictStats(t, snapshot, es[1..])
          case None => None
          case Some(r) => Some(r.(skipped := r.skipped + 1))
        else
          match Store.Insert(t, k, es[0].line)
          case None => None
          case Some(t') =>
            match StrictStats(t', snapshot, es[1..])
            case None => None
            case Some(r) => Some(r.(inserted := r.inserted + 1))
  }

  /** The table after the first entry, when the loop goes on past it. */
  function StrictStep(t: StatTable, snapshot: set<StatKey>, e: Entry): StatTable
    requires e.key.Some?
  {
    if e.key.value in snapshot then t else t.(rows := t.rows[e.key.value := e.line])
  }

  /** An entry whose game id does not convert aborts the whole loop. */
  lemma {:induction false} BadGameIdAborts(t: StatTable, snapshot: set<StatKey>, es: seq<Entry>, i: nat)
    requires i < |es| && es[i].key.None?
    ensures StrictStats(t, snapshot, es).None?
    decreases |es|
  {
    if i > 0 {
      assert es[1..][i - 1] == es[i];
      forall t': StatTable ensures StrictStats(t', snapshot, es[1..]).None? {
        BadGameIdAborts(t', snapshot, es[1..], i - 1);
      }
    }
  }

  /** An entry whose key is not in the snapshot but already in the table aborts. */
  lemma {:induction false} StoredKeyAborts(t: StatTable, snapshot: set<StatKey>, es: seq<Entry>, j: nat)
    requires j < |es| && es[j].key.Some?
    requires es[j].key.value !in snapshot && es[j].key.value in t.rows
    ensures StrictStats(t, snapshot, es).None?
    decreases |es|
  {
    if j > 0 && es[0].key.Some? {
      assert es[1..][j - 1] == es[j];
      var k0 := es[0].key.value;
      if k0 in snapshot || (k0 !in t.rows && k0 !in t.refused) {
        StoredKeyAborts(StrictStep(t, snapshot, es[0]), snapshot, es[1..], j - 1);
      }
    }
  }

  /** Two entries of the batch with the same key that the snapshot does not hold: the
      second insert clashes with the first, and the loop aborts. */
  lemma {:induction false} BatchDuplicateAborts(t: StatTable, snapshot: set<StatKey>, es: seq<Entry>, i: nat, j: nat)
    requires i < j < |es|
    requires es[i].key.Some? && es[i].key == es[j].key && es[i].key.value !in snapshot
    ensures StrictStats(t, snapshot, es).None?
    decreases |es|
  {
    assert es[1..][j - 1] == es[j];
    if i > 0 {
      assert es[1..][i - 1] == es[i];
      forall t': StatTable ensures StrictStats(t', snapshot, es[1..]).None? {
        BatchDuplicateAborts(t', snapshot, es[1..], i - 1, j - 1);
      }
    } else if es[0].key.value !in t.rows && es[0].key.value !in t.refused {
      StoredKeyAborts(StrictStep(t, snapshot, es[0]), snapshot, es[1..], j - 1);
    }
  }

  /** What a loop that got through leaves: the refused keys and every earlier row
      unchanged; each entry's key either in the snapshot or stored with that entry's
      values; nothing else added; the table grown by the inserted count. */
  lemma StrictStatsContents(t: StatTable, snapshot: set<StatKey>, es: seq<Entry>)
    requires StrictStats(t, snapshot, es).Some?
    ensures var r := StrictStats(t, snapshot, es).value;
            r.table.refused == t.refused
            && |r.table.rows.Keys| == |t.rows.Keys| + r.inserted
            && (forall k :: k in t.rows ==> k in r.table.rows && r.table.rows[k] == t.rows[k])
            && (forall i :: 0 <= i < |es| ==> es[i].key.Some?)
            && (forall i :: 0 <= i < |es| && es[i].key.value !in snapshot ==>
                  es[i].key.value in r.table.rows && r.table.rows[es[i].key.value] == es[i].line)
            && (forall k :: k in r.table.rows && k !in t.rows ==>
                  exists i :: 0 <= i < |es| && es[i].key == Some(k))
  {
    StrictStatsFrame(t, snapshot, es);
    StrictStatsCover(t, snapshot, es);
  }

  /** The refused keys and every earlier row stay, every entry converted, and the table
      grows by the inserted count. */
  lemma {:induction false} StrictStatsFrame(t: StatTable, snapshot: set<StatKey>, es: seq<Entry>)
    requires StrictStats(t, snapshot, es).Some?
    ensures var r := StrictStats(t, snapshot, es).value;
            r.table.refused == t.refused
            && |r.table.rows.Keys| == |t.rows.Keys| + r.inserted
            && (forall k :: k in t.rows ==> k in r.table.rows && r.table.rows[k] == t.rows[k])
            && (forall i :: 0 <= i < |es| ==> es[i].key.Some?)
    decreases |es|
  {
    if |es| > 0 {
      var k := es[0].key.value;
      var t' := StrictStep(t, snapshot, es[0]);
      assert forall i :: 1 <= i < |es| ==> es[1..][i - 1] == es[i];
      StrictStatsFrame(t', snapshot, es[1..]);
      assert StrictStats(t, snapshot, es).value.table == StrictStats(t', snapshot, es[1..]).value.table;
      if k !in snapshot {
        assert t'.rows.Keys == t.rows.Keys + {k};
      }
    }
  }

  /** Each entry outside the snapshot is stored with its values, and every new key is
      some entry's. */
  lemma {:induction false} StrictStatsCover(t: StatTable, snapshot: set<StatKey>, es: seq<Entry>)
    requires StrictStats(t, snapshot, es).Some?
    ensures forall i :: 0 <= i < |es| ==> es[i].key.Some?
    ensures var r := StrictStats(t, snapshot, es).value;
            (forall i :: 0 <= i < |es| && es[i].key.value !in snapshot ==>
                  es[i].key.value in r.table.rows && r.table.rows[es[i].key.value] == es[i].line)
            && (forall k :: k in r.table.rows && k !in t.rows ==>
                  exists i :: 0 <= i < |es| && es[i].key == Some(k))
    decreases |es|
  {
    StrictStatsFrame(t, snapshot, es);
    if |es| > 0 {
      var r := StrictStats(t, snapshot, es).value;
      var t' := StrictStep(t, snapshot, es[0]);
      assert forall i :: 1 <= i < |es| ==> es[1..][i - 1] == es[i];
      StrictStatsCover(t', snapshot, es[1..]);
      StrictStatsFrame(t', snapshot, es[1..]);
      assert r.table == StrictStats(t', snapshot, es[1..]).value.table;
      forall k' | k' in r.table.rows && k' !in t.rows
        ensures exists i :: 0 <= i < |es| && es[i].key == Some(k')
      {
        if k' !in t'.rows {
          var i :| 0 <= i < |es[1..]| && es[1..][i].key == Some(k');
          assert es[i + 1].key == Some(k');
        }
      }
    }
  }

  /** When every entry's key is in the snapshot, the loop skips them all and writes
      nothing. */
  lemma {:induction false} StrictStatsAllSkipped(t: StatTable, snapshot: set<StatKey>, es: seq<Entry>)
    requires forall i :: 0 <= i < |es| ==> es[i].key.Some? && es[i].key.value in snapshot
    ensures StrictStats(t, snapshot, es) == Some(StrictTally(t, 0, |es|))
    decreases |es|
  {
    if |es| > 0 {
      assert forall i :: 1 <= i < |es| ==> es[1..][i - 1] == es[i];
      StrictStatsAllSkipped(t, snapshot, es[1..]);
    }
  }

  /** How the daily stats script ends. */
  datatype DailyStatsOutcome =
    | FetchFailed
    | NoStats
    | NoGamesThatDay
    | Unmapped(names: seq<string>)
    | RolledBack
    | Committed(inserted: nat, skipped: nat)

  /** The day's rows of a served feed, tagged with their players. */
  function DayTagged(feed: seq<StatLogRow>, day: string, players: seq<PlayerRow>): seq<Tagged> {
    Tag(DayRows(feed, day), PlayerIndex(players))
  }

  /** The daily stats script: the player index covers every player (a later player
      with the same normalised name wins), the feed is the season's logs (`None` when
      the request raised), and only `day`'s rows are considered. */
  function DailyStatsRun(t: StatTable, players: seq<PlayerRow>, feed: Option<seq<StatLogRow>>, day: string)
    : (r: (DailyStatsOutcome, StatTable))
    ensures r.0 == FetchFailed <==> feed.None?
    ensures r.0 == NoStats <==> feed.Some? && |feed.value| == 0
    ensures r.0 == NoGamesThatDay <==> feed.Some? && |feed.value| > 0 && |DayRows(feed.value, day)| == 0
    ensures r.0.Unmapped? <==>
              feed.Some? && |feed.value| > 0
              && exists i :: 0 <= i < |DayTagged(feed.value, day, players)| && !Mapped(DayTagged(feed.value, day, players)[i])
    ensures !r.0.Committed? ==> r.1 == t
    ensures r.0.Committed? ==> feed.Some? && r.0.inserted + r.0.skipped == |DayRows(feed.value, day)|
  {
    if feed.None? then (FetchFailed, t)
    else if |feed.value| == 0 then (NoStats, t)
    else if |DayRows(feed.value, day)| == 0 then (NoGamesThatDay, t)
    else DailyLoad(t, DayTagged(feed.value, day, players))
  }

  /** The part of the daily script after the day's rows are known: any unmatched name
      rolls back before the loop, listing each such raw name once; the loop itself is
      all-or-nothing. */
  function DailyLoad(t: StatTable, ts: seq<Tagged>): (r: (DailyStatsOutcome, StatTable))
    ensures r.0.Unmapped? || r.0.RolledBack? || r.0.Committed?
    ensures r.0.Unmapped? <==> exists i :: 0 <= i < |ts| && !Mapped(ts[i])
    ensures r.0.Unmapped? ==>
              Distinct(r.0.names)
              && (forall i :: 0 <= i < |ts| && !Mapped(ts[i]) ==> ts[i].row.playerName in r.0.names)
              && (forall n :: n in r.0.names ==> exists i :: 0 <= i < |ts| && !Mapped(ts[i]) && ts[i].row.playerName == n)
    ensures !r.0.Committed? ==> r.1 == t
    ensures r.0.Committed? ==> r.0.inserted + r.0.skipped == |ts|
    ensures r.0.RolledBack? <==> (forall i :: 0 <= i < |ts| ==> Mapped(ts[i])) && StrictStats(t, t.rows.Keys, Entries(ts)).None?
  {
    var missing := UnmappedNames(ts);
    if |missing| > 0 then (Unmapped(missing), t)
    else
      match StrictStats(t, t.rows.Keys, Entries(ts))
      case None => (RolledBack, t)
      case Some(r) => (Committed(r.inserted, r.skipped), r.table)
  }

  /** Running the daily stats script again over the same feed, after it committed,
      skips every row and leaves the table as it was. */
  lemma DailyStatsTwice(t: StatTable, players: seq<PlayerRow>, feed: Option<seq<StatLogRow>>, day: string)
    requires DailyStatsRun(t, players, feed, day).0.Committed?
    ensures var (out, t') := DailyStatsRun(t, players, feed, day);
            DailyStatsRun(t', players, feed, day) == (Committed(0, out.inserted + out.skipped), t')
  {
    var ts := DayTagged(feed.value, day, players);
    var es := Entries(ts);
    var t' := DailyStatsRun(t, players, feed, day).1;
    assert t' == DailyLoad(t, ts).1;
    StrictStatsContents(t, t.rows.Keys, es);
    StrictStatsAllSkipped(t', t'.rows.Keys, es);
  }

  /** The same player twice on one game among the day's rows, not yet stored: the daily
      script rolls back and stores nothing. */
  lemma DailyDuplicateRollsBack(t: StatTable, ts: seq<Tagged>, i: nat, j: nat)
    requires i < j < |ts| && forall n :: 0 <= n < |ts| ==> Mapped(ts[n])
    requires KeyOf(ts[i]).Some? && KeyOf(ts[i]) == KeyOf(ts[j]) && KeyOf(ts[i]).value !in t.rows
    ensures DailyLoad(t, ts) == (RolledBack, t)
  {
    BatchDuplicateAborts(t, t.rows.Keys, Entries(ts), i, j);
  }

  /** A row whose game id does not convert rolls the daily script back. */
  lemma DailyBadGameIdRollsBack(t: StatTable, ts: seq<Tagged>, i: nat)
    requires i < |ts| && forall n :: 0 <= n < |ts| ==> Mapped(ts[n])
    requires StatGameNumber(ts[i].row.gameId).None?
    ensures DailyLoad(t, ts) == (RolledBack, t)
  {
    BadGameIdAborts(t, t.rows.Keys, Entries(ts), i);
  }

  /** The lenient loop's state: rows inserted, skipped as already stored, and errors
      (an id that does not convert, or an insert the database rejects). */
  datatype RangeTally = RangeTally(table: StatTable, inserted: nat, skipped: nat, errors: nat)

  /** The date-range insert loop: every problem is counted and the loop moves on. */
  function LenientStats(t: StatTable, snapshot: set<StatKey>, es: seq<Entry>): (r: RangeTally)
    ensures r.inserted + r.skipped + r.errors == |es|
    decreases |es|
  {
    if |es| == 0 then RangeTally(t, 0, 0, 0)
    else
      match es[0].key
      case None =>
        var r := LenientStats(t, snapshot, es[1..]);
        r.(errors := r.errors + 1)
      case Some(k) =>
        if k in snapshot then
          var r := LenientStats(t, snapshot, es[1..]);
          r.(skipped := r.skipped + 1)
        else
          match Store.Insert(t, k, es[0].line)
          case None =>
            var r := LenientStats(t, snapshot, es[1..]);
            r.(errors := r.errors + 1)
          case Some(t') =>
            var r := LenientStats(t', snapshot, es[1..]);
            r.(inserted := r.inserted + 1)
  }

  /** The table after the first entry of the lenient loop. */
  function LenientStep(t: StatTable, snapshot: set<StatKey>, e: Entry): StatTable {
    if e.key.Some? && e.key.value !in snapshot && e.key.value !in t.rows && e.key.value !in t.refused
    then t.(rows := t.rows[e.key.value := e.line]) else t
  }

  /** The lenient loop only adds rows, grows the table by the inserted count, leaves
      every convertible entry's key stored, skipped or refused, and stores each new key
      with the values of an entry carrying it. */
  lemma LenientStatsContents(t: StatTable, snapshot: set<StatKey>, es: seq<Entry>)
    ensures var r := LenientStats(t, snapshot, es);
            r.table.refused == t.refused
            && |r.table.rows.Keys| == |t.rows.Keys| + r.inserted
            && (forall k :: k in t.rows ==> k in r.table.rows && r.table.rows[k] == t.rows[k])
            && (forall i :: 0 <= i < |es| && es[i].key.Some? ==>
                  es[i].key.value in snapshot || es[i].key.value in r.table.rows || es[i].key.value in t.refused)
            && (forall k :: k in r.table.rows && k !in t.rows ==>
                  exists i :: 0 <= i < |es| && es[i].key == Some(k) && r.table.rows[k] == es[i].line)
  {
    LenientStatsFrame(t, snapshot, es);
    LenientStatsCover(t, snapshot, es);
  }

  /** The refused keys and every earlier row stay, and the table grows by the inserted
      count. */
  lemma {:induction false} LenientStatsFrame(t: StatTable, snapshot: set<StatKey>, es: seq<Entry>)
    ensures var r := LenientStats(t, snapshot, es);
            r.table.refused == t.refused
            && |r.table.rows.Keys| == |t.rows.Keys| + r.inserted
            && (forall k :: k in t.rows ==> k in r.table.rows && r.table.rows[k] == t.rows[k])
    decreases |es|
  {
    if |es| > 0 {
      var t' := LenientStep(t, snapshot, es[0]);
      LenientStatsFrame(t', snapshot, es[1..]);
      assert LenientStats(t, snapshot, es).table == LenientStats(t', snapshot, es[1..]).table;
      if t' != t {
        assert t'.rows.Keys == t.rows.Keys + {es[0].key.value};
      }
    }
  }

  /** Every convertible entry's key ends up skipped, stored or refused, and every new key
      is stored with the values of an entry carrying it. */
  lemma {:induction false} LenientStatsCover(t: StatTable, snapshot: set<StatKey>, es: seq<Entry>)
    ensures var r := LenientStats(t, snapshot, es);
            (forall i :: 0 <= i < |es| && es[i].key.Some? ==>
                  es[i].key.value in snapshot || es[i].key.value in r.table.rows || es[i].key.value in t.refused)
            && (forall k :: k in r.table.rows && k !in t.rows ==>
                  exists i :: 0 <= i < |es| && es[i].key == Some(k) && r.table.rows[k] == es[i].line)
    decreases |es|
  {
    if |es| > 0 {
      var r := LenientStats(t, snapshot, es);
      var t' := LenientStep(t, snapshot, es[0]);
      assert forall i :: 1 <= i < |es| ==> es[1..][i - 1] == es[i];
      LenientStatsCover(t', snapshot, es[1..]);
      LenientStatsFrame(t', snapshot, es[1..]);
      assert r.table == LenientStats(t', snapshot, es[1..]).table;
      forall k | k in r.table.rows && k !in t.rows
        ensures exists i :: 0 <= i < |es| && es[i].key == Some(k) && r.table.rows[k] == es[i].line
      {
        if k !in t'.rows {
          var i :| 0 <= i < |es[1..]| && es[1..][i].key == Some(k) && r.table.rows[k] == es[1..][i].line;
          assert es[i + 1] == es[1..][i];
        }
      }
    }
  }

  /** A second lenient pass over entries whose keys are all stored, skipped or refused
      inserts nothing and leaves the table as it was. */
  lemma {:induction false} LenientStatsSettled(t: StatTable, snapshot: set<StatKey>, es: seq<Entry>)
    requires forall i :: 0 <= i < |es| && es[i].key.Some? ==>
               es[i].key.value in snapshot || es[i].key.value in t.rows || es[i].key.value in t.refused
    ensures LenientStats(t, snapshot, es).table == t
    ensures LenientStats(t, snapshot, es).inserted == 0
    decreases |es|
  {
    if |es| > 0 {
      assert forall i :: 1 <= i < |es| ==> es[1..][i - 1] == es[i];
      LenientStatsSettled(t, snapshot, es[1..]);
    }
  }

  /** How the date-range stats script ends. */
  datatype RangeOutcome =
    | RangeFetchFailed
    | NoRowsInRange
    | RangeDone(inserted: nat, skipped: nat, errors: nat, dropped: nat)

  /** The date-range stats script: the index covers the players the `JOIN Team`
      returns; rows of the inclusive window whose name has no player are dropped; the
      rest go through the lenient loop and the run commits once. */
  function StatsRangeRun(t: StatTable, players: seq<PlayerRow>, teams: seq<TeamRow>,
                         feed: Option<seq<StatLogRow>>, from: string, to: string)
    : (r: (RangeOutcome, StatTable))
    ensures r.0 == RangeFetchFailed <==> feed.None?
    ensures r.0 == NoRowsInRange <==> feed.Some? && |WindowRows(feed.value, from, to)| == 0
    ensures !r.0.RangeDone? ==> r.1 == t
    ensures r.0.RangeDone? ==>
              feed.Some?
              && r.0.inserted + r.0.skipped + r.0.errors + r.0.dropped == |WindowRows(feed.value, from, to)|
              && r.0.dropped == |Filter(RangeTagged(feed.value, from, to, players, teams), IsUnmapped)|
  {
    if feed.None? then (RangeFetchFailed, t)
    else
      var window := WindowRows(feed.value, from, to);
      if |window| == 0 then (NoRowsInRange, t)
      else
        var ts := RangeTagged(feed.value, from, to, players, teams);
        var kept := Filter(ts, Mapped);
        FilterSplits(ts);
        var r := LenientStats(t, t.rows.Keys, Entries(kept));
        (RangeDone(r.inserted, r.skipped, r.errors, |Filter(ts, IsUnmapped)|), r.table)
  }

  predicate IsUnmapped(t: Tagged) {
    !Mapped(t)
  }

  /** The window's rows, tagged with the players of the joined index. */
  function RangeTagged(feed: seq<StatLogRow>, from: string, to: string, players: seq<PlayerRow>, teams: seq<TeamRow>)
    : seq<Tagged>
  {
    Tag(WindowRows(feed, from, to), JoinedPlayerIndex(players, teams))
  }

  /** Kept and dropped rows together are the window. */
  lemma {:induction false} FilterSplits(ts: seq<Tagged>)
    ensures |Filter(ts, Mapped)| + |Filter(ts, IsUnmapped)| == |ts|
  {
    if |ts| > 0 {
      FilterSplits(ts[1..]);
    }
  }

  /** Running the date-range script again over the same feed inserts nothing more and
      leaves the table unchanged. */
  lemma StatsRangeTwice(t: StatTable, players: seq<PlayerRow>, teams: seq<TeamRow>,
                        feed: Option<seq<StatLogRow>>, from: string, to: string)
    requires StatsRangeRun(t, players, teams, feed, from, to).0.RangeDone?
    ensures var t' := StatsRangeRun(t, players, teams, feed, from, to).1;
            StatsRangeRun(t', players, teams, feed, from, to).1 == t'
            && StatsRangeRun(t', players, teams, feed, from, to).0.inserted == 0
  {
    var es := Entries(Filter(RangeTagged(feed.value, from, to, players, teams), Mapped));
    var t' := StatsRangeRun(t, players, teams, feed, from, to).1;
    LenientStatsContents(t, t.rows.Keys, es);
    LenientStatsSettled(t', t'.rows.Keys, es);
  }
}

=== FILE: reconcile.dfy ===
/**
 * The per-game reconciler the four game scripts share: a group of team lines becomes
 * one game record, or is turned away for a stated reason. The scripts differ only in
 * the key they check against what is already stored and in the record they build.
 */
module Reconcile {
  import opened Wrappers
  import opened Text
  import opened Seqs
  import opened Feed
  import opened GameIds
  import opened Identity
  import opened Matchup
  import opened Grouping

  /** What the shared part of the reconciler makes of a group. */
  datatype Pairing =
    | TooFewRows
    | Unplaced
    | UnknownTeam
    | Paired(home: TeamGameRow, away: TeamGameRow, homeId: int, awayId: int)

  /** Fewer than two lines; no home/away split; a stripped abbreviation that is absent
      from the team map or maps to a falsy id; or the placed pair with both team ids. */
  function PairGroup(g: seq<TeamGameRow>, teams: map<string, int>): (p: Pairing)
    ensures p == TooFewRows <==> |g| < 2
    ensures |g| >= 2 ==> (p == Unplaced <==> SplitHomeAway(g).None?)
    ensures p.Paired? ==> |g| >= 2 && SplitHomeAway(g) == Some((p.home, p.away))
    ensures p.Paired? ==> p.home in g && p.away in g
    ensures p.Paired? ==> Strip(p.home.teamAbbr) in teams && teams[Strip(p.home.teamAbbr)] == p.homeId != 0
    ensures p.Paired? ==> Strip(p.away.teamAbbr) in teams && teams[Strip(p.away.teamAbbr)] == p.awayId != 0
    ensures p == UnknownTeam ==>
              |g| >= 2 && SplitHomeAway(g).Some? &&
              (Resolve(teams, Strip(SplitHomeAway(g).value.0.teamAbbr)).None? ||
               Resolve(teams, Strip(SplitHomeAway(g).value.1.teamAbbr)).None?)
  {
    if |g| < 2 then TooFewRows
    else match SplitHomeAway(g)
      case None => Unplaced
      case Some((home, away)) =>
        match (Resolve(teams, Strip(home.teamAbbr)), Resolve(teams, Strip(away.teamAbbr)))
        case (Some(h), Some(a)) => Paired(home, away, h, a)
        case _ => UnknownTeam
  }

  /** A group's fate in one script: `Crash` is the uncaught ValueError of the ID
      conversion, which ends the script before anything is written. */
  datatype Fate<R> = Crash | Duplicate | TooFew | Undetermined | NoTeam | Emit(rec: R)

  /** A row of the database's `Game` table, as the scripts build it. */
  datatype GameRecord = GameRecord(
    id: nat,
    date: string,
    homeTeamId: int,
    awayTeamId: int,
    homeScore: Option<int>,
    awayScore: Option<int>,
    venue: Option<int>,
    attendance: Option<int>)

  /** A row of the CSV files, as the updater and the snapshot script build it. */
  datatype SheetRow = SheetRow(
    apiGameId: string,
    date: string,
    homeTeamId: int,
    awayTeamId: int,
    homeTeam: string,
    awayTeam: string,
    homeAbbr: string,
    awayAbbr: string,
    homeScore: Option<int>,
    awayScore: Option<int>,
    arena: Option<string>,
    venueId: Option<int>,
    attendance: Option<int>)

  /** The database scripts: the integer game id is computed first (and may raise), the
      stored-id check comes before the row count, and the record takes its date and home
      score from the home line and its away score from the away line. */
  function DbFate(grp: Group, teams: map<string, int>, stored: set<nat>): (f: Fate<GameRecord>)
    ensures f.Crash? <==> GameNumber(grp.id).None?
    ensures GameNumber(grp.id).Some? && GameNumber(grp.id).value in stored ==> f.Duplicate?
    ensures f.Duplicate? ==> GameNumber(grp.id).Some? && GameNumber(grp.id).value in stored
    ensures f.TooFew? <==> GameNumber(grp.id).Some? && GameNumber(grp.id).value !in stored && |grp.rows| < 2
    ensures f.Emit? ==>
              var p := PairGroup(grp.rows, teams);
              p.Paired? && GameNumber(grp.id) == Some(f.rec.id) && f.rec.id !in stored
              && f.rec == GameRecord(f.rec.id, p.home.gameDate, p.homeId, p.awayId,
                                     p.home.pts, p.away.pts, None, None)
  {
    match GameNumber(grp.id)
    case None => Crash
    case Some(n) =>
      if n in stored then Duplicate
      else
        match PairGroup(grp.rows, teams)
        case TooFewRows => TooFew
        case Unplaced => Undetermined
        case UnknownTeam => NoTeam
        case Paired(home, away, h, a) => Emit(GameRecord(n, home.gameDate, h, a, home.pts, away.pts, None, None))
  }

  function SheetRecord(apiId: string, home: TeamGameRow, away: TeamGameRow, h: int, a: int): SheetRow {
    SheetRow(apiId, home.gameDate, h, a, Strip(home.teamName), Strip(away.teamName),
             Strip(home.teamAbbr), Strip(away.teamAbbr), home.pts, away.pts, None, None, None)
  }

  /** The CSV updater: the key is the zero-padded id, checked against the master file's
      padded ids before the row count; the record carries the padded id. */
  function UpdaterFate(grp: Group, teams: map<string, int>, master: set<string>): (f: Fate<SheetRow>)
    ensures !f.Crash?
    ensures f.Duplicate? <==> PaddedId(grp.id) in master
    ensures f.Emit? ==>
              var p := PairGroup(grp.rows, teams);
              p.Paired? && f.rec == SheetRecord(PaddedId(grp.id), p.home, p.away, p.homeId, p.awayId)
  {
    var key := PaddedId(grp.id);
    if key in master then Duplicate
    else
      match PairGroup(grp.rows, teams)
      case TooFewRows => TooFew
      case Unplaced => Undetermined
      case UnknownTeam => NoTeam
      case Paired(home, away, h, a) => Emit(SheetRecord(key, home, away, h, a))
  }

  /** The snapshot script: no stored-id check at all, and the record keeps the raw id. */
  function SnapshotFate(grp: Group, teams: map<string, int>): (f: Fate<SheetRow>)
    ensures !f.Crash? && !f.Duplicate?
    ensures f.Emit? <==> PairGroup(grp.rows, teams).Paired?
    ensures f.Emit? ==>
              var p := PairGroup(grp.rows, teams);
              f.rec == SheetRecord(grp.id, p.home, p.away, p.homeId, p.awayId)
  {
    match PairGroup(grp.rows, teams)
    case TooFewRows => TooFew
    case Unplaced => Undetermined
    case UnknownTeam => NoTeam
    case Paired(home, away, h, a) => Emit(SheetRecord(grp.id, home, away, h, a))
  }

  /** The records the loop appends and its counters, or None when a group crashed it. */
  datatype Tally<R> = Tally(records: seq<R>, duplicates: nat, tooFew: nat, undetermined: nat, noTeam: nat)

  predicate IsEmit<R>(f: Fate<R>) { f.Emit? }
  predicate IsDuplicate<R>(f: Fate<R>) { f.Duplicate? }
  predicate IsTooFew<R>(f: Fate<R>) { f.TooFew? }
  predicate IsUndetermined<R>(f: Fate<R>) { f.Undetermined? }
  predicate IsNoTeam<R>(f: Fate<R>) { f.NoTeam? }

  /** The records, in group order. */
  function Emitted<R>(fs: seq<Fate<R>>): (rs: seq<R>)
    ensures |rs| == |Filter(fs, IsEmit)|
  {
    if |fs| == 0 then []
    else (if fs[0].Emit? then [fs[0].rec] else []) + Emitted(fs[1..])
  }

  /** The loop over the groups: every group is counted under exactly one heading, and
      a crash anywhere means no tally at all. */
  function TallyFates<R>(fs: seq<Fate<R>>): (t: Option<Tally<R>>)
    ensures t.None? <==> exists i :: 0 <= i < |fs| && fs[i].Crash?
    ensures t.Some? ==> t.value.records == Emitted(fs)
    ensures t.Some? ==> t.value.duplicates == |Filter(fs, IsDuplicate)|
    ensures t.Some? ==> t.value.tooFew == |Filter(fs, IsTooFew)|
    ensures t.Some? ==> t.value.undetermined == |Filter(fs, IsUndetermined)|
    ensures t.Some? ==> t.value.noTeam == |Filter(fs, IsNoTeam)|
    ensures t.Some? ==> |t.value.records| + t.value.duplicates + t.value.tooFew
                        + t.value.undetermined + t.value.noTeam == |fs|
  {
    if |fs| == 0 then Some(Tally([], 0, 0, 0, 0))
    else
      var rest := TallyFates(fs[1..]);
      assert forall i :: 1 <= i < |fs| ==> fs[i] == fs[1..][i - 1];
      if fs[0].Crash? || rest.None? then None
      else
        var t := rest.value;
        FateCounts(fs);
        match fs[0]
        case Duplicate => Some(t.(duplicates := t.duplicates + 1))
        case TooFew => Some(t.(tooFew := t.tooFew + 1))
        case Undetermined => Some(t.(undetermined := t.undetermined + 1))
        case NoTeam => Some(t.(noTeam := t.noTeam + 1))
        case Emit(r) => Some(t.(records := [r] + t.records))
  }

  /** Without a crash, every fate falls under exactly one of the five headings. */
  lemma {:induction false} FateCounts<R>(fs: seq<Fate<R>>)
    requires forall i :: 0 <= i < |fs| ==> !fs[i].Crash?
    ensures |Emitted(fs)| + |Filter(fs, IsDuplicate)| + |Filter(fs, IsTooFew)|
            + |Filter(fs, IsUndetermined)| + |Filter(fs, IsNoTeam)| == |fs|
  {
    if |fs| > 0 {
      assert forall i :: 0 <= i < |fs[1..]| ==> fs[1..][i] == fs[i + 1];
      FateCounts(fs[1..]);
    }
  }

  function DbFates(gs: seq<Group>, teams: map<string, int>, stored: set<nat>): (fs: seq<Fate<GameRecord>>)
    ensures |fs| == |gs| && forall i :: 0 <= i < |gs| ==> fs[i] == DbFate(gs[i], teams, stored)
  {
    seq(|gs|, i requires 0 <= i < |gs| => DbFate(gs[i], teams, stored))
  }

  function UpdaterFates(gs: seq<Group>, teams: map<string, int>, master: set<string>): (fs: seq<Fate<SheetRow>>)
    ensures |fs| == |gs| && forall i :: 0 <= i < |gs| ==> fs[i] == UpdaterFate(gs[i], teams, master)
  {
    seq(|gs|, i requires 0 <= i < |gs| => UpdaterFate(gs[i], teams, master))
  }

  function SnapshotFates(gs: seq<Group>, teams: map<string, int>): (fs: seq<Fate<SheetRow>>)
    ensures |fs| == |gs| && forall i :: 0 <= i < |gs| ==> fs[i] == SnapshotFate(gs[i], teams)
  {
    seq(|gs|, i requires 0 <= i < |gs| => SnapshotFate(gs[i], teams))
  }

  /** Storing more games can only turn an emitted record into a duplicate; a group that
      is still emitted yields the very same record. */
  lemma MoreStoredEmitsLess(grp: Group, teams: map<string, int>, stored: set<nat>, stored': set<nat>)
    requires stored <= stored'
    ensures DbFate(grp, teams, stored').Emit? ==> DbFate(grp, teams, stored) == DbFate(grp, teams, stored')
    ensures DbFate(grp, teams, stored).Emit? && DbFate(grp, teams, stored).rec.id in stored' ==>
              DbFate(grp, teams, stored').Duplicate?
  {
  }

  /** Once every record a reconciliation emitted is stored, reconciling the same feed
      again emits nothing. */
  lemma {:induction false} ReconcileAgainEmitsNothing(
    fs: seq<Fate<GameRecord>>, fs': seq<Fate<GameRecord>>,
    gs: seq<Group>, teams: map<string, int>, stored: set<nat>, stored': set<nat>)
    requires stored <= stored'
    requires fs == DbFates(gs, teams, stored) && fs' == DbFates(gs, teams, stored')
    requires forall r :: r in Emitted(fs) ==> r.id in stored'
    ensures Emitted(fs') == []
  {
    forall i | 0 <= i < |gs| ensures !fs'[i].Emit? {
      MoreStoredEmitsLess(gs[i], teams, stored, stored');
      if fs[i].Emit? {
        EmittedHas(fs, i);
      }
    }
    NoEmitNoneEmitted(fs');
  }

  /** A record emitted against a larger stored set is one the smaller set emitted too,
      and its id is not among the stored ones. */
  lemma EmittedShrinks(gs: seq<Group>, teams: map<string, int>, stored: set<nat>, stored': set<nat>, r: GameRecord)
    requires stored <= stored'
    requires r in Emitted(DbFates(gs, teams, stored'))
    ensures r in Emitted(DbFates(gs, teams, stored)) && r.id !in stored'
  {
    var fs' := DbFates(gs, teams, stored');
    EmittedFrom(fs', r);
    var i :| 0 <= i < |fs'| && fs'[i] == Emit(r);
    MoreStoredEmitsLess(gs[i], teams, stored, stored');
    EmittedHas(DbFates(gs, teams, stored), i);
  }

  /** The updater's counterpart: knowing more padded ids can only turn an emitted row
      into a duplicate, and a group still emitted yields the same row. */
  lemma MoreKnownEmitsLess(grp: Group, teams: map<string, int>, known: set<string>, known': set<string>)
    requires known <= known'
    ensures UpdaterFate(grp, teams, known').Emit? ==> UpdaterFate(grp, teams, known) == UpdaterFate(grp, teams, known')
  {
  }

  /** A row the updater emits against a larger set of known ids, it emits against a
      smaller one too. */
  lemma UpdaterEmittedShrinks(gs: seq<Group>, teams: map<string, int>, known: set<string>, known': set<string>, r: SheetRow)
    requires known <= known'
    requires r in Emitted(UpdaterFates(gs, teams, known'))
    ensures r in Emitted(UpdaterFates(gs, teams, known))
  {
    var fs' := UpdaterFates(gs, teams, known');
    EmittedFrom(fs', r);
    var i :| 0 <= i < |fs'| && fs'[i] == Emit(r);
    MoreKnownEmitsLess(gs[i], teams, known, known');
    EmittedHas(UpdaterFates(gs, teams, known), i);
  }

  lemma {:induction false} EmittedHas<R>(fs: seq<Fate<R>>, i: nat)
    requires i < |fs| && fs[i].Emit?
    ensures fs[i].rec in Emitted(fs)
  {
    if i > 0 {
      EmittedHas(fs[1..], i - 1);
    }
  }

  lemma {:induction false} EmittedFrom<R>(fs: seq<Fate<R>>, r: R)
    requires r in Emitted(fs)
    ensures exists i :: 0 <= i < |fs| && fs[i] == Emit(r)
  {
    if !(fs[0].Emit? && fs[0].rec == r) {
      EmittedFrom(fs[1..], r);
      var i :| 0 <= i < |fs[1..]| && fs[1..][i] == Emit(r);
      assert fs[i + 1] == Emit(r);
    }
  }

  lemma {:induction false} NoEmitNoneEmitted<R>(fs: seq<Fate<R>>)
    requires forall i :: 0 <= i < |fs| ==> !fs[i].Emit?
    ensures Emitted(fs) == []
  {
    if |fs| > 0 {
      NoEmitNoneEmitted(fs[1..]);
    }
  }
}

=== FILE: score_runs.dfy ===
/**
 * The two database game scripts end to end. The daily insert reconciles one calendar
 * day against the `Game` table and commits all or nothing; the historical backfill
 * reconciles a date window and commits game by game. Both stop before writing anything
 * when a game id fails to convert.
 */
module ScoreRuns {
  import opened Wrappers
  import opened Text
  import opened Seqs
  import opened Feed
  import opened GameIds
  import opened Identity
  import opened Grouping
  import opened Reconcile
  import opened Enrich
  import opened Store
  import opened GameCommit

  /** The reconciler's verdict on every game of `lines`, checked against the stored ids. */
  function GameFates(t: GameTable, teams: seq<TeamRow>, lines: seq<TeamGameRow>): seq<Fate<GameRecord>> {
    DbFates(GroupByGame(lines), TeamIndex(teams), t.rows.Keys)
  }

  /** The conversion `int(gid.lstrip('0'))` raises for some group exactly when it raises
      for the id of some line: every line belongs to a group of its own id. */
  lemma CrashIffBadId(lines: seq<TeamGameRow>, teams: map<string, int>, stored: set<nat>)
    ensures TallyFates(DbFates(GroupByGame(lines), teams, stored)).None? <==>
            exists row :: row in lines && GameNumber(row.gameId).None?
  {
    var gs := GroupByGame(lines);
    var fs := DbFates(gs, teams, stored);
    if exists row :: row in lines && GameNumber(row.gameId).None? {
      var row :| row in lines && GameNumber(row.gameId).None?;
      var j :| 0 <= j < |lines| && lines[j] == row;
      var i := GroupOfLine(lines, j);
      assert fs[i].Crash?;
    }
    if TallyFates(fs).None? {
      var i :| 0 <= i < |fs| && fs[i].Crash?;
      assert gs[i].rows[0] in gs[i].rows;
    }
  }

  /** An emitted record comes from a group whose id converts to the record's id, and
      takes its date from one of that group's lines. */
  lemma RecordFromGroup(gs: seq<Group>, teams: map<string, int>, stored: set<nat>, r: GameRecord)
    returns (i: nat, home: TeamGameRow)
    requires r in Emitted(DbFates(gs, teams, stored))
    ensures i < |gs| && home in gs[i].rows
    ensures r.id !in stored && GameNumber(gs[i].id) == Some(r.id) && home.gameDate == r.date
  {
    var fs := DbFates(gs, teams, stored);
    EmittedFrom(fs, r);
    i :| 0 <= i < |fs| && fs[i] == Emit(r);
    assert DbFate(gs[i], teams, stored) == Emit(r);
    home := PairGroup(gs[i].rows, teams).home;
  }

  /** An emitted record stands for a line of the feed: that line's id converts to the
      record's id and its date is the record's date. */
  lemma RecordFromLine(lines: seq<TeamGameRow>, teams: map<string, int>, stored: set<nat>, r: GameRecord)
    requires r in Emitted(DbFates(GroupByGame(lines), teams, stored))
    ensures r.id !in stored
    ensures exists row :: row in lines && GameNumber(row.gameId) == Some(r.id) && row.gameDate == r.date
  {
    var gs := GroupByGame(lines);
    var i, home := RecordFromGroup(gs, teams, stored, r);
    assert home in lines && home.gameId == gs[i].id;
  }

  /** The record behind each enriched game: the same id and date. */
  lemma GameFromRecord(records: seq<GameRecord>, g: Gathered<nat>, i: nat)
    requires i < |records|
    ensures var e := ApplyToGames(records, g)[i];
            e.id == records[i].id && e.date == records[i].date && records[i] in records
  {
  }

  // ---------------------------------------------------------------- daily insert

  /** What the daily script ends with: the feed request raised; an id conversion raised
      while reconciling; or its two skip counters, the scoreboard loop it ran (none when
      no game was left to insert) and the commit's outcome. */
  datatype DailyScoreOutcome =
    | FeedFailed
    | IdCrash
    | DailyDone(skippedDuplicate: nat, skippedOther: nat, fetch: Option<Fetch<nat>>, commit: StrictOutcome)

  /** The daily script: yesterday's lines, reconciled against the stored ids, enriched
      by one retry loop over yesterday's scoreboard, then committed all or nothing.
      `replies` are the scoreboard's answers to successive requests. */
  function DailyScoreRun(t: GameTable, teams: seq<TeamRow>, venues: seq<VenueRow>,
                         feed: Option<seq<TeamGameRow>>, day: string, replies: seq<Reply>)
    : (r: (DailyScoreOutcome, GameTable))
    ensures r.0.FeedFailed? <==> feed.None?
    ensures r.0.IdCrash? <==>
              feed.Some? && exists row :: row in DayLines(feed.value, day) && GameNumber(row.gameId).None?
    ensures !(r.0.DailyDone? && r.0.commit.Committed?) ==> r.1 == t
    ensures r.0.DailyDone? && r.0.fetch.Some? ==>
              1 <= r.0.fetch.value.attempts <= MaxRetries && r.0.commit != NothingToInsert
  {
    if feed.None? then (FeedFailed, t)
    else
      var lines := DayLines(feed.value, day);
      var fs := GameFates(t, teams, lines);
      var tally := TallyFates(fs);
      CrashIffBadId(lines, TeamIndex(teams), t.rows.Keys);
      if tally.None? then (IdCrash, t)
      else
        var records := Emitted(fs);
        var skipped := tally.value.tooFew + tally.value.undetermined + tally.value.noTeam;
        if |records| == 0 then (DailyDone(tally.value.duplicates, skipped, None, NothingToInsert), t)
        else
          var f := DailyFetch(venues, replies);
          var c := StrictCommit(t, ApplyToGames(records, f.gathered), DefaultVenue(venues));
          (DailyDone(tally.value.duplicates, skipped, Some(f), c.0), c.1)
  }

  /** The daily script's one retry loop over yesterday's scoreboard. */
  function DailyFetch(venues: seq<VenueRow>, replies: seq<Reply>): (f: Fetch<nat>)
    ensures Sound(f.gathered, VenueIndex(venues))
    ensures 1 <= f.attempts <= MaxRetries
  {
    assert Sound(NothingGathered<nat>(), VenueIndex(venues));
    Retry(NothingGathered(), replies, MaxRetries, GameNumber, VenueIndex(venues))
  }

  /** The daily run in terms of its parts, once the lines convert. */
  lemma DailyRunParts(t: GameTable, teams: seq<TeamRow>, venues: seq<VenueRow>,
                      feed: seq<TeamGameRow>, day: string, replies: seq<Reply>)
    requires DailyScoreRun(t, teams, venues, Some(feed), day, replies).0.DailyDone?
    ensures var r := DailyScoreRun(t, teams, venues, Some(feed), day, replies);
            var records := Emitted(GameFates(t, teams, DayLines(feed, day)));
            (|records| == 0 ==> r.1 == t && r.0.commit == NothingToInsert)
            && (|records| > 0 ==>
                  var c := StrictCommit(t, ApplyToGames(records, DailyFetch(venues, replies).gathered), DefaultVenue(venues));
                  r.0.commit == c.0 && r.1 == c.1)
  {
    var fs := GameFates(t, teams, DayLines(feed, day));
    assert TallyFates(fs).Some?;
  }

  /** Every game of yesterday's feed is counted once: inserted (or meant to be), stored
      already, or skipped for another reason. */
  lemma DailyCountsAddUp(t: GameTable, teams: seq<TeamRow>, venues: seq<VenueRow>,
                         feed: seq<TeamGameRow>, day: string, replies: seq<Reply>)
    requires DailyScoreRun(t, teams, venues, Some(feed), day, replies).0.DailyDone?
    ensures var o := DailyScoreRun(t, teams, venues, Some(feed), day, replies).0;
            var games := |Emitted(GameFates(t, teams, DayLines(feed, day)))|;
            games + o.skippedDuplicate + o.skippedOther == |GroupByGame(DayLines(feed, day))|
            && (o.commit.Committed? ==> o.commit.count == games)
  {
  }

  /** The daily script only adds rows, and each added row is a game of yesterday's feed
      under the id its line converts to, whose arena the scoreboard named and the
      `Venue` table knows: the default venue is never written. */
  lemma DailyRowsFromFeed(t: GameTable, teams: seq<TeamRow>, venues: seq<VenueRow>,
                          feed: Option<seq<TeamGameRow>>, day: string, replies: seq<Reply>)
    ensures var u := DailyScoreRun(t, teams, venues, feed, day, replies).1;
            (forall k :: k in t.rows ==> k in u.rows && u.rows[k] == t.rows[k])
            && (forall k :: k in u.rows && k !in t.rows ==>
                  feed.Some? && u.rows[k].id == k && u.rows[k].date == day
                  && (exists row :: row in feed.value && row.gameDate == day && GameNumber(row.gameId) == Some(k))
                  && u.rows[k].venue.Some? && u.rows[k].venue.value != 0
                  && u.rows[k].venue.value in VenueIndex(venues).Values)
  {
    var r := DailyScoreRun(t, teams, venues, feed, day, replies);
    if r.0.DailyDone? && r.0.commit.Committed? {
      var lines := DayLines(feed.value, day);
      var records := Emitted(GameFates(t, teams, lines));
      DailyRunParts(t, teams, venues, feed.value, day, replies);
      var f := DailyFetch(venues, replies);
      CommittedRowsFromLines(t, TeamIndex(teams), VenueIndex(venues), lines, records, f.gathered, DefaultVenue(venues));
    }
  }

  /** The rows a committed batch adds, traced back to the lines they were made from. */
  lemma CommittedRowsFromLines(t: GameTable, teamIdx: map<string, int>, idx: map<string, int>,
                               lines: seq<TeamGameRow>, records: seq<GameRecord>, g: Gathered<nat>,
                               defaultVenue: Option<int>)
    requires records == Emitted(DbFates(GroupByGame(lines), teamIdx, t.rows.Keys))
    requires Sound(g, idx)
    requires StrictCommit(t, ApplyToGames(records, g), defaultVenue).0.Committed?
    ensures var u := StrictCommit(t, ApplyToGames(records, g), defaultVenue).1;
            forall k :: k in u.rows && k !in t.rows ==>
              u.rows[k].id == k
              && (exists row :: row in lines && row.gameDate == u.rows[k].date && GameNumber(row.gameId) == Some(k))
              && u.rows[k].venue.Some? && u.rows[k].venue.value != 0 && u.rows[k].venue.value in idx.Values
  {
    var games := ApplyToGames(records, g);
    var u := StrictCommit(t, games, defaultVenue).1;
    EnrichedGamesSound(records, g, idx);
    forall k | k in u.rows && k !in t.rows
      ensures u.rows[k].id == k
      ensures exists row :: row in lines && row.gameDate == u.rows[k].date && GameNumber(row.gameId) == Some(k)
      ensures u.rows[k].venue.Some? && u.rows[k].venue.value != 0 && u.rows[k].venue.value in idx.Values
    {
      var i :| 0 <= i < |games| && games[i].id == k;
      GameFromRecord(records, g, i);
      RecordFromLine(lines, teamIdx, t.rows.Keys, records[i]);
    }
  }

  /** Running the daily script a second time on the same day, after it committed,
      finds every game stored, inserts nothing and leaves the table as it was. */
  lemma DailyScoreRerun(t: GameTable, teams: seq<TeamRow>, venues: seq<VenueRow>,
                        feed: Option<seq<TeamGameRow>>, day: string, replies: seq<Reply>)
    ensures var r := DailyScoreRun(t, teams, venues, feed, day, replies);
            var r' := DailyScoreRun(r.1, teams, venues, feed, day, replies);
            r'.1 == r.1 && (r.0.DailyDone? ==> r'.0.DailyDone? && !r'.0.commit.Committed?)
  {
    var r := DailyScoreRun(t, teams, venues, feed, day, replies);
    if r.0.DailyDone? && r.0.commit.Committed? {
      var lines := DayLines(feed.value, day);
      var teamIdx := TeamIndex(teams);
      var records := Emitted(GameFates(t, teams, lines));
      DailyRunParts(t, teams, venues, feed.value, day, replies);
      CommittedEmitsNothing(t, teamIdx, lines, records, DailyFetch(venues, replies).gathered, DefaultVenue(venues));
      CrashIffBadId(lines, teamIdx, r.1.rows.Keys);
    }
  }

  /** Once a batch is committed, reconciling the same lines against the grown table
      emits nothing. */
  lemma CommittedEmitsNothing(t: GameTable, teamIdx: map<string, int>, lines: seq<TeamGameRow>,
                              records: seq<GameRecord>, g: Gathered<nat>, defaultVenue: Option<int>)
    requires records == Emitted(DbFates(GroupByGame(lines), teamIdx, t.rows.Keys))
    requires StrictCommit(t, ApplyToGames(records, g), defaultVenue).0.Committed?
    ensures var u := StrictCommit(t, ApplyToGames(records, g), defaultVenue).1;
            Emitted(DbFates(GroupByGame(lines), teamIdx, u.rows.Keys)) == []
  {
    var gs := GroupByGame(lines);
    var games := ApplyToGames(records, g);
    var u := StrictCommit(t, games, defaultVenue).1;
    forall r: GameRecord | r in records ensures r.id in u.rows.Keys {
      var i :| 0 <= i < |records| && records[i] == r;
      GameFromRecord(records, g, i);
    }
    ReconcileAgainEmitsNothing(DbFates(gs, teamIdx, t.rows.Keys), DbFates(gs, teamIdx, u.rows.Keys),
                               gs, teamIdx, t.rows.Keys, u.rows.Keys);
  }

  // ---------------------------------------------------------------- historical backfill

  /** What the historical script ends with: the feed request raised; an id conversion
      raised; the default-venue query found no row, which nothing catches; or its two
      skip counters, the per-date scoreboard trace and the commit's counters. */
  datatype HistoricalOutcome =
    | RangeFeedFailed
    | RangeIdCrash
    | VenueQueryCrash
    | Backfilled(duplicates: nat, skipped: nat, dates: seq<DateFetch>, report: LenientReport)

  function RecordDate(g: GameRecord): string {
    g.date
  }

  /** `sorted({g["game_date"] for g in games})`. */
  function BackfillDates(records: seq<GameRecord>): (ds: seq<string>)
    ensures SortedBy(ds, StrLe) && Distinct(ds)
    ensures forall d :: d in ds <==> d in Keys(records, RecordDate)
  {
    StrLeIsTotal();
    SortedKeys(records, RecordDate, StrLe)
  }

  /** The per-date enrichment: up to `MAX_RETRIES` requests for each date, the maps
      shared across dates. */
  function BackfillFetch(records: seq<GameRecord>, venues: seq<VenueRow>, scoreboard: string -> seq<Reply>)
    : (r: (Gathered<nat>, seq<DateFetch>))
    ensures Sound(r.0, VenueIndex(venues))
    ensures |r.1| == |BackfillDates(records)|
    ensures forall i :: 0 <= i < |r.1| ==>
              r.1[i].date == BackfillDates(records)[i] && 1 <= r.1[i].attempts <= MaxRetries
  {
    assert Sound(NothingGathered<nat>(), VenueIndex(venues));
    RetryEachDate(NothingGathered(), BackfillDates(records), scoreboard, MaxRetries, GameNumber, VenueIndex(venues))
  }

  /** The historical script: the window's lines, reconciled against the stored ids,
      enriched date by date, then inserted one by one and committed once.
      `scoreboard(d)` are the scoreboard's answers to successive requests for date `d`. */
  function HistoricalRun(t: GameTable, teams: seq<TeamRow>, venues: seq<VenueRow>,
                         feed: Option<seq<TeamGameRow>>, from: string, to: string,
                         scoreboard: string -> seq<Reply>)
    : (r: (HistoricalOutcome, GameTable))
    ensures r.0.RangeFeedFailed? <==> feed.None?
    ensures r.0.RangeIdCrash? <==>
              feed.Some? && exists row :: row in WindowLines(feed.value, from, to) && GameNumber(row.gameId).None?
    ensures r.0.VenueQueryCrash? ==> |venues| == 0
    ensures !r.0.Backfilled? ==> r.1 == t
    ensures r.0.Backfilled? ==>
              r.0.report.inserted + r.0.report.failed == |Emitted(GameFates(t, teams, WindowLines(feed.value, from, to)))|
    ensures r.0.Backfilled? ==> forall i :: 0 <= i < |r.0.dates| ==> 1 <= r.0.dates[i].attempts <= MaxRetries
    ensures r.0.Backfilled? ==>
              feed.Some?
              && r.0.duplicates == |Filter(GameFates(t, teams, WindowLines(feed.value, from, to)), IsDuplicate)|
              && r.0.skipped == |Filter(GameFates(t, teams, WindowLines(feed.value, from, to)), IsNoTeam)|
  {
    if feed.None? then (RangeFeedFailed, t)
    else
      var lines := WindowLines(feed.value, from, to);
      var fs := GameFates(t, teams, lines);
      var tally := TallyFates(fs);
      CrashIffBadId(lines, TeamIndex(teams), t.rows.Keys);
      if tally.None? then (RangeIdCrash, t)
      else
        var records := Emitted(fs);
        if |records| == 0 then (Backfilled(tally.value.duplicates, tally.value.noTeam, [], LenientReport(0, 0, 0)), t)
        else
          var f := BackfillFetch(records, venues, scoreboard);
          match LenientCommit(t, ApplyToGames(records, f.0), DefaultVenue(venues))
          case None => (VenueQueryCrash, t)
          case Some((rep, u)) => (Backfilled(tally.value.duplicates, tally.value.noTeam, f.1, rep), u)
  }

  /** Every game of the window is counted once as ready, already stored or of an unknown
      team, except the games with fewer than two lines and those the tags cannot place,
      which the backfill passes over without counting. */
  lemma HistoricalCounts(t: GameTable, teams: seq<TeamRow>, venues: seq<VenueRow>,
                         feed: seq<TeamGameRow>, from: string, to: string,
                         scoreboard: string -> seq<Reply>)
    requires HistoricalRun(t, teams, venues, Some(feed), from, to, scoreboard).0.Backfilled?
    ensures var o := HistoricalRun(t, teams, venues, Some(feed), from, to, scoreboard).0;
            var lines := WindowLines(feed, from, to);
            var fs := GameFates(t, teams, lines);
            |Emitted(fs)| + o.duplicates + o.skipped
              + |Filter(fs, IsTooFew)| + |Filter(fs, IsUndetermined)| == |GroupByGame(lines)|
  {
    var fs := GameFates(t, teams, WindowLines(feed, from, to));
    assert TallyFates(fs).Some?;
  }

  /** The historical run in terms of its parts, once the lines convert and some game
      is emitted. */
  lemma HistoricalRunParts(t: GameTable, teams: seq<TeamRow>, venues: seq<VenueRow>,
                           feed: seq<TeamGameRow>, from: string, to: string,
                           scoreboard: string -> seq<Reply>)
    requires HistoricalRun(t, teams, venues, Some(feed), from, to, scoreboard).0.Backfilled?
    ensures var (o, u) := HistoricalRun(t, teams, venues, Some(feed), from, to, scoreboard);
            var records := Emitted(GameFates(t, teams, WindowLines(feed, from, to)));
            var f := BackfillFetch(records, venues, scoreboard);
            (|records| == 0 ==> u == t && o.dates == [])
            && (|records| > 0 ==>
                  LenientCommit(t, ApplyToGames(records, f.0), DefaultVenue(venues)).Some?
                  && u == LenientCommit(t, ApplyToGames(records, f.0), DefaultVenue(venues)).value.1
                  && o.dates == f.1)
  {
  }

  /** The scoreboard is asked about the dates of the games to insert and no other,
      ascending, each once. */
  lemma HistoricalAsksEachDate(t: GameTable, teams: seq<TeamRow>, venues: seq<VenueRow>,
                               feed: seq<TeamGameRow>, from: string, to: string,
                               scoreboard: string -> seq<Reply>)
    requires HistoricalRun(t, teams, venues, Some(feed), from, to, scoreboard).0.Backfilled?
    ensures var o := HistoricalRun(t, teams, venues, Some(feed), from, to, scoreboard).0;
            var records := Emitted(GameFates(t, teams, WindowLines(feed, from, to)));
            Keys(o.dates, FetchDate) == Keys(records, RecordDate) && TraceAscending(o.dates)
  {
    var records := Emitted(GameFates(t, teams, WindowLines(feed, from, to)));
    HistoricalRunParts(t, teams, venues, feed, from, to, scoreboard);
    BackfillTrace(records, venues, scoreboard);
  }

  lemma BackfillTrace(records: seq<GameRecord>, venues: seq<VenueRow>, scoreboard: string -> seq<Reply>)
    ensures Keys(BackfillFetch(records, venues, scoreboard).1, FetchDate) == Keys(records, RecordDate)
    ensures TraceAscending(BackfillFetch(records, venues, scoreboard).1)
  {
    TraceOfDates(BackfillFetch(records, venues, scoreboard).1, BackfillDates(records));
  }

  /** The historical script only adds rows; each added row is a game of the window's
      feed under the id its line converts to, with a venue: the arena's when the
      scoreboard named a known one, otherwise the smallest venue id. */
  lemma HistoricalRowsFromFeed(t: GameTable, teams: seq<TeamRow>, venues: seq<VenueRow>,
                               feed: Option<seq<TeamGameRow>>, from: string, to: string,
                               scoreboard: string -> seq<Reply>)
    ensures var u := HistoricalRun(t, teams, venues, feed, from, to, scoreboard).1;
            (forall k :: k in t.rows ==> k in u.rows && u.rows[k] == t.rows[k])
            && (forall k :: k in u.rows && k !in t.rows ==>
                  feed.Some? && u.rows[k].id == k
                  && StrLe(from, u.rows[k].date) && StrLe(u.rows[k].date, to)
                  && (exists row :: row in feed.value && row.gameDate == u.rows[k].date && GameNumber(row.gameId) == Some(k))
                  && u.rows[k].venue.Some?
                  && (u.rows[k].venue.value in VenueIndex(venues).Values || Some(u.rows[k].venue.value) == DefaultVenue(venues)))
  {
    var (o, u) := HistoricalRun(t, teams, venues, feed, from, to, scoreboard);
    if o.Backfilled? && u != t {
      var lines := WindowLines(feed.value, from, to);
      var records := Emitted(GameFates(t, teams, lines));
      var idx := VenueIndex(venues);
      HistoricalRunParts(t, teams, venues, feed.value, from, to, scoreboard);
      var g := BackfillFetch(records, venues, scoreboard).0;
      var games := ApplyToGames(records, g);
      var dv := DefaultVenue(venues).value;
      assert InsertEach(t, games, dv).1 == u;
      InsertEachTable(t, games, dv);
      EnrichedGamesSound(records, g, idx);
      forall k | k in u.rows && k !in t.rows
        ensures u.rows[k].id == k && StrLe(from, u.rows[k].date) && StrLe(u.rows[k].date, to)
        ensures exists row :: row in feed.value && row.gameDate == u.rows[k].date && GameNumber(row.gameId) == Some(k)
        ensures u.rows[k].venue.Some?
        ensures u.rows[k].venue.value in idx.Values || Some(u.rows[k].venue.value) == DefaultVenue(venues)
      {
        var i :| 0 <= i < |games| && games[i].id == k && u.rows[k] == WithVenue(games[i], dv);
        GameFromRecord(records, g, i);
        RecordFromLine(lines, TeamIndex(teams), t.rows.Keys, records[i]);
      }
    }
  }

  /** Running the historical script again over the same window leaves the table as the
      first run left it: every game it emits again is one the database refused. */
  lemma HistoricalRerun(t: GameTable, teams: seq<TeamRow>, venues: seq<VenueRow>,
                        feed: Option<seq<TeamGameRow>>, from: string, to: string,
                        scoreboard: string -> seq<Reply>)
    ensures var (o, u) := HistoricalRun(t, teams, venues, feed, from, to, scoreboard);
            var (o', u') := HistoricalRun(u, teams, venues, feed, from, to, scoreboard);
            u' == u && (o.Backfilled? ==> o'.Backfilled? && o'.report.inserted == 0)
  {
    var (o, u) := HistoricalRun(t, teams, venues, feed, from, to, scoreboard);
    if o.Backfilled? {
      var lines := WindowLines(feed.value, from, to);
      var gs := GroupByGame(lines);
      var teamIdx := TeamIndex(teams);
      var idx := VenueIndex(venues);
      var records := Emitted(DbFates(gs, teamIdx, t.rows.Keys));
      var records' := Emitted(DbFates(gs, teamIdx, u.rows.Keys));
      HistoricalGrows(t, teams, venues, feed.value, from, to, scoreboard);
      CrashIffBadId(lines, teamIdx, u.rows.Keys);
      forall r: GameRecord | r in records' ensures r in records && r.id !in u.rows && r.id in u.refused {
        EmittedShrinks(gs, teamIdx, t.rows.Keys, u.rows.Keys, r);
      }
      if |records'| > 0 {
        assert records'[0] in records;
        var g' := BackfillFetch(records', venues, scoreboard).0;
        var games' := ApplyToGames(records', g');
        forall i | 0 <= i < |games'| ensures games'[i].id in u.rows || games'[i].id in u.refused {
          GameFromRecord(records', g', i);
        }
        InsertEachTwice(u, games', DefaultVenue(venues).value);
      }
    }
  }

  /** What a committed backfill leaves behind: the old rows, and every game it emitted
      either stored or refused by the database. */
  lemma HistoricalGrows(t: GameTable, teams: seq<TeamRow>, venues: seq<VenueRow>,
                        feed: seq<TeamGameRow>, from: string, to: string,
                        scoreboard: string -> seq<Reply>)
    requires HistoricalRun(t, teams, venues, Some(feed), from, to, scoreboard).0.Backfilled?
    ensures var u := HistoricalRun(t, teams, venues, Some(feed), from, to, scoreboard).1;
            var records := Emitted(GameFates(t, teams, WindowLines(feed, from, to)));
            t.rows.Keys <= u.rows.Keys && u.refused == t.refused
            && (|records| > 0 ==> DefaultVenue(venues).Some?)
            && (forall r :: r in records ==> r.id in u.rows || r.id in t.refused)
  {
    var records := Emitted(GameFates(t, teams, WindowLines(feed, from, to)));
    HistoricalRunParts(t, teams, venues, feed, from, to, scoreboard);
    if |records| > 0 {
      var g := BackfillFetch(records, venues, scoreboard).0;
      assert |ApplyToGames(records, g)| > 0;
      BatchGrows(t, records, g, DefaultVenue(venues).value);
    }
  }

  /** Inserting a batch one game at a time keeps the old rows and stores every game
      the database does not refuse. */
  lemma BatchGrows(t: GameTable, records: seq<GameRecord>, g: Gathered<nat>, dv: int)
    ensures var u := InsertEach(t, ApplyToGames(records, g), dv).1;
            t.rows.Keys <= u.rows.Keys && u.refused == t.refused
            && (forall r :: r in records ==> r.id in u.rows || r.id in t.refused)
  {
    var games := ApplyToGames(records, g);
    var u := InsertEach(t, games, dv).1;
    InsertEachTable(t, games, dv);
    forall r: GameRecord | r in records ensures r.id in u.rows || r.id in t.refused {
      var i :| 0 <= i < |records| && records[i] == r;
      GameFromRecord(records, g, i);
    }
  }
}

=== FILE: seqs.dfy ===
/**
 * Sequence operations the scripts get from pandas and Python builtins:
 * `sorted(...)` / `DataFrame.sort_values` (a stable sort by a total preorder) and
 * `drop_duplicates(subset=..., keep='last')`.
 */
module Seqs {

  /** Any two elements are comparable, as for Python's `<=` on strings and on tuples of strings. */
  ghost predicate Total<T(!new)>(le: (T, T) -> bool) {
    forall a, b :: le(a, b) || le(b, a)
  }

  /** Each element is ordered before its successor. */
  predicate SortedBy<T>(s: seq<T>, le: (T, T) -> bool) {
    forall i :: 0 < i < |s| ==> le(s[i - 1], s[i])
  }

  /** Insert `x` before the first element it is ordered before. */
  function Insert<T>(x: T, s: seq<T>, le: (T, T) -> bool): seq<T> {
    if |s| == 0 then [x]
    else if le(x, s[0]) then [x] + s
    else [s[0]] + Insert(x, s[1..], le)
  }

  lemma {:induction false} InsertSorted<T(!new)>(x: T, s: seq<T>, le: (T, T) -> bool)
    requires Total(le)
    requires SortedBy(s, le)
    ensures SortedBy(Insert(x, s, le), le)
    ensures multiset(Insert(x, s, le)) == multiset(s) + multiset{x}
    ensures |s| > 0 ==> Insert(x, s, le)[0] == x || Insert(x, s, le)[0] == s[0]
  {
    if |s| > 0 && !le(x, s[0]) {
      var rest := Insert(x, s[1..], le);
      InsertSorted(x, s[1..], le);
      assert le(s[0], x);
      assert |s| > 1 ==> le(s[0], s[1]);
      assert s == [s[0]] + s[1..];
      assert [s[0]] + rest == Insert(x, s, le);
    }
  }

  /** A stable insertion sort: the result is ordered by `le` and is a permutation of `s`. */
  function SortBy<T(!new)>(s: seq<T>, le: (T, T) -> bool): (r: seq<T>)
    requires Total(le)
    ensures SortedBy(r, le)
    ensures multiset(r) == multiset(s)
    ensures |r| == |s|
  {
    if |s| == 0 then []
    else
      var sorted := SortBy(s[1..], le);
      InsertSorted(s[0], sorted, le);
      assert s == [s[0]] + s[1..];
      var r := Insert(s[0], sorted, le);
      assert |r| == |multiset(r)|;
      r
  }

  predicate Distinct<T(==)>(s: seq<T>) {
    forall i, j :: 0 <= i < j < |s| ==> s[i] != s[j]
  }

  /** The keys occurring in `s`. */
  function Keys<T, K>(s: seq<T>, key: T -> K): (ks: set<K>)
    ensures forall i :: 0 <= i < |s| ==> key(s[i]) in ks
  {
    if |s| == 0 then {} else {key(s[0])} + Keys(s[1..], key)
  }

  lemma {:induction false} KeysWitness<T, K>(s: seq<T>, key: T -> K, k: K)
    requires k in Keys(s, key)
    ensures exists i :: 0 <= i < |s| && key(s[i]) == k
  {
    if key(s[0]) != k {
      KeysWitness(s[1..], key, k);
      var i :| 0 <= i < |s[1..]| && key(s[1..][i]) == k;
      assert key(s[i + 1]) == k;
    }
  }

  /** `drop_duplicates(keep='last')`: an element survives when no later element
      shares its key. */
  function KeepLast<T, K(==)>(s: seq<T>, key: T -> K): seq<T> {
    if |s| == 0 then []
    else if key(s[0]) in Keys(s[1..], key) then KeepLast(s[1..], key)
    else [s[0]] + KeepLast(s[1..], key)
  }

  /** Keeping the last occurrences keeps every key, once, and keeps each key's last
      occurrence in particular: later rows win. */
  lemma {:induction false} KeepLastSpec<T, K>(s: seq<T>, key: T -> K)
    ensures Keys(KeepLast(s, key), key) == Keys(s, key)
    ensures forall i, j :: 0 <= i < j < |KeepLast(s, key)| ==>
              key(KeepLast(s, key)[i]) != key(KeepLast(s, key)[j])
    ensures forall x :: x in KeepLast(s, key) ==> x in s
    ensures forall i :: 0 <= i < |s| && key(s[i]) !in Keys(s[i + 1..], key) ==> s[i] in KeepLast(s, key)
  {
    if |s| > 0 {
      var rest := KeepLast(s[1..], key);
      KeepLastSpec(s[1..], key);
      assert forall x :: x in s[1..] ==> x in s;
      forall i | 1 <= i < |s| ensures s[i + 1..] == s[1..][i..] {
      }
      assert forall i :: 1 <= i < |s| ==> s[i] == s[1..][i - 1];
      if key(s[0]) !in Keys(s[1..], key) {
        var r := [s[0]] + rest;
        assert r[1..] == rest;
        forall i, j | 0 <= i < j < |r| ensures key(r[i]) != key(r[j]) {
          if i == 0 {
            assert r[j] == rest[j - 1];
          }
        }
      }
    }
  }

  /** `sorted({key(x) for x in s})`: every key once, in order. */
  function SortedKeys<T, K(!new, ==)>(s: seq<T>, key: T -> K, le: (K, K) -> bool): (r: seq<K>)
    requires Total(le)
    ensures SortedBy(r, le)
    ensures Distinct(r)
    ensures forall k :: k in r <==> k in Keys(s, key)
  {
    var ks := seq(|s|, i requires 0 <= i < |s| => key(s[i]));
    var id := (k: K) => k;
    var d := KeepLast(ks, id);
    KeepLastSpec(ks, id);
    var r := SortBy(d, le);
    assert Keys(ks, id) == Keys(s, key) by {
      KeysOfImage(s, key);
    }
    forall k | k in d ensures k in Keys(d, id) {
      var i :| 0 <= i < |d| && d[i] == k;
    }
    forall k | k in Keys(d, id) ensures k in d {
      KeysWitness(d, id, k);
    }
    assert forall k :: k in r <==> k in multiset(d);
    DistinctPermutation(d, r);
    r
  }

  lemma {:induction false} KeysOfImage<T, K>(s: seq<T>, key: T -> K)
    ensures Keys(seq(|s|, i requires 0 <= i < |s| => key(s[i])), (k: K) => k) == Keys(s, key)
  {
    var ks := seq(|s|, i requires 0 <= i < |s| => key(s[i]));
    if |s| > 0 {
      KeysOfImage(s[1..], key);
      assert ks[1..] == seq(|s[1..]|, i requires 0 <= i < |s[1..]| => key(s[1..][i]));
    }
  }

  lemma DistinctPermutation<T>(d: seq<T>, r: seq<T>)
    requires Distinct(d)
    requires multiset(d) == multiset(r)
    ensures Distinct(r)
  {
    forall x | x in multiset(d) ensures multiset(d)[x] == 1 {
      DistinctCount(d, x);
    }
    forall i, j | 0 <= i < j < |r| ensures r[i] != r[j] {
      RepeatCount(r, i, j);
    }
  }

  lemma RepeatCount<T>(r: seq<T>, i: nat, j: nat)
    requires i < j < |r|
    ensures r[i] == r[j] ==> multiset(r)[r[i]] >= 2
  {
    assert r == r[..i] + [r[i]] + r[i + 1..j] + [r[j]] + r[j + 1..];
  }

  lemma {:induction false} DistinctCount<T>(d: seq<T>, x: T)
    requires Distinct(d)
    ensures multiset(d)[x] <= 1
  {
    if |d| > 0 {
      assert d == [d[0]] + d[1..];
      DistinctCount(d[1..], x);
      if d[0] == x {
        assert x !in d[1..];
      }
    }
  }

  /** No two elements share a key. */
  predicate KeysDistinct<T, K(==)>(s: seq<T>, key: T -> K) {
    forall i, j :: 0 <= i < j < |s| ==> key(s[i]) != key(s[j])
  }

  lemma {:induction false} KeysAppend<T, K>(a: seq<T>, b: seq<T>, key: T -> K)
    ensures Keys(a + b, key) == Keys(a, key) + Keys(b, key)
  {
    if |a| > 0 {
      assert (a + b)[1..] == a[1..] + b;
      KeysAppend(a[1..], b, key);
    } else {
      assert a + b == b;
    }
  }

  /** Two sequences whose elements have the same keys position by position have the
      same set of keys. */
  lemma {:induction false} KeysPointwise<T, U, K>(a: seq<T>, b: seq<U>, ka: T -> K, kb: U -> K)
    requires |a| == |b|
    requires forall i :: 0 <= i < |a| ==> ka(a[i]) == kb(b[i])
    ensures Keys(a, ka) == Keys(b, kb)
  {
    if |a| > 0 {
      KeysPointwise(a[1..], b[1..], ka, kb);
    }
  }

  /** Reordering keeps the set of keys. */
  lemma KeysPermutation<T, K>(d: seq<T>, r: seq<T>, key: T -> K)
    requires multiset(d) == multiset(r)
    ensures Keys(d, key) == Keys(r, key)
  {
    forall k | k in Keys(d, key) ensures k in Keys(r, key) {
      KeysWitness(d, key, k);
      var i :| 0 <= i < |d| && key(d[i]) == k;
      assert d[i] in multiset(r);
    }
    forall k | k in Keys(r, key) ensures k in Keys(d, key) {
      KeysWitness(r, key, k);
      var i :| 0 <= i < |r| && key(r[i]) == k;
      assert r[i] in multiset(d);
    }
  }

  /** Reordering keeps the keys distinct. */
  lemma KeysDistinctPermutation<T, K>(d: seq<T>, r: seq<T>, key: T -> K)
    requires KeysDistinct(d, key)
    requires multiset(d) == multiset(r)
    ensures KeysDistinct(r, key)
  {
    assert Distinct(d);
    DistinctPermutation(d, r);
    forall i, j | 0 <= i < j < |r| ensures key(r[i]) != key(r[j]) {
      assert r[i] in multiset(d) && r[j] in multiset(d);
      var a :| 0 <= a < |d| && d[a] == r[i];
      var b :| 0 <= b < |d| && d[b] == r[j];
      assert a != b;
    }
  }

  /** `[x for x in s if p(x)]`, also a boolean-mask selection on a frame: order is kept. */
  function Filter<T>(s: seq<T>, p: T -> bool): (r: seq<T>)
    ensures |r| <= |s|
    ensures forall i :: 0 <= i < |r| ==> r[i] in s && p(r[i])
    ensures forall i :: 0 <= i < |s| && p(s[i]) ==> s[i] in r
  {
    if |s| == 0 then []
    else (if p(s[0]) then [s[0]] else []) + Filter(s[1..], p)
  }

  /** Nothing is kept when no element satisfies the predicate. */
  lemma {:induction false} FilterNone<T>(s: seq<T>, p: T -> bool)
    requires forall i :: 0 <= i < |s| ==> !p(s[i])
    ensures Filter(s, p) == []
  {
    if |s| > 0 {
      FilterNone(s[1..], p);
    }
  }

  lemma {:induction false} FilterAppend<T>(a: seq<T>, b: seq<T>, p: T -> bool)
    ensures Filter(a + b, p) == Filter(a, p) + Filter(b, p)
  {
    if |a| > 0 {
      assert (a + b)[1..] == a[1..] + b;
      FilterAppend(a[1..], b, p);
    } else {
      assert a + b == b;
    }
  }

  /** `Series.unique()`: each value once, in order of first appearance. */
  function Unique<T(==)>(s: seq<T>): (r: seq<T>)
    ensures Distinct(r)
    ensures forall i :: 0 <= i < |r| ==> r[i] in s
    ensures forall i :: 0 <= i < |s| ==> s[i] in r
  {
    if |s| == 0 then []
    else
      var init := s[..|s| - 1];
      var rest := Unique(init);
      assert s == init + [s[|s| - 1]];
      if s[|s| - 1] in rest then rest else rest + [s[|s| - 1]]
  }
}

=== FILE: sheet_runs.dfy ===
/**
 * The two CSV game scripts end to end. The daily updater reconciles yesterday's
 * lines against the master file's zero-padded ids and merges the new rows into it;
 * the snapshot script builds a fresh sheet from a date window.
 */
module SheetRuns {
  import opened Wrappers
  import opened Text
  import opened Seqs
  import opened Feed
  import opened GameIds
  import opened Identity
  import opened Grouping
  import opened Reconcile
  import opened Enrich

  function ApiId(r: SheetRow): string {
    r.apiGameId
  }

  function SheetDate(r: SheetRow): string {
    r.date
  }

  /** The scoreboard key of the CSV scripts: `str(ghr.get("GAME_ID"))`, which never raises. */
  function RawKey(gid: string): (k: Option<string>)
    ensures k == Some(gid)
  {
    Some(gid)
  }

  /** `sort_values(['GAME_DATE', 'HOME_TEAM'])`: by date, then by home team name. */
  predicate SheetLe(a: SheetRow, b: SheetRow) {
    if a.date == b.date then StrLe(a.homeTeam, b.homeTeam) else StrLe(a.date, b.date)
  }

  lemma SheetLeIsTotal()
    ensures Total(SheetLe)
  {
    forall a: SheetRow, b: SheetRow ensures SheetLe(a, b) || SheetLe(b, a) {
      StrLeTotal(a.date, b.date);
      StrLeTotal(a.homeTeam, b.homeTeam);
    }
  }

  // ---------------------------------------------------------------- master file

  /** The master file as the updater finds it: absent, present but unreadable, or its rows. */
  datatype Master = Missing | Unreadable | Sheet(rows: seq<SheetRow>)

  /** Padding a numeric id keeps the number it denotes. */
  lemma PaddingKeepsValues(rows: seq<SheetRow>)
    ensures forall i :: 0 <= i < |rows| && AllDigits(rows[i].apiGameId) ==>
              AllDigits(PaddedId(rows[i].apiGameId)) && DigitsValue(PaddedId(rows[i].apiGameId)) == DigitsValue(rows[i].apiGameId)
  {
    forall i | 0 <= i < |rows| && AllDigits(rows[i].apiGameId)
      ensures AllDigits(PaddedId(rows[i].apiGameId)) && DigitsValue(PaddedId(rows[i].apiGameId)) == DigitsValue(rows[i].apiGameId)
    {
      PaddedValue(rows[i].apiGameId);
    }
  }

  /** `existing_df['API_GAME_ID'].astype(str).str.zfill(10)`. */
  function Repad(rows: seq<SheetRow>): (r: seq<SheetRow>)
    ensures |r| == |rows|
    ensures forall i :: 0 <= i < |rows| ==> r[i] == rows[i].(apiGameId := PaddedId(rows[i].apiGameId))
    ensures forall i :: 0 <= i < |rows| ==>
              IsPadded(r[i].apiGameId) && r[i].(apiGameId := rows[i].apiGameId) == rows[i]
    ensures forall i :: 0 <= i < |rows| && AllDigits(rows[i].apiGameId) ==>
              AllDigits(r[i].apiGameId) && DigitsValue(r[i].apiGameId) == DigitsValue(rows[i].apiGameId)
  {
    PaddingKeepsValues(rows);
    seq(|rows|, i requires 0 <= i < |rows| => rows[i].(apiGameId := PaddedId(rows[i].apiGameId)))
  }

  /** An id `zfill(10)` leaves unchanged: one of at least ten characters. */
  predicate IsPadded(id: string) {
    |id| >= PaddedWidth
  }

  /** Padding yields a padded id, and a padded id pads to itself: a sheet whose ids are
      padded is its own re-read. */
  lemma RepadIdempotent(rows: seq<SheetRow>)
    ensures forall i :: 0 <= i < |rows| ==> IsPadded(PaddedId(rows[i].apiGameId))
    ensures (forall i :: 0 <= i < |rows| ==> IsPadded(rows[i].apiGameId)) ==> Repad(rows) == rows
  {
    if forall i :: 0 <= i < |rows| ==> IsPadded(rows[i].apiGameId) {
      assert forall i :: 0 <= i < |rows| ==> PaddedId(rows[i].apiGameId) == rows[i].apiGameId;
    }
  }

  function MasterRows(m: Master): seq<SheetRow> {
    if m.Sheet? then Repad(m.rows) else []
  }

  /** `existing_games`: the padded ids of the master file, empty when it could not be read. */
  function MasterIds(m: Master): set<string> {
    Keys(MasterRows(m), ApiId)
  }

  /** No later row of `s` shares the id of its `i`-th row. */
  predicate LastOfId(s: seq<SheetRow>, i: nat)
    requires i < |s|
  {
    ApiId(s[i]) !in Keys(s[i + 1..], ApiId)
  }

  /** `concat([existing_df, new_df])`, `drop_duplicates(subset=['API_GAME_ID'], keep='last')`,
      then the sort. */
  function Merge(base: seq<SheetRow>, added: seq<SheetRow>): (m: seq<SheetRow>)
    ensures SortedBy(m, SheetLe)
  {
    SheetLeIsTotal();
    SortBy(KeepLast(base + added, ApiId), SheetLe)
  }

  /** The merged sheet is sorted, holds each id once, loses no id of either part, invents
      no row, and keeps every row no later row replaces. */
  lemma MergeSpec(base: seq<SheetRow>, added: seq<SheetRow>)
    ensures var m := Merge(base, added);
            SortedBy(m, SheetLe)
            && KeysDistinct(m, ApiId)
            && Keys(m, ApiId) == Keys(base, ApiId) + Keys(added, ApiId)
            && (forall x :: x in m ==> x in base || x in added)
            && (forall i {:trigger LastOfId(base + added, i)} :: 0 <= i < |base + added| && LastOfId(base + added, i) ==> (base + added)[i] in m)
  {
    MergeKeys(base, added);
    MergeInventsNothing(base, added);
    MergeKeepsLast(base, added);
  }

  /** The merge holds each id of either part, once. */
  lemma MergeKeys(base: seq<SheetRow>, added: seq<SheetRow>)
    ensures KeysDistinct(Merge(base, added), ApiId)
    ensures Keys(Merge(base, added), ApiId) == Keys(base, ApiId) + Keys(added, ApiId)
  {
    var s := base + added;
    var d := KeepLast(s, ApiId);
    SheetLeIsTotal();
    var m := SortBy(d, SheetLe);
    KeepLastSpec(s, ApiId);
    KeysDistinctPermutation(d, m, ApiId);
    KeysPermutation(d, m, ApiId);
    KeysAppend(base, added, ApiId);
  }

  /** Every row of the merge is a row of one of its parts. */
  lemma MergeInventsNothing(base: seq<SheetRow>, added: seq<SheetRow>)
    ensures forall x :: x in Merge(base, added) ==> x in base || x in added
  {
    var s := base + added;
    var d := KeepLast(s, ApiId);
    SheetLeIsTotal();
    var m := SortBy(d, SheetLe);
    KeepLastSpec(s, ApiId);
    forall x | x in m ensures x in base || x in added {
      assert x in multiset(d);
      assert x in s;
      var i :| 0 <= i < |s| && s[i] == x;
      if i >= |base| {
        assert added[i - |base|] == x;
      }
    }
  }

  /** A row no later row replaces survives the merge. */
  lemma MergeKeepsLast(base: seq<SheetRow>, added: seq<SheetRow>)
    ensures forall i {:trigger LastOfId(base + added, i)} ::
              0 <= i < |base + added| && LastOfId(base + added, i) ==> (base + added)[i] in Merge(base, added)
  {
    var s := base + added;
    var d := KeepLast(s, ApiId);
    SheetLeIsTotal();
    var m := SortBy(d, SheetLe);
    KeepLastSpec(s, ApiId);
    forall i | 0 <= i < |s| && LastOfId(s, i) ensures s[i] in m {
      assert s[i] in multiset(m);
    }
  }

  // ---------------------------------------------------------------- daily updater

  /** What the updater ends with: no master file (exit 1); the feed request raised;
      nothing new and no readable master, so `None.to_csv` raises; or the sheet written
      back with the number of rows added and the two skip counters. */
  datatype UpdaterOutcome =
    | NoMaster
    | UpdateFeedFailed
    | SaveCrash
    | Saved(sheet: seq<SheetRow>, added: nat, duplicates: nat, skipped: nat)

  function SheetFates(master: Master, teams: seq<TeamRow>, lines: seq<TeamGameRow>): (fs: seq<Fate<SheetRow>>)
    ensures forall i :: 0 <= i < |fs| ==> !fs[i].Crash?
  {
    UpdaterFates(GroupByGame(lines), TeamIndex(teams), MasterIds(master))
  }

  /** The new rows of the updater: yesterday's games the master file lacks, with the
      scoreboard's arena, venue and attendance. */
  function NewRows(records: seq<SheetRow>, venues: seq<VenueRow>, replies: seq<Reply>): seq<SheetRow> {
    ApplyToUpdaterRows(records, Retry(NothingGathered(), replies, MaxRetries, RawKey, VenueIndex(venues)).gathered)
  }

  /** The daily CSV updater. `replies` are the scoreboard's answers to successive requests. */
  function UpdaterRun(master: Master, teams: seq<TeamRow>, venues: seq<VenueRow>,
                      feed: Option<seq<TeamGameRow>>, day: string, replies: seq<Reply>)
    : (r: UpdaterOutcome)
    ensures r.NoMaster? <==> master.Missing?
    ensures r.UpdateFeedFailed? <==> !master.Missing? && feed.None?
    ensures r.SaveCrash? ==> master.Unreadable?
    ensures r.Saved? && r.added == 0 ==> r.sheet == MasterRows(master)
    ensures r.Saved? && r.added > 0 ==> SortedBy(r.sheet, SheetLe)
    ensures r.Saved? ==>
              feed.Some?
              && r.added == |Filter(SheetFates(master, teams, DayLines(feed.value, day)), IsEmit)|
              && r.duplicates == |Filter(SheetFates(master, teams, DayLines(feed.value, day)), IsDuplicate)|
              && r.skipped == |Filter(SheetFates(master, teams, DayLines(feed.value, day)), IsNoTeam)|
    ensures r.Saved? && master.Unreadable? ==>
              r.added > 0
              && r.sheet == Merge([], NewRows(Emitted(SheetFates(master, teams, DayLines(feed.value, day))), venues, replies))
  {
    if master.Missing? then NoMaster
    else if feed.None? then UpdateFeedFailed
    else
      var fs := SheetFates(master, teams, DayLines(feed.value, day));
      var records := Emitted(fs);
      var tally := TallyFates(fs).value;
      if |records| == 0 then
        if master.Unreadable? then SaveCrash else Saved(MasterRows(master), 0, tally.duplicates, tally.noTeam)
      else
        Saved(Merge(MasterRows(master), NewRows(records, venues, replies)),
              |records|, tally.duplicates, tally.noTeam)
  }

  /** Every game of yesterday is counted once as added, already in the master or of an
      unknown team, except the games with fewer than two lines and those the tags cannot
      place, which the updater passes over without counting. */
  lemma UpdaterCounts(master: Master, teams: seq<TeamRow>, venues: seq<VenueRow>,
                      feed: seq<TeamGameRow>, day: string, replies: seq<Reply>)
    requires UpdaterRun(master, teams, venues, Some(feed), day, replies).Saved?
    ensures var o := UpdaterRun(master, teams, venues, Some(feed), day, replies);
            var lines := DayLines(feed, day);
            var fs := SheetFates(master, teams, lines);
            o.added + o.duplicates + o.skipped
              + |Filter(fs, IsTooFew)| + |Filter(fs, IsUndetermined)| == |GroupByGame(lines)|
  {
    var fs := SheetFates(master, teams, DayLines(feed, day));
    assert TallyFates(fs).Some?;
  }

  /** An unreadable master file is overwritten: when new games are found, the sheet
      written holds only them, and every game the old file held is lost. */
  lemma UnreadableMasterReplaced(teams: seq<TeamRow>, venues: seq<VenueRow>,
                                 feed: seq<TeamGameRow>, day: string, replies: seq<Reply>)
    ensures var r := UpdaterRun(Unreadable, teams, venues, Some(feed), day, replies);
            var added := NewRows(Emitted(SheetFates(Unreadable, teams, DayLines(feed, day))), venues, replies);
            (r.SaveCrash? <==> |added| == 0)
            && (r.Saved? ==> r.sheet == Merge([], added) && Keys(r.sheet, ApiId) == Keys(added, ApiId))
  {
    var added := NewRows(Emitted(SheetFates(Unreadable, teams, DayLines(feed, day))), venues, replies);
    MergeKeys([], added);
  }

  /** A record the updater emits carries the padded id of a group the master lacks. */
  lemma SheetRecordFromGroup(gs: seq<Group>, teams: map<string, int>, known: set<string>, r: SheetRow)
    returns (i: nat, home: TeamGameRow)
    requires r in Emitted(UpdaterFates(gs, teams, known))
    ensures i < |gs| && home in gs[i].rows && home.gameDate == r.date
    ensures r.apiGameId == PaddedId(gs[i].id) && r.apiGameId !in known
  {
    var fs := UpdaterFates(gs, teams, known);
    EmittedFrom(fs, r);
    i :| 0 <= i < |fs| && fs[i] == Emit(r);
    assert UpdaterFate(gs[i], teams, known) == Emit(r);
    home := PairGroup(gs[i].rows, teams).home;
  }

  /** The id of each new row is padded and absent from the master file. */
  lemma NewRowFresh(master: Master, teams: seq<TeamRow>, lines: seq<TeamGameRow>,
                    venues: seq<VenueRow>, replies: seq<Reply>, i: nat)
    requires i < |NewRows(Emitted(SheetFates(master, teams, lines)), venues, replies)|
    ensures var id := NewRows(Emitted(SheetFates(master, teams, lines)), venues, replies)[i].apiGameId;
            id !in MasterIds(master) && IsPadded(id)
  {
    var records := Emitted(SheetFates(master, teams, lines));
    assert records[i] in records;
    var k, home := SheetRecordFromGroup(GroupByGame(lines), TeamIndex(teams), MasterIds(master), records[i]);
  }

  /** Each new row's id is the padded id of one of the lines: that line. */
  lemma NewRowFromLine(master: Master, teams: seq<TeamRow>, lines: seq<TeamGameRow>,
                       venues: seq<VenueRow>, replies: seq<Reply>, i: nat)
    returns (row: TeamGameRow)
    requires i < |NewRows(Emitted(SheetFates(master, teams, lines)), venues, replies)|
    ensures row in lines
    ensures PaddedId(row.gameId) == NewRows(Emitted(SheetFates(master, teams, lines)), venues, replies)[i].apiGameId
  {
    var records := Emitted(SheetFates(master, teams, lines));
    var gs := GroupByGame(lines);
    assert records[i] in records;
    var k, home := SheetRecordFromGroup(gs, TeamIndex(teams), MasterIds(master), records[i]);
    assert home in lines && home.gameId == gs[k].id;
    row := home;
  }

  /** Rows whose ids the base lacks replace nothing of it: every base row no later
      base row replaces survives the merge. */
  lemma MergeKeepsBase(base: seq<SheetRow>, added: seq<SheetRow>)
    requires forall i :: 0 <= i < |added| ==> added[i].apiGameId !in Keys(base, ApiId)
    ensures forall i {:trigger LastOfId(base, i)} :: 0 <= i < |base| && LastOfId(base, i) ==> base[i] in Merge(base, added)
  {
    MergeKeepsLast(base, added);
    forall i | 0 <= i < |base| && LastOfId(base, i) ensures base[i] in Merge(base, added) {
      assert (base + added)[i + 1..] == base[i + 1..] + added;
      KeysAppend(base[i + 1..], added, ApiId);
      if ApiId(base[i]) in Keys(added, ApiId) {
        KeysWitness(added, ApiId, ApiId(base[i]));
        assert false;
      }
      assert (base + added)[i] == base[i];
      assert LastOfId(base + added, i);
    }
  }

  /** The updater loses nothing: every id of the master file is in the sheet it writes,
      no id occurs twice once a row was added, and every master row no later master row
      replaces is written back unchanged. */
  lemma UpdaterKeepsMaster(master: Master, teams: seq<TeamRow>, venues: seq<VenueRow>,
                           feed: Option<seq<TeamGameRow>>, day: string, replies: seq<Reply>)
    ensures var r := UpdaterRun(master, teams, venues, feed, day, replies);
            r.Saved? ==>
              MasterIds(master) <= Keys(r.sheet, ApiId)
              && (r.added > 0 ==> KeysDistinct(r.sheet, ApiId))
              && (forall i {:trigger LastOfId(MasterRows(master), i)} ::
                    0 <= i < |MasterRows(master)| && LastOfId(MasterRows(master), i) ==> MasterRows(master)[i] in r.sheet)
  {
    var r := UpdaterRun(master, teams, venues, feed, day, replies);
    if r.Saved? && r.added > 0 {
      UpdaterRunParts(master, teams, venues, feed.value, day, replies);
      MergedUpdate(master, teams, DayLines(feed.value, day), venues, replies);
    } else if r.Saved? {
      forall i | 0 <= i < |r.sheet| ensures r.sheet[i] in r.sheet {
      }
    }
  }

  /** The merge the updater performs keeps the master's ids and rows. */
  lemma MergedUpdate(master: Master, teams: seq<TeamRow>, lines: seq<TeamGameRow>,
                     venues: seq<VenueRow>, replies: seq<Reply>)
    ensures var base := MasterRows(master);
            var m := Merge(base, NewRows(Emitted(SheetFates(master, teams, lines)), venues, replies));
            MasterIds(master) <= Keys(m, ApiId)
            && KeysDistinct(m, ApiId)
            && (forall i {:trigger LastOfId(base, i)} :: 0 <= i < |base| && LastOfId(base, i) ==> base[i] in m)
  {
    var base := MasterRows(master);
    var added := NewRows(Emitted(SheetFates(master, teams, lines)), venues, replies);
    forall i | 0 <= i < |added| ensures added[i].apiGameId !in Keys(base, ApiId) {
      NewRowFresh(master, teams, lines, venues, replies, i);
    }
    MergeFresh(base, added);
  }

  /** Merging rows whose ids the base lacks keeps the base's ids and the rows no later
      base row replaces, and leaves each id once. */
  lemma MergeFresh(base: seq<SheetRow>, added: seq<SheetRow>)
    requires forall i :: 0 <= i < |added| ==> added[i].apiGameId !in Keys(base, ApiId)
    ensures var m := Merge(base, added);
            Keys(base, ApiId) <= Keys(m, ApiId)
            && KeysDistinct(m, ApiId)
            && (forall i {:trigger LastOfId(base, i)} :: 0 <= i < |base| && LastOfId(base, i) ==> base[i] in m)
  {
    MergeKeys(base, added);
    MergeKeepsBase(base, added);
  }

  /** Every id the updater adds is the padded id of one of yesterday's lines. */
  lemma UpdaterAddsFeedGames(master: Master, teams: seq<TeamRow>, venues: seq<VenueRow>,
                             feed: Option<seq<TeamGameRow>>, day: string, replies: seq<Reply>)
    ensures var r := UpdaterRun(master, teams, venues, feed, day, replies);
            r.Saved? ==>
              forall k :: k in Keys(r.sheet, ApiId) && k !in MasterIds(master) ==>
                exists row :: row in feed.value && row.gameDate == day && PaddedId(row.gameId) == k
  {
    var r := UpdaterRun(master, teams, venues, feed, day, replies);
    if r.Saved? && r.added > 0 {
      UpdaterRunParts(master, teams, venues, feed.value, day, replies);
      MergedIdsFromLines(master, teams, DayLines(feed.value, day), venues, replies);
    }
  }

  /** Each id of the merge the master lacks is the padded id of one of the lines. */
  lemma MergedIdsFromLines(master: Master, teams: seq<TeamRow>, lines: seq<TeamGameRow>,
                           venues: seq<VenueRow>, replies: seq<Reply>)
    ensures var m := Merge(MasterRows(master), NewRows(Emitted(SheetFates(master, teams, lines)), venues, replies));
            forall k :: k in Keys(m, ApiId) && k !in MasterIds(master) ==>
              exists row :: row in lines && PaddedId(row.gameId) == k
  {
    var added := NewRows(Emitted(SheetFates(master, teams, lines)), venues, replies);
    MergeKeys(MasterRows(master), added);
    forall k | k in Keys(Merge(MasterRows(master), added), ApiId) && k !in MasterIds(master)
      ensures exists row :: row in lines && PaddedId(row.gameId) == k
    {
      assert k in Keys(added, ApiId);
      KeysWitness(added, ApiId, k);
      var i :| 0 <= i < |added| && ApiId(added[i]) == k;
      var row := NewRowFromLine(master, teams, lines, venues, replies, i);
    }
  }

  /** Every id of the merged sheet is already padded, so reading it back changes nothing. */
  lemma MergedSheetRereads(master: Master, teams: seq<TeamRow>, lines: seq<TeamGameRow>,
                           venues: seq<VenueRow>, replies: seq<Reply>)
    ensures var m := Merge(MasterRows(master), NewRows(Emitted(SheetFates(master, teams, lines)), venues, replies));
            MasterRows(Sheet(m)) == m
  {
    var base := MasterRows(master);
    var added := NewRows(Emitted(SheetFates(master, teams, lines)), venues, replies);
    MasterRowsPadded(master);
    forall i | 0 <= i < |added| ensures IsPadded(added[i].apiGameId) {
      NewRowFresh(master, teams, lines, venues, replies, i);
    }
    MergePadded(base, added);
    RepadIdempotent(Merge(base, added));
  }

  /** The master's rows, as read, carry padded ids. */
  lemma MasterRowsPadded(master: Master)
    ensures forall i :: 0 <= i < |MasterRows(master)| ==> IsPadded(MasterRows(master)[i].apiGameId)
  {
    if master.Sheet? {
      RepadIdempotent(master.rows);
    }
  }

  /** Merging two sheets of padded ids gives a sheet of padded ids. */
  lemma MergePadded(base: seq<SheetRow>, added: seq<SheetRow>)
    requires forall i :: 0 <= i < |base| ==> IsPadded(base[i].apiGameId)
    requires forall i :: 0 <= i < |added| ==> IsPadded(added[i].apiGameId)
    ensures forall i :: 0 <= i < |Merge(base, added)| ==> IsPadded(Merge(base, added)[i].apiGameId)
  {
    var m := Merge(base, added);
    MergeInventsNothing(base, added);
    forall i | 0 <= i < |m| ensures IsPadded(m[i].apiGameId) {
      assert m[i] in m;
      if m[i] in base {
        var j :| 0 <= j < |base| && base[j] == m[i];
      } else {
        var j :| 0 <= j < |added| && added[j] == m[i];
      }
    }
  }

  /** Against the merged sheet, the same lines emit no row: each one they emitted
      before is now in the sheet. */
  lemma MergedSheetEmitsNothing(master: Master, teams: seq<TeamRow>, lines: seq<TeamGameRow>,
                                venues: seq<VenueRow>, replies: seq<Reply>)
    ensures var m := Merge(MasterRows(master), NewRows(Emitted(SheetFates(master, teams, lines)), venues, replies));
            Emitted(SheetFates(Sheet(m), teams, lines)) == []
  {
    var records := Emitted(SheetFates(master, teams, lines));
    var added := NewRows(records, venues, replies);
    var m := Merge(MasterRows(master), added);
    var records' := Emitted(SheetFates(Sheet(m), teams, lines));
    MergedSheetRereads(master, teams, lines, venues, replies);
    MergeKeys(MasterRows(master), added);
    if |records'| > 0 {
      var r := records'[0];
      assert r in records';
      var gs := GroupByGame(lines);
      var k, home := SheetRecordFromGroup(gs, TeamIndex(teams), MasterIds(Sheet(m)), r);
      UpdaterEmittedShrinks(gs, TeamIndex(teams), MasterIds(master), MasterIds(Sheet(m)), r);
      assert false;
    }
  }

  /** Running the updater a second time on the same day, over the sheet it wrote, adds
      nothing and writes the same sheet again. */
  lemma UpdaterRerun(master: Master, teams: seq<TeamRow>, venues: seq<VenueRow>,
                     feed: Option<seq<TeamGameRow>>, day: string, replies: seq<Reply>)
    requires UpdaterRun(master, teams, venues, feed, day, replies).Saved?
    ensures var r := UpdaterRun(master, teams, venues, feed, day, replies);
            var r' := UpdaterRun(Sheet(r.sheet), teams, venues, feed, day, replies);
            r'.Saved? && r'.sheet == r.sheet && r'.added == 0
  {
    var r := UpdaterRun(master, teams, venues, feed, day, replies);
    var lines := DayLines(feed.value, day);
    UpdaterRunParts(master, teams, venues, feed.value, day, replies);
    if r.added > 0 {
      MergedSheetRereads(master, teams, lines, venues, replies);
      MergedSheetEmitsNothing(master, teams, lines, venues, replies);
    } else {
      MasterRowsPadded(master);
      RepadIdempotent(r.sheet);
      assert MasterRows(Sheet(r.sheet)) == r.sheet;
      assert SheetFates(Sheet(r.sheet), teams, lines) == SheetFates(master, teams, lines);
    }
    UpdaterRunNothingNew(Sheet(r.sheet), teams, venues, feed.value, day, replies);
  }

  /** A saved run in terms of its parts: it adds exactly the emitted rows, merging them
      in when there are any and writing the sheet back as read otherwise. */
  lemma UpdaterRunParts(master: Master, teams: seq<TeamRow>, venues: seq<VenueRow>,
                        feed: seq<TeamGameRow>, day: string, replies: seq<Reply>)
    requires UpdaterRun(master, teams, venues, Some(feed), day, replies).Saved?
    ensures var r := UpdaterRun(master, teams, venues, Some(feed), day, replies);
            var records := Emitted(SheetFates(master, teams, DayLines(feed, day)));
            r.added == |records|
            && (r.added == 0 ==> master.Sheet? && r.sheet == MasterRows(master))
            && (r.added > 0 ==> r.sheet == Merge(MasterRows(master), NewRows(records, venues, replies)))
  {
  }

  /** Over a readable sheet, lines that emit nothing leave the sheet as read. */
  lemma UpdaterRunNothingNew(m: Master, teams: seq<TeamRow>, venues: seq<VenueRow>,
                             feed: seq<TeamGameRow>, day: string, replies: seq<Reply>)
    requires m.Sheet?
    requires Emitted(SheetFates(m, teams, DayLines(feed, day))) == []
    ensures var r := UpdaterRun(m, teams, venues, Some(feed), day, replies);
            r.Saved? && r.sheet == MasterRows(m) && r.added == 0
  {
  }


  // ---------------------------------------------------------------- season snapshot

  /** What the snapshot script ends with: the game request raised (exit 1), or the
      sheet it writes with the count of games skipped for an unknown team and the trace
      of its scoreboard requests. */
  datatype SnapshotOutcome =
    | SnapshotFeedFailed
    | Snapshot(sheet: seq<SheetRow>, skipped: nat, dates: seq<DateFetch>)

  /** The records of the snapshot loop: one per group that pairs, under its raw id. */
  function SnapshotRecords(teams: seq<TeamRow>, lines: seq<TeamGameRow>): seq<SheetRow> {
    Emitted(SnapshotFates(GroupByGame(lines), TeamIndex(teams)))
  }

  /** `sorted({r["GAME_DATE"] for r in rows})`. */
  function SnapshotDates(records: seq<SheetRow>): (ds: seq<string>)
    ensures SortedBy(ds, StrLe) && Distinct(ds)
    ensures forall d :: d in ds <==> d in Keys(records, SheetDate)
  {
    StrLeIsTotal();
    SortedKeys(records, SheetDate, StrLe)
  }

  /** One scoreboard request per date, a raised request passed over; arena and
      attendance are looked up by the raw id, then the rows are sorted. */
  function SnapshotEnrich(records: seq<SheetRow>, scoreboard: string -> seq<Reply>)
    : (r: (seq<SheetRow>, seq<DateFetch>))
    ensures SortedBy(r.0, SheetLe) && |r.0| == |records|
    ensures |r.1| == |SnapshotDates(records)|
    ensures forall i :: 0 <= i < |r.1| ==>
              r.1[i].date == SnapshotDates(records)[i] && r.1[i].attempts == 1
              && (r.1[i].ok <==> Succeeds(ReplyAt(scoreboard(r.1[i].date), 0), RawKey))
  {
    var f := RetryEachDate(NothingGathered(), SnapshotDates(records), scoreboard, 1, RawKey, map[]);
    SheetLeIsTotal();
    (SortBy(ApplyToSnapshotRows(records, f.0), SheetLe), f.1)
  }

  /** The season snapshot: the window's lines, reconciled with no stored-id check,
      enriched and sorted by date and home team. */
  function SnapshotRun(teams: seq<TeamRow>, feed: Option<seq<TeamGameRow>>, from: string, to: string,
                       scoreboard: string -> seq<Reply>)
    : (o: SnapshotOutcome)
    ensures o.SnapshotFeedFailed? <==> feed.None?
    ensures o.Snapshot? ==> SortedBy(o.sheet, SheetLe)
    ensures o.Snapshot? ==> (|o.sheet| == 0 <==> |o.dates| == 0)
    ensures o.Snapshot? ==> forall i :: 0 <= i < |o.dates| ==>
              o.dates[i].attempts == 1
              && (o.dates[i].ok <==> Succeeds(ReplyAt(scoreboard(o.dates[i].date), 0), RawKey))
    ensures o.Snapshot? ==>
              feed.Some?
              && |o.sheet| == |Filter(SnapshotFates(GroupByGame(WindowLines(feed.value, from, to)), TeamIndex(teams)), IsEmit)|
              && o.skipped == |Filter(SnapshotFates(GroupByGame(WindowLines(feed.value, from, to)), TeamIndex(teams)), IsNoTeam)|
  {
    if feed.None? then SnapshotFeedFailed
    else
      var lines := WindowLines(feed.value, from, to);
      var fs := SnapshotFates(GroupByGame(lines), TeamIndex(teams));
      var records := Emitted(fs);
      if |records| == 0 then Snapshot([], |Filter(fs, IsNoTeam)|, [])
      else
        var (sheet, trace) := SnapshotEnrich(records, scoreboard);
        assert SheetDate(records[0]) in SnapshotDates(records);
        Snapshot(sheet, |Filter(fs, IsNoTeam)|, trace)
  }

  /** The snapshot loop never crashes and finds no duplicate. */
  lemma SnapshotTally(gs: seq<Group>, teams: map<string, int>)
    ensures TallyFates(SnapshotFates(gs, teams)).Some?
    ensures |Filter(SnapshotFates(gs, teams), IsDuplicate)| == 0
  {
    FilterNone(SnapshotFates(gs, teams), IsDuplicate);
  }

  /** Every game of the window is a row of the sheet or counted as of an unknown team,
      except the games with fewer than two lines and those the tags cannot place, which
      the snapshot passes over without counting. */
  lemma SnapshotCounts(teams: seq<TeamRow>, feed: seq<TeamGameRow>, from: string, to: string,
                       scoreboard: string -> seq<Reply>)
    ensures var o := SnapshotRun(teams, Some(feed), from, to, scoreboard);
            var gs := GroupByGame(WindowLines(feed, from, to));
            var fs := SnapshotFates(gs, TeamIndex(teams));
            o.Snapshot?
            && |o.sheet| + o.skipped + |Filter(fs, IsTooFew)| + |Filter(fs, IsUndetermined)| == |gs|
  {
    SnapshotTally(GroupByGame(WindowLines(feed, from, to)), TeamIndex(teams));
  }

  /** A snapshot record carries the raw id of a group that pairs, and its home line's date. */
  lemma SnapshotRecordFromGroup(gs: seq<Group>, teams: map<string, int>, r: SheetRow)
    returns (i: nat, home: TeamGameRow)
    requires r in Emitted(SnapshotFates(gs, teams))
    ensures i < |gs| && home in gs[i].rows && home.gameDate == r.date
    ensures r.apiGameId == gs[i].id && PairGroup(gs[i].rows, teams).Paired?
    ensures r.arena.None? && r.venueId.None? && r.attendance.None?
  {
    var fs := SnapshotFates(gs, teams);
    EmittedFrom(fs, r);
    i :| 0 <= i < |fs| && fs[i] == Emit(r);
    assert SnapshotFate(gs[i], teams) == Emit(r);
    home := PairGroup(gs[i].rows, teams).home;
  }

  /** An id is a snapshot record's exactly when it is the id of some line and that
      game's lines pair into home and away. */
  lemma SnapshotRecordIds(teams: seq<TeamRow>, lines: seq<TeamGameRow>)
    ensures forall k :: k in Keys(SnapshotRecords(teams, lines), ApiId) <==>
              k in Keys(lines, GameIdOf) && PairGroup(RowsOfGame(lines, k), TeamIndex(teams)).Paired?
  {
    var gs := GroupByGame(lines);
    var fs := SnapshotFates(gs, TeamIndex(teams));
    var records := Emitted(fs);
    forall k | k in Keys(records, ApiId)
      ensures k in Keys(lines, GameIdOf) && PairGroup(RowsOfGame(lines, k), TeamIndex(teams)).Paired?
    {
      KeysWitness(records, ApiId, k);
      var n :| 0 <= n < |records| && ApiId(records[n]) == k;
      assert records[n] in records;
      var i, home := SnapshotRecordFromGroup(gs, TeamIndex(teams), records[n]);
      var j :| 0 <= j < |lines| && lines[j] == home;
      assert GameIdOf(lines[j]) in Keys(lines, GameIdOf);
    }
    forall k | k in Keys(lines, GameIdOf) && PairGroup(RowsOfGame(lines, k), TeamIndex(teams)).Paired?
      ensures k in Keys(records, ApiId)
    {
      KeysWitness(lines, GameIdOf, k);
      var j :| 0 <= j < |lines| && GameIdOf(lines[j]) == k;
      var i := GroupOfLine(lines, j);
      assert fs[i].Emit?;
      EmittedHas(fs, i);
      var n :| 0 <= n < |records| && records[n] == fs[i].rec;
      assert ApiId(records[n]) == k;
    }
  }

  /** Groups have distinct ids, so the records do too. */
  lemma {:induction false} EmittedKeysDistinct(fs: seq<Fate<SheetRow>>)
    requires forall i, j :: 0 <= i < j < |fs| && fs[i].Emit? && fs[j].Emit? ==>
               fs[i].rec.apiGameId != fs[j].rec.apiGameId
    ensures KeysDistinct(Emitted(fs), ApiId)
  {
    if |fs| > 0 {
      var rest := Emitted(fs[1..]);
      EmittedKeysDistinct(fs[1..]);
      if fs[0].Emit? {
        forall n | 0 <= n < |rest| ensures ApiId(rest[n]) != ApiId(fs[0].rec) {
          assert rest[n] in rest;
          EmittedFrom(fs[1..], rest[n]);
          var j :| 0 <= j < |fs[1..]| && fs[1..][j] == Emit(rest[n]);
          assert fs[j + 1] == Emit(rest[n]);
        }
        var e := Emitted(fs);
        assert e == [fs[0].rec] + rest;
        forall a, b | 0 <= a < b < |e| ensures ApiId(e[a]) != ApiId(e[b]) {
          if a > 0 {
            assert e[a] == rest[a - 1] && e[b] == rest[b - 1];
          } else {
            assert e[b] == rest[b - 1];
          }
        }
      }
    }
  }

  lemma SnapshotRecordsDistinct(teams: seq<TeamRow>, lines: seq<TeamGameRow>)
    ensures KeysDistinct(SnapshotRecords(teams, lines), ApiId)
  {
    var gs := GroupByGame(lines);
    var fs := SnapshotFates(gs, TeamIndex(teams));
    EmittedKeysDistinct(fs);
  }

  /** Enrichment only fills arena and attendance: each sheet row is a record with those
      two cells set, a set arena non-empty and trimmed, a set attendance positive. */
  lemma SnapshotEnrichedRow(records: seq<SheetRow>, scoreboard: string -> seq<Reply>, x: SheetRow)
    returns (i: nat)
    requires x in SnapshotEnrich(records, scoreboard).0
    ensures i < |records| && x == records[i].(arena := x.arena, attendance := x.attendance)
    ensures x.arena.Some? ==> |x.arena.value| > 0 && NoBorderSpace(x.arena.value)
    ensures x.attendance.Some? ==> x.attendance.value > 0
  {
    var none: Gathered<string> := NothingGathered();
    assert Sound(none, map[]);
    var (g, trace) := RetryEachDate(none, SnapshotDates(records), scoreboard, 1, RawKey, map[]);
    var applied := ApplyToSnapshotRows(records, g);
    assert x in multiset(applied);
    i :| 0 <= i < |applied| && applied[i] == x;
  }

  /** Enrichment keeps the ids and the dates, and keeps the ids distinct. */
  lemma SnapshotEnrichedKeys(records: seq<SheetRow>, scoreboard: string -> seq<Reply>)
    ensures Keys(SnapshotEnrich(records, scoreboard).0, ApiId) == Keys(records, ApiId)
    ensures Keys(SnapshotEnrich(records, scoreboard).0, SheetDate) == Keys(records, SheetDate)
    ensures KeysDistinct(records, ApiId) ==> KeysDistinct(SnapshotEnrich(records, scoreboard).0, ApiId)
  {
    var g := RetryEachDate(NothingGathered(), SnapshotDates(records), scoreboard, 1, RawKey, map[]).0;
    var applied := ApplyToSnapshotRows(records, g);
    SheetLeIsTotal();
    var sheet := SortBy(applied, SheetLe);
    KeysPermutation(applied, sheet, ApiId);
    KeysPermutation(applied, sheet, SheetDate);
    KeysPointwise(applied, records, ApiId, ApiId);
    KeysPointwise(applied, records, SheetDate, SheetDate);
    if KeysDistinct(records, ApiId) {
      assert KeysDistinct(applied, ApiId);
      KeysDistinctPermutation(applied, sheet, ApiId);
    }
  }

  /** The snapshot holds one row per game of the window whose lines pair, and no other:
      its ids are exactly those games' raw ids, each once. */
  lemma SnapshotGames(teams: seq<TeamRow>, feed: seq<TeamGameRow>, from: string, to: string,
                      scoreboard: string -> seq<Reply>)
    ensures var o := SnapshotRun(teams, Some(feed), from, to, scoreboard);
            var lines := WindowLines(feed, from, to);
            KeysDistinct(o.sheet, ApiId)
            && forall k :: k in Keys(o.sheet, ApiId) <==>
                 k in Keys(lines, GameIdOf) && PairGroup(RowsOfGame(lines, k), TeamIndex(teams)).Paired?
  {
    var lines := WindowLines(feed, from, to);
    var records := SnapshotRecords(teams, lines);
    SnapshotRecordIds(teams, lines);
    SnapshotRecordsDistinct(teams, lines);
    if |records| > 0 {
      assert SnapshotRun(teams, Some(feed), from, to, scoreboard).sheet == SnapshotEnrich(records, scoreboard).0;
      SnapshotEnrichedKeys(records, scoreboard);
    }
  }

  /** Every snapshot row is a game of the window: its id and date are a window line's,
      it carries no venue id, and a set arena or attendance is a clean one. */
  lemma SnapshotRowsFromFeed(teams: seq<TeamRow>, feed: seq<TeamGameRow>, from: string, to: string,
                             scoreboard: string -> seq<Reply>)
    ensures var o := SnapshotRun(teams, Some(feed), from, to, scoreboard);
            forall x :: x in o.sheet ==>
              (exists row :: row in feed && row.gameId == x.apiGameId && row.gameDate == x.date)
              && StrLe(from, x.date) && StrLe(x.date, to)
              && x.venueId.None?
              && (x.arena.Some? ==> |x.arena.value| > 0 && NoBorderSpace(x.arena.value))
              && (x.attendance.Some? ==> x.attendance.value > 0)
  {
    var lines := WindowLines(feed, from, to);
    var records := SnapshotRecords(teams, lines);
    var sheet := SnapshotRun(teams, Some(feed), from, to, scoreboard).sheet;
    if |records| > 0 {
      assert sheet == SnapshotEnrich(records, scoreboard).0;
      forall x | x in sheet
        ensures (exists row :: row in feed && row.gameId == x.apiGameId && row.gameDate == x.date)
                && StrLe(from, x.date) && StrLe(x.date, to)
                && x.venueId.None?
                && (x.arena.Some? ==> |x.arena.value| > 0 && NoBorderSpace(x.arena.value))
                && (x.attendance.Some? ==> x.attendance.value > 0)
      {
        var n := SnapshotEnrichedRow(records, scoreboard, x);
        assert records[n] in records;
        var i, home := SnapshotRecordFromGroup(GroupByGame(lines), TeamIndex(teams), records[n]);
        assert home in lines;
      }
    }
  }

  /** What the run writes, in terms of its records. */
  lemma SnapshotRunSheet(teams: seq<TeamRow>, feed: seq<TeamGameRow>, from: string, to: string,
                         scoreboard: string -> seq<Reply>)
    ensures var o := SnapshotRun(teams, Some(feed), from, to, scoreboard);
            var records := SnapshotRecords(teams, WindowLines(feed, from, to));
            o.Snapshot?
            && (|records| == 0 ==> o.sheet == [] && o.dates == [])
            && (|records| > 0 ==> o.sheet == SnapshotEnrich(records, scoreboard).0
                                  && o.dates == SnapshotEnrich(records, scoreboard).1)
  {
  }

  /** The scoreboard is asked about the dates of the sheet and no other, ascending,
      each once. */
  lemma SnapshotAsksEachDate(teams: seq<TeamRow>, feed: seq<TeamGameRow>, from: string, to: string,
                             scoreboard: string -> seq<Reply>)
    ensures var o := SnapshotRun(teams, Some(feed), from, to, scoreboard);
            Keys(o.dates, FetchDate) == Keys(o.sheet, SheetDate) && TraceAscending(o.dates)
  {
    var records := SnapshotRecords(teams, WindowLines(feed, from, to));
    SnapshotRunSheet(teams, feed, from, to, scoreboard);
    SnapshotTraceDates(records, scoreboard);
  }

  lemma SnapshotTraceDates(records: seq<SheetRow>, scoreboard: string -> seq<Reply>)
    ensures Keys(SnapshotEnrich(records, scoreboard).1, FetchDate) == Keys(SnapshotEnrich(records, scoreboard).0, SheetDate)
    ensures TraceAscending(SnapshotEnrich(records, scoreboard).1)
  {
    SnapshotEnrichedKeys(records, scoreboard);
    TraceOfDates(SnapshotEnrich(records, scoreboard).1, SnapshotDates(records));
  }
}

=== FILE: store.dfy ===
/**
 * An abstract database table keyed by its primary key. An INSERT fails when the key
 * is already present, and also for keys in `refused`, which stands for every other
 * reason the database may reject a row (a foreign key, a constraint, a lost
 * connection). A failed INSERT leaves the table as it was.
 */
module Store {
  import opened Wrappers

  datatype Table<K, V> = Table(rows: map<K, V>, refused: set<K>)

  function Insert<K, V>(t: Table<K, V>, k: K, v: V): (r: Option<Table<K, V>>)
    ensures r.Some? <==> k !in t.rows && k !in t.refused
    ensures r.Some? ==> r.value == Table(t.rows[k := v], t.refused)
    ensures r.Some? ==> k in r.value.rows && r.value.rows[k] == v && |r.value.rows| == |t.rows| + 1
    ensures r.Some? ==> forall j :: j in t.rows ==> r.value.rows[j] == t.rows[j]
    ensures r.Some? ==> r.value.refused == t.refused
  {
    if k in t.rows || k in t.refused then None else Some(Table(t.rows[k := v], t.refused))
  }

  /** A key that was inserted once is refused the second time, whatever the value. */
  lemma InsertTwiceFails<K, V>(t: Table<K, V>, k: K, v: V, w: V)
    requires Insert(t, k, v).Some?
    ensures Insert(Insert(t, k, v).value, k, w).None?
  {
  }
}

=== FILE: text.dfy ===
/**
 * The string primitives the ingestion scripts lean on: Python's `str.strip()`,
 * `str.lower()`, `str.lstrip('0')`, `str.zfill(n)`, `int(s)` on digit strings,
 * `str(n)` on naturals, and Python's ordering of strings (code point by code point).
 */
module Text {
  import opened Wrappers

  /** The characters Python's `str.isspace()` accepts. The same set is what `\s`
      matches in a `str` regex and what a bare `strip()` removes. */
  predicate IsSpace(c: char) {
    var n := c as int;
    (9 <= n <= 13) || (28 <= n <= 32) || n == 0x85 || n == 0xA0 || n == 0x1680
    || (0x2000 <= n <= 0x200A) || n == 0x2028 || n == 0x2029 || n == 0x202F
    || n == 0x205F || n == 0x3000
  }

  predicate NoBorderSpace(s: string) {
    |s| == 0 || (!IsSpace(s[0]) && !IsSpace(s[|s| - 1]))
  }

  predicate AllSpace(s: string) {
    forall i :: 0 <= i < |s| ==> IsSpace(s[i])
  }

  /** `s.lstrip()`: what is removed is whitespace, and what remains does not start with it. */
  function LStrip(s: string): (r: string)
    ensures |r| <= |s| && r == s[|s| - |r|..]
    ensures AllSpace(s[..|s| - |r|])
    ensures |r| == 0 || !IsSpace(r[0])
  {
    if |s| > 0 && IsSpace(s[0]) then LStrip(s[1..]) else s
  }

  /** `s.rstrip()`: what is removed is whitespace, and what remains does not end with it. */
  function RStrip(s: string): (r: string)
    ensures |r| <= |s| && r == s[..|r|]
    ensures AllSpace(s[|r|..])
    ensures |r| == 0 || !IsSpace(r[|r| - 1])
  {
    if |s| > 0 && IsSpace(s[|s| - 1]) then RStrip(s[..|s| - 1]) else s
  }

  /** `s.strip()`: a middle slice of `s` with only whitespace cut off either end. */
  function Strip(s: string): (r: string)
    ensures NoBorderSpace(r)
    ensures |r| <= |s|
  {
    var l := LStrip(s);
    var r := RStrip(l);
    assert |r| > 0 ==> r[0] == l[0];
    r
  }

  lemma {:induction false} LStripOfPadded(pad: string, t: string)
    requires AllSpace(pad)
    requires |t| == 0 || !IsSpace(t[0])
    ensures LStrip(pad + t) == t
    decreases |pad|
  {
    if |pad| > 0 {
      assert (pad + t)[1..] == pad[1..] + t;
      LStripOfPadded(pad[1..], t);
    } else {
      assert pad + t == t;
    }
  }

  lemma {:induction false} RStripOfPadded(t: string, pad: string)
    requires AllSpace(pad)
    requires |t| == 0 || !IsSpace(t[|t| - 1])
    ensures RStrip(t + pad) == t
    decreases |pad|
  {
    if |pad| > 0 {
      assert (t + pad)[..|t + pad| - 1] == t + pad[..|pad| - 1];
      RStripOfPadded(t, pad[..|pad| - 1]);
    } else {
      assert t + pad == t;
    }
  }

  /** Stripping removes exactly the surrounding whitespace: a name padded with
      whitespace on both sides strips back to the name. */
  lemma StripOfPadded(left: string, t: string, right: string)
    requires AllSpace(left) && AllSpace(right)
    requires NoBorderSpace(t)
    ensures Strip(left + t + right) == t
  {
    if |t| == 0 {
      assert left + t + right == left + right;
      LStripOfPadded(left + right, []);
      assert left + right + [] == left + right;
    } else {
      assert left + t + right == left + (t + right);
      LStripOfPadded(left, t + right);
      RStripOfPadded(t, right);
    }
  }

  /** Stripping twice is stripping once. */
  lemma StripIdempotent(s: string)
    ensures Strip(Strip(s)) == Strip(s)
  {
    var t := Strip(s);
    assert [] + t + [] == t;
    StripOfPadded([], t, []);
  }

  /** Every string is its stripped text with whitespace on either side. */
  lemma StripParts(s: string) returns (left: string, right: string)
    ensures s == left + Strip(s) + right
    ensures AllSpace(left) && AllSpace(right)
  {
    var l := LStrip(s);
    var r := RStrip(l);
    assert Strip(s) == r;
    left := s[..|s| - |l|];
    right := l[|r|..];
    SliceParts(s, l, r);
  }

  /** A suffix `l` of `s` and a prefix `r` of `l` split `s` into three pieces. */
  lemma SliceParts(s: string, l: string, r: string)
    requires |l| <= |s| && l == s[|s| - |l|..]
    requires |r| <= |l| && r == l[..|r|]
    ensures s == s[..|s| - |l|] + r + l[|r|..]
  {
    assert l == r + l[|r|..];
    assert s == s[..|s| - |l|] + l;
  }

  lemma AllSpaceConcat(a: string, b: string)
    requires AllSpace(a) && AllSpace(b)
    ensures AllSpace(a + b)
  {
  }

  /** Whitespace added around a string is removed again by stripping. */
  lemma StripIgnoresPadding(left: string, s: string, right: string)
    requires AllSpace(left) && AllSpace(right)
    ensures Strip(left + s + right) == Strip(s)
  {
    var l, r := StripParts(s);
    var t := Strip(s);
    AllSpaceConcat(left, l);
    AllSpaceConcat(r, right);
    Regroup(left, l, t, r, right);
    StripOfPadded(left + l, t, r + right);
  }

  lemma Regroup(a: string, b: string, c: string, d: string, e: string)
    ensures a + (b + c + d) + e == (a + b) + c + (d + e)
  {
  }

  /** Python's `str.lower()` on one character, for ASCII, Latin-1 and Latin Extended-A
      (U+0130, whose lower case is two characters, is left as it is). */
  function LowerChar(c: char): char {
    var n := c as int;
    if ('A' <= c <= 'Z') || (0xC0 <= n <= 0xDE && n != 0xD7) then (n + 32) as char
    else if ((0x100 <= n <= 0x12F) || (0x132 <= n <= 0x137) || (0x14A <= n <= 0x177)) && n % 2 == 0
    then (n + 1) as char
    else if ((0x139 <= n <= 0x148) || (0x179 <= n <= 0x17E)) && n % 2 == 1 then (n + 1) as char
    else if n == 0x178 then 0xFF as char
    else c
  }

  /** `s.lower()`, character by character. */
  function Lower(s: string): (r: string)
    ensures |r| == |s|
    ensures forall i :: 0 <= i < |s| ==> r[i] == LowerChar(s[i])
  {
    seq(|s|, i requires 0 <= i < |s| => LowerChar(s[i]))
  }

  /** Lower-casing is idempotent: a lower-cased key looked up again is unchanged. */
  lemma LowerIdempotent(s: string)
    ensures Lower(Lower(s)) == Lower(s)
  {
    forall i | 0 <= i < |s|
      ensures LowerChar(LowerChar(s[i])) == LowerChar(s[i])
    {
      var n := s[i] as int;
      if 0x100 <= n <= 0x17F {
        assert LowerChar(s[i]) as int == n || LowerChar(s[i]) as int == n + 1 || n == 0x178;
      }
    }
  }

  /** Lower-casing never turns whitespace into something else, nor anything else into whitespace. */
  lemma LowerCharSpace(c: char)
    ensures IsSpace(LowerChar(c)) <==> IsSpace(c)
  {
  }

  lemma LowerAppend(a: string, b: string)
    ensures Lower(a + b) == Lower(a) + Lower(b)
  {
    assert |Lower(a + b)| == |Lower(a) + Lower(b)|;
  }

  lemma LowerAllSpace(s: string)
    requires AllSpace(s)
    ensures AllSpace(Lower(s))
  {
    forall i | 0 <= i < |s| ensures IsSpace(Lower(s)[i]) {
      LowerCharSpace(s[i]);
    }
  }

  /** `s.strip().lower() == s.lower().strip()`: the two orders of normalising a name agree. */
  lemma StripLowerCommute(s: string)
    ensures Strip(Lower(s)) == Lower(Strip(s))
  {
    var left, right := StripParts(s);
    var t := Strip(s);
    LowerAppend(left + t, right);
    LowerAppend(left, t);
    LowerAllSpace(left);
    LowerAllSpace(right);
    if |t| > 0 {
      LowerCharSpace(t[0]);
      LowerCharSpace(t[|t| - 1]);
    }
    StripOfPadded(Lower(left), Lower(t), Lower(right));
  }

  /** Python's `part in s` for strings. */
  predicate HasInfix(s: string, part: string) {
    exists i :: 0 <= i <= |s| && InfixAt(s, part, i)
  }

  predicate InfixAt(s: string, part: string, i: nat) {
    i + |part| <= |s| && s[i..i + |part|] == part
  }

  // ---------------------------------------------------------------- digits

  predicate IsDigit(c: char) {
    '0' <= c <= '9'
  }

  predicate AllDigits(s: string) {
    forall i :: 0 <= i < |s| ==> IsDigit(s[i])
  }

  function DigitValue(c: char): nat
    requires IsDigit(c)
  {
    c as int - '0' as int
  }

  function DigitChar(d: nat): (c: char)
    requires d < 10
    ensures IsDigit(c) && DigitValue(c) == d
  {
    ('0' as int + d) as char
  }

  function Pow10(k: nat): (p: nat)
    ensures p >= 1
  {
    if k == 0 then 1 else 10 * Pow10(k - 1)
  }

  /** The decimal value of a string of ASCII digits. */
  function DigitsValue(s: string): nat
    requires AllDigits(s)
  {
    if |s| == 0 then 0 else DigitsValue(s[..|s| - 1]) * 10 + DigitValue(s[|s| - 1])
  }

  /** A digit string denotes a number below ten to the power of its length. */
  lemma {:induction false} DigitsValueBound(s: string)
    requires AllDigits(s)
    ensures DigitsValue(s) < Pow10(|s|)
  {
    if |s| > 0 {
      DigitsValueBound(s[..|s| - 1]);
    }
  }

  /** The value of a concatenation of digit strings is positional. */
  lemma {:induction false} DigitsValueAppend(a: string, b: string)
    requires AllDigits(a) && AllDigits(b)
    ensures AllDigits(a + b)
    ensures DigitsValue(a + b) == DigitsValue(a) * Pow10(|b|) + DigitsValue(b)
    decreases |b|
  {
    if |b| == 0 {
      assert a + b == a;
    } else {
      var b' := b[..|b| - 1];
      var c := b[|b| - 1];
      assert (a + b)[..|a + b| - 1] == a + b';
      assert (a + b)[|a + b| - 1] == c;
      DigitsValueAppend(a, b');
      assert DigitsValue(a + b) == DigitsValue(a + b') * 10 + DigitValue(c);
      assert DigitsValue(b) == DigitsValue(b') * 10 + DigitValue(c);
      ShiftDigit(DigitsValue(a), Pow10(|b'|), DigitsValue(b'), DigitValue(c));
    }
  }

  /** Appending a digit to `x * p + y` is appending it to `y` with `p` scaled by ten. */
  lemma ShiftDigit(x: int, p: int, y: int, d: int)
    ensures (x * p + y) * 10 + d == x * (p * 10) + (y * 10 + d)
  {
    assert (x * p) * 10 == x * (p * 10);
  }

  /** A run of `n` zero characters. */
  function Zeros(n: nat): (z: string)
    ensures |z| == n && AllDigits(z)
    ensures forall i :: 0 <= i < n ==> z[i] == '0'
  {
    seq(n, i => '0')
  }

  lemma ZerosPrefixCombine(a: nat, b: nat, t: string)
    ensures Zeros(a) + (Zeros(b) + t) == Zeros(a + b) + t
  {
    var l := Zeros(a) + (Zeros(b) + t);
    var r := Zeros(a + b) + t;
    assert |l| == |r|;
    forall i | 0 <= i < |l| ensures l[i] == r[i] {
      if i < a + b {
        assert l[i] == '0';
      }
    }
  }

  lemma {:induction false} ZerosValue(n: nat)
    ensures DigitsValue(Zeros(n)) == 0
  {
    if n > 0 {
      assert Zeros(n)[..n - 1] == Zeros(n - 1);
      ZerosValue(n - 1);
    }
  }

  /** Leading zeros never change the value of a digit string. */
  lemma LeadingZerosValue(n: nat, t: string)
    requires AllDigits(t)
    ensures AllDigits(Zeros(n) + t)
    ensures DigitsValue(Zeros(n) + t) == DigitsValue(t)
  {
    DigitsValueAppend(Zeros(n), t);
    ZerosValue(n);
  }

  /** `s.lstrip('0')`: the zeros removed are a prefix, and what remains does not start with '0'. */
  function LStripZeros(s: string): (r: string)
    ensures |r| <= |s|
    ensures s == Zeros(|s| - |r|) + r
    ensures |r| == 0 || r[0] != '0'
  {
    if |s| > 0 && s[0] == '0' then
      var r := LStripZeros(s[1..]);
      assert s == [s[0]] + s[1..];
      assert Zeros(|s| - |r|) == [s[0]] + Zeros(|s| - 1 - |r|);
      r
    else
      assert Zeros(0) + s == s;
      s
  }

  /** Python's `int(s)` restricted to ASCII digit strings: raises (None) on the empty string. */
  function ParseNat(s: string): (r: Option<nat>)
    ensures r.Some? <==> |s| > 0 && AllDigits(s)
  {
    if |s| > 0 && AllDigits(s) then Some(DigitsValue(s)) else None
  }

  /** `str(n)` for a natural number. */
  function Decimal(n: nat): (s: string)
    ensures |s| > 0 && AllDigits(s)
  {
    if n < 10 then [DigitChar(n)] else Decimal(n / 10) + [DigitChar(n % 10)]
  }

  /** `int(str(n)) == n`. */
  lemma {:induction false} DecimalValue(n: nat)
    ensures DigitsValue(Decimal(n)) == n
  {
    if n >= 10 {
      var s := Decimal(n);
      assert s[..|s| - 1] == Decimal(n / 10);
      DecimalValue(n / 10);
    }
  }

  /** `str(int(t)) == t` for a digit string without a leading zero: printing the parsed
      number gives the text back. */
  lemma {:induction false} DecimalOfDigits(t: string)
    requires |t| > 0 && AllDigits(t) && t[0] != '0'
    ensures Decimal(DigitsValue(t)) == t
    decreases |t|
  {
    if |t| == 1 {
      assert DigitsValue(t) == DigitsValue(t[..0]) * 10 + DigitValue(t[0]);
    } else {
      var t' := t[..|t| - 1];
      DecimalOfDigits(t');
      PositiveValue(t');
      var n := DigitsValue(t);
      assert n == DigitsValue(t') * 10 + DigitValue(t[|t| - 1]);
      assert n / 10 == DigitsValue(t') && n % 10 == DigitValue(t[|t| - 1]);
      assert t == t' + [t[|t| - 1]];
    }
  }

  lemma {:induction false} PositiveValue(t: string)
    requires |t| > 0 && AllDigits(t) && t[0] != '0'
    ensures DigitsValue(t) >= 1
    decreases |t|
  {
    if |t| > 1 {
      PositiveValue(t[..|t| - 1]);
    }
  }

  /** Python's `s.zfill(width)`: pad with '0' on the left up to `width`, keeping a
      leading sign in front. */
  function ZFill(s: string, width: nat): (r: string)
    ensures |r| == if |s| >= width then |s| else width
    ensures |s| >= width ==> r == s
  {
    if |s| >= width then s
    else if |s| > 0 && (s[0] == '+' || s[0] == '-') then [s[0]] + Zeros(width - |s|) + s[1..]
    else Zeros(width - |s|) + s
  }

  /** zfill leaves the text as the suffix of the result and only adds zeros. */
  lemma ZFillDigits(s: string, width: nat)
    requires AllDigits(s)
    ensures |s| < width ==> ZFill(s, width) == Zeros(width - |s|) + s
    ensures AllDigits(ZFill(s, width))
  {
    if |s| < width {
      if |s| > 0 {
        assert IsDigit(s[0]);
      }
      DigitsValueAppend(Zeros(width - |s|), s);
    }
  }

  // ---------------------------------------------------------------- ordering

  /** Python's `a <= b` on strings: lexicographic by code point. */
  predicate StrLe(a: string, b: string)
    decreases |a|
  {
    |a| == 0 || (|b| > 0 && (a[0] < b[0] || (a[0] == b[0] && StrLe(a[1..], b[1..]))))
  }

  lemma {:induction false} StrLeTotal(a: string, b: string)
    ensures StrLe(a, b) || StrLe(b, a)
    decreases |a|
  {
    if |a| > 0 && |b| > 0 && a[0] == b[0] {
      StrLeTotal(a[1..], b[1..]);
    }
  }

  lemma {:induction false} StrLeTransitive(a: string, b: string, c: string)
    requires StrLe(a, b) && StrLe(b, c)
    ensures StrLe(a, c)
    decreases |a|
  {
    if |a| > 0 && a[0] == b[0] && b[0] == c[0] {
      StrLeTransitive(a[1..], b[1..], c[1..]);
    }
  }

  lemma {:induction false} StrLeAntisymmetric(a: string, b: string)
    requires StrLe(a, b) && StrLe(b, a)
    ensures a == b
    decreases |a|
  {
    if |a| > 0 {
      StrLeAntisymmetric(a[1..], b[1..]);
      assert a == [a[0]] + a[1..] && b == [b[0]] + b[1..];
    }
  }
}

=== FILE: wrappers.dfy ===
/** Optional values: the model's stand-in for Python's `None`, pandas' NaN and `dict.get` misses. */
module Wrappers {

  datatype Option<+T> = None | Some(value: T) {

    /** The value, or `default` when there is none (Python's `x if x is not None else default`). */
    function GetOr(default: T): T {
      match this
      case Some(v) => v
      case None => default
    }
  }

  /** `m.get(k)`: the entry for `k`, or None when the key is absent. */
  function Get<K, V>(m: map<K, V>, k: K): (r: Option<V>)
    ensures r.Some? <==> k in m
    ensures r.Some? ==> r.value == m[k]
  {
    if k in m then Some(m[k]) else None
  }
}
